=== FILE: README.md ===
# Medapp clinic core in Dafny

Medapp is a small clinic application: an Express/Mongoose server and a browser client.
This project models its rules as pure Dafny functions over immutable data, with lemmas about them.

Two server variants live side by side, and the model keeps them apart:

- **Legacy path (`server.js`).** Registration, login with a role hint, the `auth`/`authorize` gates, and
  the `/api/appointments` store (book, update, delete). Here an appointment's `doctorId` is a string
  that names a document of the separate `doctors` collection.
- **Controller path (`app/`).** The JWT middlewares `verifyToken`, `isAdmin`, `isDoctor` and `checkRole`.
  The `Record` and `Service` schemas. The record, doctor, auth, user and service controllers. The
  validation rules of the record routes.

On the client side, the model covers:

- the HTML encoder of the doctor dashboard;
- the tab filters, display order, cancel button and update bodies of the appointments page;
- the counters and short lists of the patient dashboard;
- the status badge and the email and phone helpers;
- the doctor search and the specialization buttons.

## How it is modelled

- **Database.** A `Domain.Db` value holds one sequence per collection: users, legacy doctors, legacy
  appointments, records and services. A sequence keeps insertion order, so `findOne` and `findById`
  answer the first match (`Seqs.FindFirst`).
- **Handlers.** A handler is a function from the database and the request to a `Response<Db>`: either
  `Ok` with the new database, or `Fail(status, message)` with the HTTP status and the exact message of
  the source.
- **Errors.** An error that reaches Express's `next(error)` or a `catch` is a 500 (`ServerError`).
- **Update bodies.** These are JSON objects (`map<string, Json>`). `Json.Pick` is the allow-list filter
  the handlers share. `Json.Field` casts one value onto a schema path. A value whose JSON type differs
  from the path's fails the save. Mongoose would convert some of these values instead; "## Left out"
  lists which ones.
- **Create bodies.** These are records with `Option` fields. `None` is an absent field, and
  "falsy" means absent or empty.
- **Dates.** Dates are integer timestamps and a birth date is its calendar year. The current time and
  year are parameters.
- **Foreign calls.** Token verification (`jwt.verify`), password hashing and comparison (bcrypt,
  `comparePassword`) and new ids are parameters.
- **Strings.** Strings are `seq<char>`. `JsString` gives the JavaScript string operations the source
  uses: ECMAScript whitespace for `trim`, `replace` of the first occurrence, `split`, `includes`, and
  UTF-16 `length`.
- **Sorting.** MongoDB and `Array.prototype.sort` orderings are the stable insertion sort
  `Sorting.Sort`. It is proved sorted and a permutation of its input.

`app/models/user.model.js` is not part of this model. The user schema follows the `userSchema` of
`server.js` (lines 199-209): saving a user fails (500) when username, email, password or fullName
is empty or absent, and a birth date that is not a date fails the save too. Any other validator or
hook is unknown, and the password is stored as the controllers hand it over.

## Model

| member | source | states |
|---|---|---|
| Domain.ParseRole | server.js:206 | parsing a role name gives back a role whose name is that text; only `patient`, `doctor`, `admin` are the schema's roles |
| Domain.ParseRoleName | server.js:206 | the three schema roles survive printing and parsing |
| Domain.ParseStatus | server.js:221 | exactly the four enum names parse, and each parses to the status with that name |
| Domain.StatusRoundTrip | server.js:221 | every status survives printing and parsing |
| Domain.UserById | server.js:249 | `findById` finds a user with that id exactly when one exists |
| Json.Pick | server.js:847-850 | the allow-list filter keeps exactly the body's keys that are allowed, with their values |
| Json.PickIdempotent | server.js:847-850 | filtering an already filtered body changes nothing |
| Json.Field | app/controllers/user.controller.js:20-24 | an absent key leaves the path alone, a value the path cannot hold fails, anything else is set |
| ServerAuth.HeaderToken | server.js:242 | no header gives no token; a header `Bearer t` gives `t` |
| ServerAuth.Auth | server.js:240-261 | passes exactly when the header's token verifies to an existing user, with that user's id and role; every failure is 401 |
| ServerAuth.AuthBearerPrefix | server.js:242 | a bearer header and the bare token are treated alike |
| ServerAuth.Authorize | server.js:264-298 | a pass carries a role from the allowed list; failures are 401 or 403; an empty list admits nobody |
| ServerAuth.AuthorizeIsAuthThenRole | server.js:264-298 | `authorize` answers as `auth` does, plus 403 for a role outside the list |
| ServerAuth.NormEmail | server.js:332 | a given email is lower-cased then trimmed; an absent one stays absent |
| ServerAuth.NormUsername | server.js:333 | a given username is trimmed; an absent one stays absent |
| ServerAuth.Register | server.js:327-388 | a clash on the normalised email or username is a 400; otherwise one patient is appended with normalised fields and the hashed password, and nothing else changes |
| ServerAuth.RegisterKeepsUnique | server.js:336-358 | registration keeps emails and usernames unique |
| ServerAuth.LoginUser | server.js:503-510 | some user has the normalised email or the trimmed username given iff one is found, and it is the first such user; with neither given, nobody |
| ServerAuth.RequestedRole | server.js:525 | the hint `user` means `patient`; any other hint is itself |
| ServerAuth.Login | server.js:497-573 | an unknown user is 401, a missing password 500, a wrong password 401; an admin or doctor hint that the stored role does not meet is 403 with that role's message; success iff all pass, returning the user found; the doctor-email 403 never fires |
| ServerAuth.Admit | server.js:517-544 | the password and role-hint checks for a found user, with each failure's status and message; success returns that user |
| ServerAuth.DoctorEmails | server.js:538-542 | every doctor's email is among the doctor emails |
| ServerAuth.PatientHintIgnored | server.js:523-544 | a `patient` or `user` hint never changes the outcome of a login |
| ServerAuth.InertHint | server.js:523-544 | any hint that names neither `admin` nor `doctor` gives the same outcome as no hint |
| AppointmentRules.CancelOnlyExact | server.js:864-870 | the patient rule admits exactly the body `{status: 'cancelled'}` |
| AppointmentRules.CancelOnlyPassesStatusCheck | server.js:853-858 | a cancel-only body never trips the status check |
| AppointmentRules.SymptomList | server.js:792 | no text gives no symptoms; otherwise one comma-free symptom per comma-separated piece |
| AppointmentRules.SymptomListPieces | server.js:792 | each stored symptom is the trimmed text of its piece |
| ServerAppointments.DurationOr30 | server.js:793 | a missing or zero duration becomes 30; any other is kept |
| ServerAppointments.FindLegacyDoctor | server.js:762-764 | finds the first legacy doctor with that id exactly when one exists |
| ServerAppointments.Book | server.js:755-839 | an unknown doctor is 404, before anything else; then 400 "unavailable" for a doctor marked unavailable, 400 "taken" for a held slot, and 500 for a missing reason; success iff none of these, and the new appointment is scheduled, owned by the caller, with the default duration and the split symptoms |
| ServerAppointments.BookKeepsNoDoubleBooking | server.js:776-784 | a booking keeps at most one live appointment per doctor and date |
| ServerAppointments.ReplayKeepsNoDoubleBooking | server.js:776-784 | any sequence of bookings, successful or not, keeps that invariant |
| ServerAppointments.ApplyPatch | server.js:873-877 | the save fails exactly when some named path cannot hold its value; otherwise only the named fields change, each to the value sent as its path casts it (status, texts, date, required reason, symptom list, duration) |
| ServerAppointments.ApplyPatchIdempotent | server.js:873-877 | assigning the same body twice stores what assigning it once does; a body naming no allow-listed path changes nothing |
| ServerAppointments.FindAppointment | server.js:857 | finds the first appointment with that id exactly when one exists |
| ServerAppointments.CancelApplies | server.js:864-877 | a lone cancellation always fits the schema and cancels |
| ServerAppointments.UpdateAt | server.js:864-877 | a patient gets 403 unless the appointment is theirs and the body is cancel-only, and then succeeds; for other roles success iff the body fits the schema, else 500; success replaces just that appointment by its patched copy, and a patient's success cancels it |
| ServerAppointments.Update | server.js:842-885 | a bad status is 400 before the lookup; then an unknown id is 404 and a missing caller 401; otherwise the answer is that of the ownership rule and the save |
| ServerAppointments.UpdateTouchesOnlyTarget | server.js:873-877 | an update changes only the appointment with that id |
| ServerAppointments.StaffUpdateSucceeds | server.js:864-877 | staff face no ownership check: a body that passes the status check and fits the schema succeeds on an existing appointment and stores the patched copy |
| ServerAppointments.UpdateCanDoubleBook | server.js:845-877 | from any store without double bookings, a doctor or admin setting a cancelled appointment back to `scheduled` while another live appointment holds its doctor and date succeeds and leaves two live appointments in one slot |
| AppointmentRules.PatientPatchCancels | server.js:864-870 | a patch that passes the patient rule is exactly `{status: 'cancelled'}`, so whatever it sets the status to is cancelled |
| ServerAppointments.StatusOnlyBody | server.js:845-858 | a body holding only a valid status passes the key filter and the status check and changes nothing but the status |
| ServerAppointments.StaffStatusUpdate | server.js:860-877 | a doctor or admin setting the status of the first appointment with a given id gets the store with just that appointment's status changed |
| ServerAppointments.Delete | server.js:888-906 | an unknown id is 404, a missing caller 401; 403 iff the caller is a patient who does not own it; the owner and every other role delete it; success removes exactly that index and nothing else changes |
| ServerAppointments.DeleteKeepsNoDoubleBooking | server.js:888-906 | a deletion keeps at most one live appointment per slot and, with unique ids, leaves exactly the appointments with other ids |
| AuthJwt.TokenHeader | app/middlewares/authJwt.js:6 | `x-access-token` when given, otherwise `authorization` |
| AuthJwt.VerifyToken | app/middlewares/authJwt.js:5-19 | no token is 403 "No token provided"; a failed verification is 401; a `Bearer ` prefix is stripped before verification |
| AuthJwt.AccessTokenTakesPrecedence | app/middlewares/authJwt.js:6 | with `x-access-token` present, `authorization` is never read |
| AuthJwt.IsAdmin | app/middlewares/authJwt.js:21-32 | passes iff the user is an admin; other roles 403, a missing user 500 |
| AuthJwt.IsDoctor | app/middlewares/authJwt.js:34-45 | passes iff the user is a doctor or an admin; other roles 403, a missing user 500 |
| AuthJwt.AdminPassesDoctorGate | app/middlewares/authJwt.js:24-41 | whoever passes `isAdmin` passes `isDoctor` |
| RoleMiddleware.Names | app/middlewares/roleMiddleware.js:15 | the role names, one per role, in order |
| RoleMiddleware.CheckRole | app/middlewares/roleMiddleware.js:3-22 | a missing user is 404, checked first; pass iff the role is listed; otherwise 403 with the joined role names; an empty list admits nobody |
| RoleMiddleware.CheckRoleAgreesWithGates | app/middlewares/roleMiddleware.js:11-13 | `checkRole('admin')` and `checkRole('doctor','admin')` pass the same users as `isAdmin` and `isDoctor` |
| RecordModel.Create | app/models/record.model.js:3-46 | a record is built iff the reason has at least 10 characters and a given duration is in 15..120; it is valid, scheduled, with duration 30 and price 0 by default |
| RecordModel.CreateDefaults | app/models/record.model.js:18-41 | a minimal draft gets status scheduled, duration 30 and price 0 |
| RecordModel.CreateRejectsDuration | app/models/record.model.js:32-37 | a duration outside 15..120 is refused |
| RecordController.OrDefault | app/controllers/record.controller.js:25-26 | `x \|\| d`: a missing or zero value becomes the default |
| RecordController.CreateRecord | app/controllers/record.controller.js:5-42 | 404 iff no user with that id is a doctor; a record the schema refuses is 500; otherwise the new record belongs to the caller, is scheduled and valid, with the reason and symptoms sent, duration 30 and price 0 by default |
| RecordController.CreateRecordIgnoresRecords | app/controllers/record.controller.js:10-30 | whether creation succeeds never depends on the stored records: there is no slot check |
| RecordController.CreateRecordCanDoubleBook | app/controllers/record.controller.js:19-30 | the same request twice books the same doctor at the same time twice |
| RecordController.ByDateDescIsPreorder | app/controllers/record.controller.js:60 | the date order is a total preorder |
| RecordController.GetRecords | app/controllers/record.controller.js:45-66 | exactly the records visible to the caller (own for a patient, booked with them for a doctor, all otherwise), latest first |
| RecordController.AdminSeesAll | app/controllers/record.controller.js:47-57 | a role other than patient and doctor sees every record |
| RecordController.GetRecordById | app/controllers/record.controller.js:69-92 | an unknown id is 404, a missing caller 500; a dangling reference the ownership test reads is 500; otherwise the record exactly when the caller may see it, else 403 |
| RecordController.FindRecord | app/controllers/record.controller.js:71 | finds the first record with that id exactly when one exists |
| RecordController.CheckAccess | app/controllers/record.controller.js:80-86 | a null populated reference is 500; with it live, the record iff the caller may see it, else 403 |
| RecordController.GetByIdInList | app/controllers/record.controller.js:45-92 | a record one may fetch by id is in one's list |
| RecordController.ApplyPatch | app/controllers/record.controller.js:128-131 | fails exactly when some named path cannot hold its value; otherwise only status, diagnosis, prescription, notes and price change, each to the value sent |
| RecordController.ApplyPatchIdempotent | app/controllers/record.controller.js:128-131 | setting the same body twice stores what setting it once does |
| RecordController.CancelApplies | app/controllers/record.controller.js:118-131 | a lone cancellation always passes the validators and cancels |
| RecordController.UpdateRecordAt | app/controllers/record.controller.js:118-131 | a patient gets 403 unless the record is theirs and the body is cancel-only, and then succeeds; for other roles success iff the patch applies, else 500; success replaces just that record by its patched copy |
| RecordController.UpdateRecord | app/controllers/record.controller.js:95-141 | a bad status is 400 before the 404 lookup; a missing caller is 500; otherwise the answer is that of the ownership rule and the update |
| RecordController.UpdateRecordIdempotent | app/controllers/record.controller.js:95-141 | repeating a successful update answers with the store the first one produced |
| RecordController.UpdateKeepsValid | app/controllers/record.controller.js:128-131 | an update keeps every stored record valid |
| RecordController.DeleteRecord | app/controllers/record.controller.js:144-164 | an unknown id is 404, a missing caller 500; 403 iff the caller is a patient who does not own it; otherwise exactly that record is removed and nothing else changes |
| RecordController.DeleteRemovesOnlyTarget | app/controllers/record.controller.js:144-164 | with unique ids, a deletion leaves exactly the records with other ids |
| RecordRoutes.Validate | app/routes/record.routes.js:9-16 | each of the doctor id, reason and duration messages appears iff its rule fails |
| RecordRoutes.Handle | app/routes/record.routes.js:18-26 | every record route answers `verifyToken`'s failure first; a create passes validation before the handler |
| RecordRoutes.AsChange | app/routes/record.routes.js:22-26 | a handler's answer is passed on unchanged |
| RecordRoutes.ValidatedCreateSaves | app/routes/record.routes.js:9-22 | a request that passes the route rules is saved exactly when its doctor exists: the schema never refuses it |
| DoctorController.OrdersArePreorders | app/controllers/doctor.controller.js:7-171 | the three sort orders are total preorders |
| DoctorController.GetAllDoctors | app/controllers/doctor.controller.js:5-15 | exactly the doctors, newest first |
| DoctorController.FindDoctor | app/controllers/doctor.controller.js:20-23 | finds a user with that id and role doctor exactly when one exists |
| DoctorController.GetDoctorById | app/controllers/doctor.controller.js:18-45 | 404 unless the id is a doctor; then that doctor, with exactly the multiset of their scheduled or confirmed records not in the past, earliest first |
| DoctorController.CreateDoctor | app/controllers/doctor.controller.js:48-91 | an email or username clash is 400; otherwise an empty or absent username, email, password or fullName, or an absent birth date (an Invalid Date), fails the save with 500; otherwise a verified doctor is appended holding exactly the username, email, password, fullName, phone, birth year and specialization sent |
| DoctorController.CreateDoctorKeepsUnique | app/controllers/doctor.controller.js:53-73 | creation keeps emails and usernames unique |
| DoctorController.UpdateDoctor | app/controllers/doctor.controller.js:94-123 | a value a path cannot hold is 500, an empty fullName included (the update runs the `required` validator); otherwise 404 iff the id is not a doctor, else success; only that doctor changes, only in the fields sent, each to the value sent |
| DoctorController.PatchDoctor | app/controllers/doctor.controller.js:106-110 | a patched doctor differs only in the fields named, each holding the value sent |
| DoctorController.UpdateDoctorKeepsUnique | app/controllers/doctor.controller.js:94-123 | an update keeps emails and usernames unique and the doctor still found under its id |
| DoctorController.DeleteDoctor | app/controllers/doctor.controller.js:126-154 | 400 iff the doctor has upcoming records, checked before the 404; otherwise a doctor is removed, exactly that user, and nothing else changes |
| DoctorController.SearchDoctors | app/controllers/doctor.controller.js:157-178 | exactly the doctors matching the specialization text and, for `available=true`, verified, by name |
| DoctorController.SearchWithoutFilters | app/controllers/doctor.controller.js:160-172 | without filters the search finds the same doctors as the full list |
| EmailShape.ValidMatchesPattern | app/controllers/auth.controller.js:17 | the executable check accepts exactly what `^[^\s@]+@[^\s@]+\.[^\s@]+$` matches |
| AuthController.Existing | app/controllers/auth.controller.js:32-34 | the clashing user has the lower-cased email or the username; none exists iff nobody has either |
| AuthController.ClashField | app/controllers/auth.controller.js:37 | the field is `email` iff the clashing user holds the lower-cased email, otherwise `username` |
| AuthController.Register | app/controllers/auth.controller.js:5-100 | missing fields, bad email, short password, clash (409 naming the clashing field) and age under 18 are refused in that order, with the source's messages; otherwise one user is appended with the username, password, fullName, phone and birth year sent, the lower-cased email, the role asked for or patient, unverified, created now |
| AuthController.AgeIsYearDifference | app/controllers/auth.controller.js:45-52 | the age test compares calendar years only |
| AuthController.RegisterTakesRoleFromBody | app/controllers/auth.controller.js:62 | asking for admin at registration gives an admin account |
| AuthController.LoginUser | app/controllers/auth.controller.js:113-124 | some user has the lower-cased email or the username given iff one is found, and it is the first such user; with neither given, nobody |
| AuthController.Login | app/controllers/auth.controller.js:102-160 | missing identifiers or password are 400; an unknown user and a wrong password give the same 401; success returns the user the lookup found |
| AuthController.RegisteredUserLogsIn | app/controllers/auth.controller.js:5-160 | a user just registered logs in with the email and password registered, when the password check accepts the stored password |
| AuthController.FindAll | app/controllers/auth.controller.js:173-177 | the first user holding every given identifier, found exactly when one exists |
| AuthController.CheckAvailability | app/controllers/auth.controller.js:163-195 | as written: no identifier is 400; "taken" iff one user matches every identifier given, and the field reported is "username" exactly when that first user's username is the one sent |
| AuthController.CheckAvailabilityMissesTakenUsername | app/controllers/auth.controller.js:173-177 | a taken username beside a fresh email is reported available |
| AuthController.FindAny | app/controllers/auth.controller.js:173-177 | corrected: the first user holding either identifier, found exactly when one exists |
| AuthController.CheckAvailabilityEither | app/controllers/auth.controller.js:163-195 | corrected: "taken" names the first user holding either identifier, and the field is "username" exactly when that user's username is the one sent |
| AuthController.EitherAvailableIffUnused | app/controllers/auth.controller.js:173-186 | corrected: available iff neither identifier is used by anyone |
| AuthController.EitherAgreesWithRegister | app/controllers/auth.controller.js:32-42 | what registration would accept is reported available by the corrected check |
| UserController.FindUser | app/controllers/user.controller.js:30-38 | finds the user with that id exactly when one exists |
| UserController.AsBirthYear | app/controllers/user.controller.js:20-28 | a number sets the birth date, `null` or `""` clears it, anything else fails |
| UserController.UpdateProfile | app/controllers/user.controller.js:15-47 | a value a profile path cannot hold is 500, a missing user 404, and otherwise success; success changes only the caller, only in fullName, phone and birthDate, and each field sent holds the value sent |
| UserController.UpdatedProfileReadsBack | app/controllers/user.controller.js:15-47 | after an update, looking the caller up finds every value sent |
| UserController.ProfileKeepsAccount | app/controllers/user.controller.js:17-24 | a profile update never changes the role, email, username, password or id |
| UserController.UpdateProfileIdempotent | app/controllers/user.controller.js:15-47 | sending the same profile update twice equals sending it once |
| UserController.UpdateUserRole | app/controllers/user.controller.js:60-86 | 400 iff the role is not one of the three names; 404 for a missing user; success changes only that user's role |
| UserController.UpdateUserRoleSetsRole | app/controllers/user.controller.js:69-73 | after the change the user holds exactly the requested role |
| ServiceModel.Touch | app/models/service.model.js:46-49 | the save hook sets `updatedAt` to the save time and changes nothing else |
| ServiceModel.TrimSetter | app/models/service.model.js:9-12 | the `trim` setter's value is trimmed |
| ServiceModel.Build | app/models/service.model.js:3-43 | the defaults: duration 30, category consultation, active true, both timestamps now |
| ServiceModel.Create | app/models/service.model.js:3-49 | a service is built iff the name is non-blank, the price is at least 0, the duration in 15..240 and the category one of six; it is valid |
| ServiceController.GetAllServices | app/controllers/service.controller.js:4-13 | exactly the active services, by name |
| ServiceController.FindService | app/controllers/service.controller.js:18 | finds the service with that id exactly when one exists |
| ServiceController.GetServiceById | app/controllers/service.controller.js:16-28 | the service with that id, or 404 "Service not found" |
| ServiceController.CreateService | app/controllers/service.controller.js:31-53 | the new service is appended valid and active, whatever `active` the body held, with the trimmed name and description, the price, and the duration and category sent or their defaults; a schema failure is 500 |
| ServiceController.CreatedServiceIsListed | app/controllers/service.controller.js:4-53 | a created service is listed and found by its id |
| ServiceController.AppendedIsListed | app/controllers/service.controller.js:4-28 | an active service appended under a fresh id is listed and found |
| ServiceController.AsName | app/models/service.model.js:4-8 | accepted iff a string that is not blank after trimming; the value stored is the trimmed string |
| ServiceController.AsDescription | app/models/service.model.js:9-12 | accepted iff a string or null; a string is stored trimmed, null clears it |
| ServiceController.AsPrice | app/models/service.model.js:13-17 | an updated price is accepted iff it is a number of at least 0 |
| ServiceController.AsDuration | app/models/service.model.js:18-24 | an updated duration is accepted iff it is a number in 15..240 |
| ServiceController.AsCategory | app/models/service.model.js:25-30 | accepted iff a string naming one of the enum's values, which is the category stored |
| ServiceController.Patch | app/controllers/service.controller.js:59-65 | refused iff some path named cannot hold its value; otherwise the id stays and each path holds the value sent if named (`null` clearing the optional `description`, `active`, `createdAt` and `updatedAt`), else its old value |
| ServiceController.PatchKeepsValid | app/controllers/service.controller.js:59-65 | update validators keep a valid service valid |
| ServiceController.RefusedIsBodyOnly | app/controllers/service.controller.js:59-65 | whether an update is refused depends only on the body, not on the service it applies to |
| ServiceController.UpdateWith | app/controllers/service.controller.js:56-78 | a refused body is 500 before the lookup; an unknown id 404; otherwise success, rewriting only the service with that id |
| ServiceController.UpdateService | app/controllers/service.controller.js:56-78 | as written: a body with a path that cannot hold its value is 500, an unknown id 404, anything else succeeds; success patches the service with that id by the whole body and changes nothing else |
| ServiceController.UpdateServiceRewritesCreatedAt | app/controllers/service.controller.js:58-65 | a body naming `createdAt` rewrites the creation time |
| ServiceController.UpdateServiceAllowed | app/controllers/service.controller.js:56-78 | corrected: the same answers, but success patches the service only by the declared `allowedUpdates` of the body |
| ServiceController.AllowedUpdateKeepsTimestamps | app/controllers/service.controller.js:58 | corrected: an update never moves either timestamp of any service |
| ServiceController.UpdatesKeepAllValid | app/controllers/service.controller.js:56-78 | an update keeps every stored service valid |
| ServiceController.DeleteService | app/controllers/service.controller.js:81-93 | 404 iff the id is unknown; otherwise that service is removed and nothing else changes |
| ServiceController.DeletedServiceIsGone | app/controllers/service.controller.js:81-93 | with unique ids, a deleted service is no longer found |
| DoctorDashboard.EscapeChar | public/js/doctorDashboard.js:110 | each of the five markup characters becomes an entity; any other character is kept |
| DoctorDashboard.Escape | public/js/doctorDashboard.js:110 | the output holds no `<`, `>`, `"` or `'` and is never shorter |
| DoctorDashboard.EscapeHtml | public/js/doctorDashboard.js:108-111 | a falsy input gives the empty string; otherwise the escaped text |
| DoctorDashboard.EscapeAppend | public/js/doctorDashboard.js:110 | escaping distributes over concatenation |
| DoctorDashboard.EscapePlain | public/js/doctorDashboard.js:110 | text without markup characters is copied unchanged |
| DoctorDashboard.UnescapeChar | public/js/doctorDashboard.js:110 | decoding one escaped character reads it back first |
| DoctorDashboard.UnescapeEscape | public/js/doctorDashboard.js:110 | decoding the escaped text gives back the input |
| DoctorDashboard.EscapeInjective | public/js/doctorDashboard.js:110 | distinct texts stay distinct once escaped |
| AppointmentsPage.FilterAppointments | public/js/appointments.js:124-143 | each tab keeps, in order, exactly its appointments; any other value keeps the whole list |
| AppointmentsPage.TabsPartition | public/js/appointments.js:124-143 | the tabs share nothing, and only a live appointment dated exactly now is on none |
| AppointmentsPage.DisplayOrder | public/js/appointments.js:37-39 | the displayed list is a reordering of the input, latest first |
| AppointmentsPage.DisplayStartsWithLatest | public/js/appointments.js:37-39 | the first card is the latest appointment |
| AppointmentsPage.CancelShownOnUpcomingTab | public/js/appointments.js:110 | the cancel button shows on exactly the upcoming tab's cards |
| AppointmentsPage.CancelSucceedsForOwner | public/js/appointments.js:160-163 | a patient cancelling their own appointment succeeds, and it becomes cancelled |
| AppointmentsPage.EditPayload | public/js/appointments.js:219-225 | the body holds exactly the date text, the reason, each comma-separated symptom trimmed in order, and the duration or null |
| AppointmentsPage.EditFailsForPatient | public/js/appointments.js:219-225 | the edit body always fails for a patient |
| DashboardPage.UpcomingCount | public/js/dashboard.js:32-35 | the upcoming statistic is at most the number of appointments |
| DashboardPage.CompletedCount | public/js/dashboard.js:37-39 | the completed statistic is at most the list size, 0 iff none is completed and the list size iff all are |
| DashboardPage.CompletedCountAppend | public/js/dashboard.js:37-39 | one more appointment adds one to the statistic iff it is completed |
| DashboardPage.UpcomingCountMatchesTab | public/js/dashboard.js:32-35 | the upcoming statistic equals the size of the appointments page's upcoming tab |
| DashboardPage.CompletedLeavesCancelled | public/js/dashboard.js:37-39 | completed and cancelled appointments together never outnumber the list |
| DashboardPage.NextThree | public/js/dashboard.js:45-48 | the first three of the appointments ahead of now, or all when fewer, drawn from the list, earliest first, none later than one left out |
| DashboardPage.NextThreeShowsCancelled | public/js/dashboard.js:32-48 | a cancelled appointment ahead may be listed though the statistic skips it |
| DashboardPage.Recommended | public/js/dashboard.js:86 | the first three doctors, or all when fewer |
| DashboardPage.RecommendedStable | public/js/dashboard.js:86 | doctors added after the third never change the recommendations |
| ClientUtils.StatusBadge | public/js/utils.js:91-101 | an unknown status shows itself with the primary class; only three classes occur |
| ClientUtils.BadgeColours | public/js/utils.js:92-97 | success marks exactly confirmed and completed, danger exactly cancelled; the four labels differ |
| ClientUtils.ClientAndServerAgreeOnEmail | public/js/utils.js:140-143 | the client's email check fails exactly when registration refuses the email |
| ClientUtils.Digits | public/js/utils.js:148 | stripping non-digits leaves only digits |
| ClientUtils.DigitsAppend | public/js/utils.js:148 | stripping distributes over concatenation |
| ClientUtils.ValidatePhoneSpec | public/js/utils.js:146-149 | a phone is valid iff it has 1 to 16 digits and the first is not 0 |
| ClientUtils.FirstRun | public/js/utils.js:87 | the pattern matches at the leftmost run of eleven digits, if any |
| ClientUtils.DigitsOfLayout | public/js/utils.js:87 | the replacement keeps the eleven digits and adds none |
| ClientUtils.FormatPhone | public/js/utils.js:86-88 | a phone without eleven consecutive digits is unchanged; the digits never change |
| ClientUtils.FormatElevenDigits | public/js/utils.js:86-88 | eleven digits become `+d (ddd) ddd-dd-dd` |
| ClientUtils.FormatKeepsValidity | public/js/utils.js:86-149 | formatting never changes whether a phone is valid |
| DoctorPage.Search | public/js/doctor.js:65-79 | empty input keeps all; otherwise exactly the doctors whose lower-cased name or specialization holds the term, in order |
| DoctorPage.SearchIgnoresCase | public/js/doctor.js:66 | the search ignores the case of the input |
| DoctorPage.SearchNarrows | public/js/doctor.js:65-79 | typing more never brings a doctor back |
| DoctorPage.FilterBySpecialization | public/js/doctor.js:81-98 | `all` keeps everyone; otherwise exactly the doctors of that specialization, in order |
| DoctorPage.SpecializationButtonsPartition | public/js/doctor.js:81-98 | each doctor appears under its own button and under no other |

## Left out

- Database connection, email sending, static pages, health endpoints and the seed script are I/O.
  Only the decisions of the handlers are modelled.
- `jwt.sign`, `jwt.verify`, bcrypt and `comparePassword` are parameters. A token is modelled as the id it
  verifies to, or none.
- `app/models/user.model.js` is not part of this model: any save hook or validator of its own is
  unknown. The user schema follows `server.js`.
- `app/middlewares/validateRequest.js` is not part of this model. `RecordRoutes.Handle` takes it to
  answer 400 when any rule fails.
- JavaScript `Date` parsing and locale formatting are left out: dates are integers, and a birth date is
  its year. The ISO-8601 rule of the record routes depends on date parsing.
- RecordRoutes.Validate: the `price` rule is not modelled, because request prices are already numbers
  in this model.
- String-to-number casts are left out: a numeric field takes only JSON numbers, and a `null` status or
  price is treated as a value the path cannot hold.
- Mongoose's other casts are left out as well. A number or boolean sent to a String path is stored as
  its text, for example `diagnosis: 5` or `phone: 5` stored as "5"; the model fails the save instead.
  `null` on the optional Number path `duration` (server.js:220) clears it in Mongoose; the model fails
  the save here too. The members concerned are listed below by name.
- ServerAppointments.ApplyPatch: a number or boolean sent as diagnosis, prescription, notes or reason, and
  a `null` duration, fail the save here, though Mongoose would store them. An `appointmentDate` sent as
  a date string is also refused; Mongoose would parse it.
- RecordController.ApplyPatch: a number or boolean sent as diagnosis, prescription or notes fails the
  update here, though Mongoose would store its text.
- DoctorController.UpdateDoctor: a number or boolean sent as fullName, phone or specialization is refused
  here (500), though Mongoose would store its text.
- UserController.UpdateProfile: a number or boolean sent as fullName or phone is refused here (500),
  though Mongoose would store its text.
- ServiceController.Patch: a number or boolean sent as the name or description is refused here (500),
  though Mongoose would store its text.
- DoctorController.CreateDoctor: the email is stored as sent. The lower-casing and trimming setters of
  `server.js`'s `userSchema` (line 201) are not applied, because the schema the controllers load lives
  in `app/models/user.model.js`; a blank email made only of spaces is therefore saved.
- UserController.AsBirthYear: a non-empty date string goes through `new Date` in the source
  (user.controller.js:26-27) and is stored; the model does not parse dates and answers 500 for it.
- JSON numbers are integers in this model. A fractional value such as a price of 10.5 cannot be sent,
  so the `isInt` part of the duration rule in `app/routes/record.routes.js` reduces to the range check.
- A malformed id: `findById` with a string that is not a valid ObjectId throws a CastError, which the
  handlers answer with 500. The model treats every id as well formed, so such a request gets the
  not-found answer (404) instead. This affects the id lookups at server.js:762-764, 857 and 890, in
  `app/controllers/record.controller.js` (lines 10, 71, 113, 146), `doctor.controller.js` (lines 20,
  106, 141), `service.controller.js` (lines 18, 61, 83) and `user.controller.js` (lines 30, 69).
- DoctorController.SearchDoctors: the specialization filter is a case-insensitive regular expression in the
  source; the model reads it as plain text, so regular-expression metacharacters are not interpreted.
- ClientUtils.StatusBadge: inherited object keys such as `constructor` are not modelled, because the
  lookup is treated as a plain map over the four statuses.
- Lower-casing covers ASCII and the basic Cyrillic letters only. Full Unicode case mapping is not
  modelled.
- Requests are sequential: the race between two concurrent bookings of the same slot is not modelled.
- An update body that names `_id` is treated like any other path outside the allow-lists.
- `getProfile` and `getAllUsers`, the `/api/doctors` and `/api/users` routes of `server.js`, and
  `public/js/app.js` and `public/js/auth.js` are outside the modelled core. The doctors the client
  pages show are modelled as `DoctorPage.ClientDoctor`.
- DOM rendering, modals and `localStorage` are left out. `ClientUtils.RenderBadge` is the one piece of
  markup kept.
- AuthController.Register: a failed save of the new user (for example a schema error) is not modelled,
  because the user schema's validators are not all known. ServerAuth.Register does model its save
  failures: an empty required field or a missing password is a 500.

## Findings

| source | as written | input that shows it | evidently intended | confidence | as-written member | corrected member |
|---|---|---|---|---|---|---|
| app/controllers/auth.controller.js:173-177 | `checkAvailability` puts both identifiers in one query, so one user must hold both | users `[ann / ann@x.io]`, query `username=ann&email=new@x.io`: answered available | taken when either identifier is used, as registration's `$or` check treats it | medium, not executed | AuthController.CheckAvailabilityMissesTakenUsername | AuthController.EitherAvailableIffUnused |
| app/controllers/service.controller.js:58-65 | `updateService` declares `allowedUpdates` and then passes the whole body to `$set` | body `{createdAt: 0}` on an existing service: the creation time becomes 0 | only the six declared paths can change | high, not executed | ServiceController.UpdateServiceRewritesCreatedAt | ServiceController.AllowedUpdateKeepsTimestamps |

=== FILE: appointment_rules.dfy ===
/** The booking rules shared by server.js's Appointment handlers and the Record controller. */
module AppointmentRules {

  import opened Wrappers
  import opened Json
  import opened Domain
  import JsString

  /** Casts a body value onto the `status` enum. */
  function AsStatus(v: Json): Option<Status> {
    if v.JStr? then ParseStatus(v.s) else None
  }

  /**
   * The up-front status check of both update handlers: a truthy `status` that is not one of the
   * four enum strings is answered with 400 before the appointment is looked up.
   */
  predicate RejectsStatus(patch: Body) {
    "status" in patch && Truthy(patch["status"]) && AsStatus(patch["status"]).None?
  }

  /**
   * The only update a patient may make: at most one allow-listed key, and `status` equal to
   * the string "cancelled".
   */
  predicate CancelOnly(patch: Body) {
    |patch| <= 1 && "status" in patch && patch["status"] == JStr("cancelled")
  }

  /**
   * A patch that passes the patient rule and sets the status to `st` sets it to cancelled: whatever
   * a patient's update applies to, it can only cancel.
   */
  lemma PatientPatchCancels(patch: Body, st: Status, patient: bool)
    requires patient ==> CancelOnly(patch)
    requires "status" in patch ==> patch["status"] == JStr(StatusName(st))
    ensures patient ==> patch == map["status" := JStr("cancelled")] && st == Cancelled
  {
    if patient {
      CancelOnlyExact(patch);
    }
  }

  /** The patient rule admits exactly one update body: `{status: 'cancelled'}`. */
  lemma CancelOnlyExact(patch: Body)
    ensures CancelOnly(patch) <==> patch == map["status" := JStr("cancelled")]
  {
    if CancelOnly(patch) {
      var keys, one := patch.Keys, {"status"};
      var rest := keys - one;
      assert keys == one + rest && one !! rest;
      assert |keys| == |one| + |rest|;
      assert |keys| == |patch|;
      assert rest == {};
      assert keys == one;
    }
  }

  /** A cancel-only body never trips the status check. */
  lemma CancelOnlyPassesStatusCheck(patch: Body)
    requires CancelOnly(patch)
    ensures !RejectsStatus(patch)
  {
  }

  /** The stored symptom list of a booking: `symptoms ? symptoms.split(',').map(s => s.trim()) : []`. */
  function SymptomList(symptoms: Option<string>): (r: seq<string>)
    ensures !Present(symptoms) ==> r == []
    ensures Present(symptoms) ==> |r| == |JsString.Split(symptoms.value, ',')|
    ensures forall i :: 0 <= i < |r| ==> ',' !in r[i]
  {
    if !Present(symptoms) then []
    else
      var parts := JsString.Split(symptoms.value, ',');
      seq(|parts|, i requires 0 <= i < |parts| => JsString.Trim(parts[i]))
  }

  /** Each stored symptom is the trimmed text of the matching comma-separated piece. */
  lemma SymptomListPieces(text: string, i: nat)
    requires text != "" && i < |JsString.Split(text, ',')|
    ensures SymptomList(Some(text))[i] == JsString.Trim(JsString.Split(text, ',')[i])
  {
  }
}

=== FILE: appointments_page.dfy ===
/**
 * public/js/appointments.js: the patient's list of server.js appointments, its tab filters, its
 * display order, the cancel button, and the two update bodies the page sends.
 */
module AppointmentsPage {

  import opened Wrappers
  import opened Json
  import opened Domain
  import JsString
  import Seqs
  import Sorting
  import AppointmentRules
  import ServerAppointments

  /** Ahead of `now` and not cancelled: the "upcoming" tab and the cancel button. */
  predicate Upcoming(a: Appointment, now: int) {
    a.date > now && a.status != Cancelled
  }

  /** Behind `now` and not cancelled: the "past" tab. */
  predicate Past(a: Appointment, now: int) {
    a.date < now && a.status != Cancelled
  }

  predicate IsCancelled(a: Appointment) {
    a.status == Cancelled
  }

  /** `filterAppointments(filter)`: one of three tabs, or the whole list for any other value. */
  function FilterAppointments(apps: seq<Appointment>, filter: string, now: int): (r: seq<Appointment>)
    ensures Seqs.IsSubsequence(r, apps)
    ensures filter == "upcoming" ==> forall a :: a in r <==> a in apps && Upcoming(a, now)
    ensures filter == "past" ==> forall a :: a in r <==> a in apps && Past(a, now)
    ensures filter == "cancelled" ==> forall a :: a in r <==> a in apps && a.status == Cancelled
    ensures filter !in {"upcoming", "past", "cancelled"} ==> r == apps
  {
    if filter == "upcoming" then Seqs.Filter(apps, a => Upcoming(a, now))
    else if filter == "past" then Seqs.Filter(apps, a => Past(a, now))
    else if filter == "cancelled" then Seqs.Filter(apps, IsCancelled)
    else
      IsSubsequenceRefl(apps);
      apps
  }

  /** Every sequence is a subsequence of itself. */
  lemma {:induction false} IsSubsequenceRefl(s: seq<Appointment>)
    ensures Seqs.IsSubsequence(s, s)
    decreases |s|
  {
    if |s| > 0 {
      IsSubsequenceRefl(s[1..]);
    }
  }

  /**
   * The three tabs never share an appointment, and only an uncancelled appointment dated exactly
   * `now` is missing from all of them.
   */
  lemma TabsPartition(apps: seq<Appointment>, a: Appointment, now: int)
    requires a in apps
    ensures var up, past, off := FilterAppointments(apps, "upcoming", now), FilterAppointments(apps, "past", now),
                                  FilterAppointments(apps, "cancelled", now);
            && !(a in up && a in past) && !(a in up && a in off) && !(a in past && a in off)
            && (a !in up && a !in past && a !in off <==> a.date == now && a.status != Cancelled)
  {
  }

  /** The comparator `new Date(b) - new Date(a)`: later dates first. */
  function ByDateDesc(): (Appointment, Appointment) -> bool {
    (a: Appointment, b: Appointment) => a.date >= b.date
  }

  /** `[...appointments].sort(...)`: a reordered copy, latest first. */
  function DisplayOrder(apps: seq<Appointment>): (r: seq<Appointment>)
    ensures multiset(r) == multiset(apps)
    ensures Sorting.SortedBy(r, ByDateDesc())
  {
    Sorting.Sort(apps, ByDateDesc())
  }

  /** The first card shown is the latest appointment of the list. */
  lemma DisplayStartsWithLatest(apps: seq<Appointment>)
    requires |apps| > 0
    ensures forall a :: a in apps ==> DisplayOrder(apps)[0].date >= a.date
  {
    var r := DisplayOrder(apps);
    forall a | a in apps
      ensures r[0].date >= a.date
    {
      assert a in multiset(apps);
      assert a in multiset(r);
      var k :| 0 <= k < |r| && r[k] == a;
      if k > 0 {
        assert ByDateDesc()(r[0], r[k]);
      }
    }
  }

  /** The cancel button of a card. */
  predicate ShowsCancel(a: Appointment, now: int) {
    a.date > now && a.status != Cancelled
  }

  /** The cancel button appears on exactly the cards of the "upcoming" tab. */
  lemma CancelShownOnUpcomingTab(apps: seq<Appointment>, a: Appointment, now: int)
    requires a in apps
    ensures ShowsCancel(a, now) <==> a in FilterAppointments(apps, "upcoming", now)
  {
  }

  /** The body of `cancelAppointment`. */
  const CancelPayload: Body := map["status" := JStr("cancelled")]

  /** The cancel body is the one update the patient rule admits. */
  lemma CancelPayloadIsCancelOnly()
    ensures AppointmentRules.CancelOnly(Pick(CancelPayload, ServerAppointments.UpdateKeys))
  {
    assert Pick(CancelPayload, ServerAppointments.UpdateKeys) == CancelPayload;
  }

  /** A patient cancelling one of their own appointments through the page succeeds, and the appointment is cancelled. */
  lemma CancelSucceedsForOwner(db: Db, caller: Id, id: Id)
    requires UserById(db.users, caller).Some? && UserById(db.users, caller).value.role == Patient
    requires exists k :: 0 <= k < |db.appointments| && db.appointments[k].id == id
    requires forall k :: 0 <= k < |db.appointments| && db.appointments[k].id == id ==> db.appointments[k].patientId == caller
    ensures var r := ServerAppointments.Update(db, caller, id, CancelPayload);
            && r.Ok?
            && exists i :: 0 <= i < |db.appointments| && db.appointments[i].id == id
                             && r.value.appointments[i].status == Cancelled
  {
    var i := ServerAppointments.FindAppointment(db.appointments, id).value;
    var a := db.appointments[i];
    assert CancelPayload == map["status" := JStr(StatusName(Cancelled))];
    ServerAppointments.StatusOnlyBody(a, Cancelled);
    CancelPayloadIsCancelOnly();
    assert ServerAppointments.Update(db, caller, id, CancelPayload)
           == Ok(db.(appointments := db.appointments[i := a.(status := Cancelled)]));
  }

  /** The body of `saveAppointmentChanges`: date text, reason, trimmed comma-separated symptoms, parsed duration (NaN is sent as null). */
  function EditPayload(date: string, reason: string, symptoms: string, duration: Option<int>): (body: Body)
    ensures body.Keys == {"appointmentDate", "reason", "symptoms", "duration"}
    ensures body["appointmentDate"] == JStr(date) && body["reason"] == JStr(reason)
    ensures duration.Some? ==> body["duration"] == JNum(duration.value)
    ensures duration.None? ==> body["duration"] == JNull
    ensures body["symptoms"].JArr? && |body["symptoms"].items| == |JsString.Split(symptoms, ',')|
    ensures forall i :: 0 <= i < |body["symptoms"].items| ==>
              body["symptoms"].items[i] == JStr(JsString.Trim(JsString.Split(symptoms, ',')[i]))
  {
    var parts := JsString.Split(symptoms, ',');
    map["appointmentDate" := JStr(date), "reason" := JStr(reason),
        "symptoms" := JArr(seq(|parts|, i requires 0 <= i < |parts| => JStr(JsString.Trim(parts[i])))),
        "duration" := if duration.Some? then JNum(duration.value) else JNull]
  }

  /** The edit form never works for a patient: four keys are never a cancel-only body. */
  lemma EditFailsForPatient(db: Db, caller: Id, id: Id, date: string, reason: string, symptoms: string, duration: Option<int>)
    requires UserById(db.users, caller).Some? && UserById(db.users, caller).value.role == Patient
    ensures ServerAppointments.Update(db, caller, id, EditPayload(date, reason, symptoms, duration)).Fail?
  {
    var body := EditPayload(date, reason, symptoms, duration);
    assert Pick(body, ServerAppointments.UpdateKeys) == body;
    assert "reason" in body && "reason" !in CancelPayload;
  }
}

=== FILE: auth_controller.dfy ===
/**
 * app/controllers/auth.controller.js: the validation chain of `register`, the checks of `login`, and
 * `checkAvailability`. Token signing is left to the caller of the model.
 */
module AuthController {

  import opened Wrappers
  import opened Domain
  import JsString
  import Seqs
  import EmailShape

  /** The fields of a POST /api/auth/register body; an absent field is None. */
  datatype Registration = Registration(
    username: Option<string>,
    email: Option<string>,
    password: Option<string>,
    fullName: Option<string>,
    phone: Option<string>,
    birthYear: Option<int>,
    role: Option<string>)

  const AdultAge := 18

  /** Every field the handler insists on is present (a birth date is present when given at all). */
  predicate Complete(req: Registration) {
    && Present(req.username) && Present(req.email) && Present(req.password)
    && Present(req.fullName) && Present(req.phone) && req.birthYear.Some?
  }

  /** The first user whose email is the lower-cased input or whose username is the input. */
  function Existing(users: seq<User>, email: string, username: string): (r: Option<User>)
    ensures r.None? <==> forall k :: 0 <= k < |users| ==> users[k].email != JsString.Lower(email) && users[k].username != username
    ensures r.Some? ==> r.value in users && (r.value.email == JsString.Lower(email) || r.value.username == username)
  {
    match Seqs.FindFirst(users, (u: User) => u.email == JsString.Lower(email) || u.username == username)
    case None => None
    case Some(k) => Some(users[k])
  }

  /** The `field` of a 409: "email" exactly when the clashing user has the lower-cased email. */
  function ClashField(existing: User, email: string): (field: string)
    ensures field == "email" <==> existing.email == JsString.Lower(email)
    ensures field in {"email", "username"}
  {
    if existing.email == JsString.Lower(email) then "email" else "username"
  }

  /**
   * `register`: required fields (400), email pattern (400), password of at least six UTF-16 units
   * (400), duplicates (409, naming the field), then the calendar-year age check against
   * `currentYear` (400). The new user has the lower-cased email and the role from the body,
   * defaulting to patient; saving is taken to succeed.
   */
  function Register(db: Db, req: Registration, currentYear: int, newId: Id, now: int): (r: Response<Db>)
    ensures !Complete(req) <==> r == Fail(BadRequest, "All fields are required")
    ensures Complete(req) && !EmailShape.Valid(req.email.value) ==> r == Fail(BadRequest, "Please enter a valid email address")
    ensures Complete(req) && EmailShape.Valid(req.email.value) && JsString.JsLength(req.password.value) < 6
            ==> r == Fail(BadRequest, "Password must be at least 6 characters long")
    ensures Complete(req) && EmailShape.Valid(req.email.value) && JsString.JsLength(req.password.value) >= 6
            && Existing(db.users, req.email.value, req.username.value).Some?
            ==> r == Fail(Conflict, "User with this " + ClashField(Existing(db.users, req.email.value, req.username.value).value, req.email.value) + " already exists")
    ensures Complete(req) && EmailShape.Valid(req.email.value) && JsString.JsLength(req.password.value) >= 6
            && Existing(db.users, req.email.value, req.username.value).None? && currentYear - req.birthYear.value < AdultAge
            ==> r == Fail(BadRequest, "You must be at least 18 years old to register")
    ensures r.Fail? && r.status == Conflict ==>
              && Complete(req) && Existing(db.users, req.email.value, req.username.value).Some?
              && r.message == "User with this " + ClashField(Existing(db.users, req.email.value, req.username.value).value, req.email.value) + " already exists"
    ensures r.Ok? <==> && Complete(req) && EmailShape.Valid(req.email.value) && JsString.JsLength(req.password.value) >= 6
                       && Existing(db.users, req.email.value, req.username.value).None?
                       && currentYear - req.birthYear.value >= AdultAge
    ensures r.Ok? ==> r.value.(users := db.users) == db
    ensures r.Ok? ==> |r.value.users| == |db.users| + 1 && r.value.users[..|db.users|] == db.users
    ensures r.Ok? ==> var u := r.value.users[|db.users|];
                      && u.id == newId && u.username == req.username.value
                      && u.email == JsString.Lower(req.email.value)
                      && u.password == req.password.value && u.fullName == req.fullName.value
                      && u.phone == req.phone && u.birthYear == req.birthYear
                      && u.specialization.None? && !u.isVerified && u.createdAt == now
                      && u.role == (if Present(req.role) then ParseRole(req.role.value) else Patient)
  {
    if !Complete(req) then Fail(BadRequest, "All fields are required")
    else if !EmailShape.Valid(req.email.value) then Fail(BadRequest, "Please enter a valid email address")
    else if JsString.JsLength(req.password.value) < 6 then Fail(BadRequest, "Password must be at least 6 characters long")
    else match Existing(db.users, req.email.value, req.username.value)
      case Some(existing) =>
        Fail(Conflict, "User with this " + ClashField(existing, req.email.value) + " already exists")
      case None =>
        if currentYear - req.birthYear.value < AdultAge then Fail(BadRequest, "You must be at least 18 years old to register")
        else
          var role := if Present(req.role) then ParseRole(req.role.value) else Patient;
          var u := User(newId, req.username.value, JsString.Lower(req.email.value), req.password.value,
                        req.fullName.value, req.phone, req.birthYear, role, None, false, now);
          Ok(db.(users := db.users + [u]))
  }

  /** The age test compares calendar years only: born on the last day of a year, one is "18" on the first day of the 18th year after. */
  lemma AgeIsYearDifference(db: Db, req: Registration, newId: Id, now: int)
    requires Complete(req) && EmailShape.Valid(req.email.value) && JsString.JsLength(req.password.value) >= 6
    requires Existing(db.users, req.email.value, req.username.value).None?
    ensures Register(db, req, req.birthYear.value + 18, newId, now).Ok?
    ensures Register(db, req, req.birthYear.value + 17, newId, now) == Fail(BadRequest, "You must be at least 18 years old to register")
  {
  }

  /** The role comes from the body: a registration asking for admin gets an admin account. */
  lemma RegisterTakesRoleFromBody(db: Db, req: Registration, currentYear: int, newId: Id, now: int)
    requires req.role == Some("admin")
    requires Register(db, req, currentYear, newId, now).Ok?
    ensures Register(db, req, currentYear, newId, now).value.users[|db.users|].role == Admin
  {
  }

  /** The fields of a POST /api/auth/login body. */
  datatype Credentials = Credentials(email: Option<string>, username: Option<string>, password: Option<string>)

  /**
   * The user `login` looks up: the first one holding either identifier when both are given,
   * otherwise the one given (`$or` of the two, or the single-field query).
   */
  function LoginUser(users: seq<User>, email: Option<string>, username: Option<string>): (r: Option<User>)
    ensures r.Some? <==> exists k :: 0 <= k < |users| && MatchesAny(users[k], username, email)
    ensures r.Some? ==> exists k :: && 0 <= k < |users| && users[k] == r.value && MatchesAny(users[k], username, email)
                                    && forall j :: 0 <= j < k ==> !MatchesAny(users[j], username, email)
    ensures r.Some? ==> (Present(email) && r.value.email == JsString.Lower(email.value))
                        || (Present(username) && r.value.username == username.value)
    ensures !Present(email) && !Present(username) ==> r.None?
  {
    match Seqs.FindFirst(users, (u: User) => MatchesAny(u, username, email))
    case None => None
    case Some(k) => Some(users[k])
  }

  /**
   * `login`: 400 without an identifier or without a password; an unknown user and a wrong password
   * both answer the same 401. `comparePassword` is a parameter.
   */
  function Login(users: seq<User>, req: Credentials, comparePassword: (User, string) -> bool): (r: Response<User>)
    ensures (!Present(req.email) && !Present(req.username)) || !Present(req.password)
            <==> r == Fail(BadRequest, "Email/username and password are required")
    ensures r.Fail? ==> r == Fail(BadRequest, "Email/username and password are required") || r == Fail(Unauthorized, "Invalid credentials")
    ensures r.Ok? <==> Present(req.password) && LoginUser(users, req.email, req.username).Some?
                       && comparePassword(LoginUser(users, req.email, req.username).value, req.password.value)
    ensures r.Ok? ==> r.value in users && r.value == LoginUser(users, req.email, req.username).value
  {
    if (!Present(req.email) && !Present(req.username)) || !Present(req.password) then
      Fail(BadRequest, "Email/username and password are required")
    else match LoginUser(users, req.email, req.username)
      case None => Fail(Unauthorized, "Invalid credentials")
      case Some(user) =>
        if !comparePassword(user, req.password.value) then Fail(Unauthorized, "Invalid credentials") else Ok(user)
  }

  /** A user who registered with an email and a password logs in with that email and that password. */
  lemma RegisteredUserLogsIn(db: Db, req: Registration, currentYear: int, newId: Id, now: int,
                             comparePassword: (User, string) -> bool)
    requires Register(db, req, currentYear, newId, now).Ok?
    requires forall u: User :: comparePassword(u, u.password)
    ensures var users := Register(db, req, currentYear, newId, now).value.users;
            Login(users, Credentials(req.email, None, req.password), comparePassword) == Ok(users[|db.users|])
  {
    var users := Register(db, req, currentYear, newId, now).value.users;
    var u := users[|db.users|];
    assert users == db.users + [u];
    assert u.password == req.password.value;
    assert forall j :: 0 <= j < |db.users| ==> !MatchesAny(users[j], None, req.email) by {
      assert forall j :: 0 <= j < |db.users| ==> users[j] == db.users[j];
    }
    assert MatchesAny(users[|db.users|], None, req.email);
    var k := Seqs.FindFirst(users, (x: User) => MatchesAny(x, None, req.email));
    assert k == Some(|db.users|);
  }

  /** The answer of `checkAvailability`. */
  datatype Availability = Available | Taken(field: string)

  /** `findOne(query)` where the query holds every given identifier, so one user must match all of them. */
  predicate MatchesAll(u: User, username: Option<string>, email: Option<string>) {
    && (Present(username) ==> u.username == username.value)
    && (Present(email) ==> u.email == JsString.Lower(email.value))
  }

  /** The index of the user `findOne(query)` returns when the query holds every given identifier. */
  function FindAll(users: seq<User>, username: Option<string>, email: Option<string>): (r: Option<nat>)
    ensures r.None? <==> forall k :: 0 <= k < |users| ==> !MatchesAll(users[k], username, email)
    ensures r.Some? ==> && r.value < |users| && MatchesAll(users[r.value], username, email)
                        && forall k :: 0 <= k < r.value ==> !MatchesAll(users[k], username, email)
  {
    Seqs.FindFirst(users, (u: User) => MatchesAll(u, username, email))
  }

  /**
   * `checkAvailability` as written: 400 without identifiers; otherwise the first user matching every
   * given identifier at once decides, and the field is "username" when its username equals the input.
   */
  function CheckAvailability(users: seq<User>, username: Option<string>, email: Option<string>): (r: Response<Availability>)
    ensures !Present(username) && !Present(email) <==> r == Fail(BadRequest, "Username or email is required")
    ensures r.Ok? && r.value.Taken? <==> (Present(username) || Present(email))
                                         && exists k :: 0 <= k < |users| && MatchesAll(users[k], username, email)
    ensures r.Ok? && r.value.Taken? ==> r.value.field in {"username", "email"}
    ensures r.Ok? && r.value.Taken? ==> && FindAll(users, username, email).Some?
                                         && (r.value.field == "username" <==>
                                               username == Some(users[FindAll(users, username, email).value].username))
  {
    if !Present(username) && !Present(email) then Fail(BadRequest, "Username or email is required")
    else match FindAll(users, username, email)
      case None => Ok(Available)
      case Some(k) => Ok(Taken(if Some(users[k].username) == username then "username" else "email"))
  }

  /** With both identifiers given, a taken username next to a fresh email is reported available. */
  lemma CheckAvailabilityMissesTakenUsername()
    ensures var users := [User("u1", "ann", "ann@x.io", "h", "Ann", None, None, Patient, None, false, 0)];
            CheckAvailability(users, Some("ann"), Some("new@x.io")) == Ok(Available)
  {
    var users := [User("u1", "ann", "ann@x.io", "h", "Ann", None, None, Patient, None, false, 0)];
    assert JsString.Lower("new@x.io") == "new@x.io";
    assert !MatchesAll(users[0], Some("ann"), Some("new@x.io"));
  }

  /** A user holding one of the given identifiers. */
  predicate MatchesAny(u: User, username: Option<string>, email: Option<string>) {
    || (Present(username) && u.username == username.value)
    || (Present(email) && u.email == JsString.Lower(email.value))
  }

  /** The index of the first user holding one of the given identifiers. */
  function FindAny(users: seq<User>, username: Option<string>, email: Option<string>): (r: Option<nat>)
    ensures r.None? <==> forall k :: 0 <= k < |users| ==> !MatchesAny(users[k], username, email)
    ensures r.Some? ==> && r.value < |users| && MatchesAny(users[r.value], username, email)
                        && forall k :: 0 <= k < r.value ==> !MatchesAny(users[k], username, email)
  {
    Seqs.FindFirst(users, (u: User) => MatchesAny(u, username, email))
  }

  /**
   * `checkAvailability` with the identifiers joined by `$or`, as the duplicate check of `register`
   * does: taken as soon as either identifier is in use.
   */
  function CheckAvailabilityEither(users: seq<User>, username: Option<string>, email: Option<string>): (r: Response<Availability>)
    ensures !Present(username) && !Present(email) <==> r == Fail(BadRequest, "Username or email is required")
    ensures r.Ok? && r.value.Taken? ==> exists k :: 0 <= k < |users| && MatchesAny(users[k], username, email)
    ensures r.Ok? && r.value.Taken? ==> r.value.field in {"username", "email"}
    ensures r.Ok? && r.value.Taken? ==> && FindAny(users, username, email).Some?
                                         && (r.value.field == "username" <==>
                                               username == Some(users[FindAny(users, username, email).value].username))
  {
    if !Present(username) && !Present(email) then Fail(BadRequest, "Username or email is required")
    else match FindAny(users, username, email)
      case None => Ok(Available)
      case Some(k) => Ok(Taken(if Some(users[k].username) == username then "username" else "email"))
  }

  /** Reported available exactly when neither the username nor the email is used by anyone. */
  lemma EitherAvailableIffUnused(users: seq<User>, username: Option<string>, email: Option<string>)
    requires Present(username) || Present(email)
    ensures CheckAvailabilityEither(users, username, email) == Ok(Available) <==>
              && (Present(username) ==> forall k :: 0 <= k < |users| ==> users[k].username != username.value)
              && (Present(email) ==> forall k :: 0 <= k < |users| ==> users[k].email != JsString.Lower(email.value))
  {
    var found := FindAny(users, username, email);
    if found.Some? {
      assert MatchesAny(users[found.value], username, email);
    }
  }

  /** A registration that would pass the duplicate check is never reported taken by the corrected check. */
  lemma EitherAgreesWithRegister(users: seq<User>, username: string, email: string)
    requires username != "" && email != ""
    requires Existing(users, email, username).None?
    ensures CheckAvailabilityEither(users, Some(username), Some(email)) == Ok(Available)
  {
    EitherAvailableIffUnused(users, Some(username), Some(email));
  }
}

=== FILE: auth_jwt.dfy ===
/**
 * The controllers' middlewares of app/middlewares/authJwt.js: `verifyToken`, which reads the
 * token from `x-access-token` or `authorization`, and the role gates `isAdmin` and `isDoctor`.
 */
module AuthJwt {

  import opened Wrappers
  import opened Domain
  import JsString

  /** `jwt.verify` with the configured secret, answering the `id` claim; None when verification fails. */
  type Verifier = string -> Option<Id>

  /** `req.headers['x-access-token'] || req.headers['authorization']`. */
  function TokenHeader(xAccess: Option<string>, authorization: Option<string>): (t: Option<string>)
    ensures t.Some? <==> Present(xAccess) || Present(authorization)
    ensures Present(xAccess) ==> t == xAccess
    ensures !Present(xAccess) && Present(authorization) ==> t == authorization
  {
    if Present(xAccess) then xAccess
    else if Present(authorization) then authorization
    else None
  }

  /**
   * `verifyToken`: 403 when neither header carries a token, 401 when the token (with the first
   * "Bearer " removed) does not verify; otherwise the caller's id for the handlers.
   */
  function VerifyToken(xAccess: Option<string>, authorization: Option<string>, verify: Verifier): (r: Response<Id>)
    ensures r == Fail(Forbidden, "No token provided") <==> !Present(xAccess) && !Present(authorization)
    ensures r.Fail? ==> r.status in {Forbidden, Unauthorized}
    ensures r.Ok? ==> exists t :: TokenHeader(xAccess, authorization) == Some(t)
                                  && verify(JsString.RemoveFirst(t, "Bearer ")) == Some(r.value)
    ensures forall rest :: TokenHeader(xAccess, authorization) == Some("Bearer " + rest) ==>
              (r.Ok? <==> verify(rest).Some?)
  {
    match TokenHeader(xAccess, authorization)
    case None => Fail(Forbidden, "No token provided")
    case Some(t) =>
      assert forall rest :: t == "Bearer " + rest ==> JsString.RemoveFirst(t, "Bearer ") == rest by {
        forall rest | t == "Bearer " + rest
          ensures JsString.RemoveFirst(t, "Bearer ") == rest
        {
          JsString.RemoveFirstPrefix("Bearer ", rest);
        }
      }
      match verify(JsString.RemoveFirst(t, "Bearer "))
      case None => Fail(Unauthorized, "Unauthorized")
      case Some(id) => Ok(id)
  }

  /** A non-empty `x-access-token` wins: the `authorization` header is then never read. */
  lemma AccessTokenTakesPrecedence(xAccess: string, a1: Option<string>, a2: Option<string>, verify: Verifier)
    requires xAccess != ""
    ensures VerifyToken(Some(xAccess), a1, verify) == VerifyToken(Some(xAccess), a2, verify)
  {
  }

  /** The `user.role` read of both gates throws on a missing user; the error handler answers 500. */
  const NullUserMessage := "Cannot read properties of null (reading 'role')"

  /** `isAdmin`: passes exactly the admins; other roles 403, a missing user 500. */
  function IsAdmin(users: seq<User>, userId: Id): (r: Response<User>)
    ensures r.Ok? <==> UserById(users, userId).Some? && UserById(users, userId).value.role == Admin
    ensures r.Ok? ==> r.value in users && r.value.id == userId
    ensures UserById(users, userId).None? ==> r.Fail? && r.status == ServerError
    ensures UserById(users, userId).Some? && r.Fail? ==> r == Fail(Forbidden, "Require Admin Role")
  {
    match UserById(users, userId)
    case None => Fail(ServerError, NullUserMessage)
    case Some(u) => if u.role == Admin then Ok(u) else Fail(Forbidden, "Require Admin Role")
  }

  /** `isDoctor`: passes doctors and admins; other roles 403, a missing user 500. */
  function IsDoctor(users: seq<User>, userId: Id): (r: Response<User>)
    ensures r.Ok? <==> UserById(users, userId).Some? && UserById(users, userId).value.role in {Doctor, Admin}
    ensures r.Ok? ==> r.value in users && r.value.id == userId
    ensures UserById(users, userId).None? ==> r.Fail? && r.status == ServerError
    ensures UserById(users, userId).Some? && r.Fail? ==> r == Fail(Forbidden, "Require Doctor Role")
  {
    match UserById(users, userId)
    case None => Fail(ServerError, NullUserMessage)
    case Some(u) => if u.role == Doctor || u.role == Admin then Ok(u) else Fail(Forbidden, "Require Doctor Role")
  }

  /** Whoever passes `isAdmin` passes `isDoctor`. */
  lemma AdminPassesDoctorGate(users: seq<User>, userId: Id)
    requires IsAdmin(users, userId).Ok?
    ensures IsDoctor(users, userId).Ok?
  {
  }
}

=== FILE: client_utils.dfy ===
/** public/js/utils.js: the status badge, the email and phone checks, and the phone layout. */
module ClientUtils {

  import opened Wrappers
  import opened Domain
  import JsString
  import EmailShape
  import AuthController

  /** A badge: its label and its CSS class. */
  datatype Badge = Badge(text: string, cls: string)

  /** `getStatusBadge`: the four statuses have fixed labels; any other value is shown as is. */
  function StatusBadge(status: string): (b: Badge)
    ensures ParseStatus(status).None? ==> b == Badge(status, "badge-primary")
    ensures b.cls in {"badge-primary", "badge-success", "badge-danger"}
  {
    if status == "scheduled" then Badge("Запланирована", "badge-primary")
    else if status == "confirmed" then Badge("Подтверждена", "badge-success")
    else if status == "completed" then Badge("Завершена", "badge-success")
    else if status == "cancelled" then Badge("Отменена", "badge-danger")
    else Badge(status, "badge-primary")
  }

  /** The markup of a badge. */
  function RenderBadge(status: string): string {
    var b := StatusBadge(status);
    "<span class=\"badge " + b.cls + "\">" + b.text + "</span>"
  }

  /**
   * The success colour marks exactly confirmed and completed appointments, the danger colour
   * exactly cancelled ones, and the four labels are distinct.
   */
  lemma BadgeColours(st: Status, other: Status)
    ensures StatusBadge(StatusName(st)).cls == "badge-success" <==> st in {Confirmed, Completed}
    ensures StatusBadge(StatusName(st)).cls == "badge-danger" <==> st == Cancelled
    ensures st != other ==> StatusBadge(StatusName(st)).text != StatusBadge(StatusName(other)).text
  {
  }

  /** `validateEmail`: the registration handler's pattern. */
  predicate ValidateEmail(email: string) {
    EmailShape.Valid(email)
  }

  /**
   * The client and the server agree: a complete registration is refused for its email exactly when
   * the client's check fails on it.
   */
  lemma ClientAndServerAgreeOnEmail(db: Db, req: AuthController.Registration, year: int, newId: Id, now: int)
    requires AuthController.Complete(req)
    ensures AuthController.Register(db, req, year, newId, now) == Fail(BadRequest, "Please enter a valid email address")
            <==> !ValidateEmail(req.email.value)
  {
  }

  /** `s.replace(/\D/g, '')`: the digits of `s`, in order. */
  function Digits(s: string): (r: string)
    ensures forall k :: 0 <= k < |r| ==> JsString.IsDigit(r[k])
    ensures |r| <= |s|
    decreases |s|
  {
    if |s| == 0 then ""
    else (if JsString.IsDigit(s[0]) then [s[0]] else "") + Digits(s[1..])
  }

  lemma {:induction false} DigitsAppend(a: string, b: string)
    ensures Digits(a + b) == Digits(a) + Digits(b)
    decreases |a|
  {
    if |a| == 0 {
      assert a + b == b;
    } else {
      assert (a + b)[0] == a[0] && (a + b)[1..] == a[1..] + b;
      DigitsAppend(a[1..], b);
    }
  }

  lemma {:induction false} DigitsOfDigits(s: string)
    requires forall k :: 0 <= k < |s| ==> JsString.IsDigit(s[k])
    ensures Digits(s) == s
    decreases |s|
  {
    if |s| > 0 {
      DigitsOfDigits(s[1..]);
    }
  }

  /** The regular expression `^[\+]?[1-9][\d]{0,15}$`. */
  predicate PhonePattern(t: string) {
    if |t| > 0 && t[0] == '+' then NationalPart(t[1..]) else NationalPart(t)
  }

  /** `[1-9][\d]{0,15}` over the whole string. */
  predicate NationalPart(u: string) {
    1 <= |u| <= 16 && '1' <= u[0] <= '9' && forall k :: 0 <= k < |u| ==> JsString.IsDigit(u[k])
  }

  /** `validatePhone`: the pattern tested on the digits alone. */
  predicate ValidatePhone(phone: string) {
    PhonePattern(Digits(phone))
  }

  /** A phone is valid exactly when it has one to sixteen digits and the first is not zero; the plus sign never matters. */
  lemma ValidatePhoneSpec(phone: string)
    ensures ValidatePhone(phone) <==> 1 <= |Digits(phone)| <= 16 && Digits(phone)[0] != '0'
  {
  }

  /** Eleven consecutive digits start at `i`. */
  predicate RunAt(s: string, i: nat) {
    i + 11 <= |s| && forall k :: i <= k < i + 11 ==> JsString.IsDigit(s[k])
  }

  /** The leftmost start of eleven consecutive digits at or after `from`: where the unanchored pattern matches. */
  function FirstRun(s: string, from: nat): (r: Option<nat>)
    ensures r.Some? ==> from <= r.value && RunAt(s, r.value) && forall j :: from <= j < r.value ==> !RunAt(s, j)
    ensures r.None? ==> forall j :: from <= j ==> !RunAt(s, j)
    decreases |s| - from
  {
    if from + 11 > |s| then None
    else if RunAt(s, from) then Some(from)
    else FirstRun(s, from + 1)
  }

  /** The replacement `+$1 ($2) $3-$4-$5` of one match. */
  function Layout(d: string): (r: string)
    requires |d| == 11
  {
    "+" + d[..1] + " (" + d[1..4] + ") " + d[4..7] + "-" + d[7..9] + "-" + d[9..]
  }

  /** The layout keeps the eleven digits and adds none. */
  lemma DigitsOfLayout(d: string)
    requires |d| == 11 && forall k :: 0 <= k < 11 ==> JsString.IsDigit(d[k])
    ensures Digits(Layout(d)) == d
  {
    var a, b, c, e, f := d[..1], d[1..4], d[4..7], d[7..9], d[9..];
    NoDigits("+");
    DigitsOfDigits(a);
    DigitsAppend("+", a);
    var p := "+" + a;
    DigitsAfterSeparator(p, " (", b);
    p := p + " (" + b;
    DigitsAfterSeparator(p, ") ", c);
    p := p + ") " + c;
    DigitsAfterSeparator(p, "-", e);
    p := p + "-" + e;
    DigitsAfterSeparator(p, "-", f);
    p := p + "-" + f;
    assert p == Layout(d);
    assert a + b + c + e + f == d;
  }

  /** A separator without digits contributes nothing; a run of digits contributes itself. */
  lemma DigitsAfterSeparator(p: string, sep: string, x: string)
    requires forall k :: 0 <= k < |sep| ==> !JsString.IsDigit(sep[k])
    requires forall k :: 0 <= k < |x| ==> JsString.IsDigit(x[k])
    ensures Digits(p + sep + x) == Digits(p) + x
  {
    NoDigits(sep);
    DigitsOfDigits(x);
    DigitsAppend(p, sep);
    DigitsAppend(p + sep, x);
  }

  lemma {:induction false} NoDigits(s: string)
    requires forall k :: 0 <= k < |s| ==> !JsString.IsDigit(s[k])
    ensures Digits(s) == ""
    decreases |s|
  {
    if |s| > 0 {
      NoDigits(s[1..]);
    }
  }

  /**
   * `formatPhone`: the first run of eleven digits is laid out as `+d ddd ddd-dd-dd`; a string
   * without one is returned unchanged. The digits are never changed.
   */
  function FormatPhone(phone: string): (r: string)
    ensures FirstRun(phone, 0).None? ==> r == phone
    ensures Digits(r) == Digits(phone)
  {
    match FirstRun(phone, 0)
    case None => phone
    case Some(i) =>
      var d := phone[i..i + 11];
      DigitsOfLayout(d);
      DigitsOfDigits(d);
      SpliceKeepsDigits(phone[..i], d, phone[i + 11..], Layout(d));
      assert phone == phone[..i] + d + phone[i + 11..];
      phone[..i] + Layout(d) + phone[i + 11..]
  }

  /** Replacing a piece by one with the same digits keeps the digits of the whole. */
  lemma SpliceKeepsDigits(pre: string, d: string, post: string, l: string)
    requires Digits(l) == Digits(d)
    ensures Digits(pre + l + post) == Digits(pre + d + post)
  {
    DigitsAppend(pre, l);
    DigitsAppend(pre + l, post);
    DigitsAppend(pre, d);
    DigitsAppend(pre + d, post);
  }

  /** Exactly eleven digits d1..d11 become `+d1 (d2d3d4) d5d6d7-d8d9-d10d11`. */
  lemma FormatElevenDigits(d: string)
    requires |d| == 11 && forall k :: 0 <= k < 11 ==> JsString.IsDigit(d[k])
    ensures FormatPhone(d) == "+" + [d[0]] + " (" + d[1..4] + ") " + d[4..7] + "-" + d[7..9] + "-" + d[9..11]
  {
    assert FormatPhone(d) == Layout(d) by {
      assert RunAt(d, 0);
      assert FirstRun(d, 0) == Some(0);
      assert d[0..11] == d && d[..0] == "" && d[11..] == "";
    }
    assert d[..1] == [d[0]] && d[9..] == d[9..11];
  }

  /** Laying out a phone never changes whether it is valid. */
  lemma FormatKeepsValidity(phone: string)
    ensures ValidatePhone(FormatPhone(phone)) == ValidatePhone(phone)
  {
  }
}

=== FILE: dashboard_page.dfy ===
/**
 * public/js/dashboard.js: the patient dashboard's statistics, its list of the next three
 * appointments, and the recommended doctors.
 */
module DashboardPage {

  import opened Domain
  import Seqs
  import Sorting
  import AppointmentsPage

  /** The "upcoming" statistic: appointments ahead of `now` that are not cancelled. */
  function UpcomingCount(apps: seq<Appointment>, now: int): (n: nat)
    ensures n <= |apps|
  {
    Seqs.Count(apps, a => AppointmentsPage.Upcoming(a, now))
  }

  predicate IsCompleted(a: Appointment) {
    a.status == Completed
  }

  /** The "completed" statistic: none when no appointment is completed, all when every one is. */
  function CompletedCount(apps: seq<Appointment>): (n: nat)
    ensures n <= |apps|
    ensures n == 0 <==> forall i :: 0 <= i < |apps| ==> apps[i].status != Completed
    ensures n == |apps| <==> forall i :: 0 <= i < |apps| ==> apps[i].status == Completed
  {
    Seqs.Count(apps, IsCompleted)
  }

  /** Each appointment adds one to the statistic exactly when it is completed. */
  lemma CompletedCountAppend(apps: seq<Appointment>, a: Appointment)
    ensures CompletedCount(apps + [a]) == CompletedCount(apps) + if a.status == Completed then 1 else 0
  {
    Seqs.CountAppend(apps, [a], IsCompleted);
    assert [a][1..] == [];
  }

  /** The statistic counts exactly the cards of the appointments page's "upcoming" tab. */
  lemma UpcomingCountMatchesTab(apps: seq<Appointment>, now: int)
    ensures UpcomingCount(apps, now) == |AppointmentsPage.FilterAppointments(apps, "upcoming", now)|
  {
  }

  /** Two predicates that no element satisfies together select at most the whole sequence between them. */
  lemma {:induction false} DisjointFilters(s: seq<Appointment>, p: Appointment -> bool, q: Appointment -> bool)
    requires forall a :: !(p(a) && q(a))
    ensures |Seqs.Filter(s, p)| + |Seqs.Filter(s, q)| <= |s|
    decreases |s|
  {
    if |s| > 0 {
      DisjointFilters(s[1..], p, q);
    }
  }

  /** Completed and cancelled appointments are disjoint, so the completed statistic leaves room for every cancellation. */
  lemma CompletedLeavesCancelled(apps: seq<Appointment>, now: int)
    ensures CompletedCount(apps) + |AppointmentsPage.FilterAppointments(apps, "cancelled", now)| <= |apps|
  {
    DisjointFilters(apps, IsCompleted, AppointmentsPage.IsCancelled);
  }

  /** The comparator `new Date(a) - new Date(b)`: earlier dates first. */
  function ByDateAsc(): (Appointment, Appointment) -> bool {
    (a: Appointment, b: Appointment) => a.date <= b.date
  }

  predicate Ahead(a: Appointment, now: int) {
    a.date > now
  }

  /** The list "next appointments": everything ahead of `now`, cancelled ones included, earliest first, at most three. */
  function NextThree(apps: seq<Appointment>, now: int): (r: seq<Appointment>)
    ensures |r| == var ahead := |Seqs.Filter(apps, a => Ahead(a, now))|; if ahead < 3 then ahead else 3
    ensures multiset(r) <= multiset(apps)
    ensures forall a :: a in r ==> a in apps && a.date > now
    ensures Sorting.SortedBy(r, ByDateAsc())
    ensures forall a, b :: a in r && b in apps && b.date > now && b !in r ==> a.date <= b.date
  {
    var ahead := Seqs.Filter(apps, a => Ahead(a, now));
    var sorted := Sorting.Sort(ahead, ByDateAsc());
    var r := Seqs.Take(sorted, 3);
    EarliestPrefix(apps, now, ahead, sorted, |r|);
    r
  }

  /**
   * A prefix of the appointments ahead of `now`, sorted by date, holds each of them at most as
   * often as the list does, and nothing later than any of them it leaves out.
   */
  lemma EarliestPrefix(apps: seq<Appointment>, now: int, ahead: seq<Appointment>, sorted: seq<Appointment>, n: nat)
    requires forall a :: a in ahead <==> a in apps && a.date > now
    requires multiset(ahead) <= multiset(apps)
    requires multiset(sorted) == multiset(ahead) && Sorting.SortedBy(sorted, ByDateAsc())
    requires n <= |sorted|
    ensures multiset(sorted[..n]) <= multiset(apps)
    ensures forall a :: a in sorted[..n] ==> a in apps && a.date > now
    ensures Sorting.SortedBy(sorted[..n], ByDateAsc())
    ensures forall a, b :: a in sorted[..n] && b in apps && b.date > now && b !in sorted[..n] ==> a.date <= b.date
  {
    var prefix := sorted[..n];
    assert sorted == prefix + sorted[n..];
    assert multiset(prefix) <= multiset(sorted);
    forall a | a in prefix
      ensures a in apps && a.date > now
    {
      assert a in multiset(prefix);
      assert a in multiset(ahead);
    }
    forall i, j | 0 <= i < j < n
      ensures ByDateAsc()(prefix[i], prefix[j])
    {
      assert prefix[i] == sorted[i] && prefix[j] == sorted[j];
    }
    SortedPrefixIsEarliest(sorted, n);
    forall a, b | a in prefix && b in apps && b.date > now && b !in prefix
      ensures a.date <= b.date
    {
      assert b in ahead;
      assert b in multiset(sorted);
    }
  }

  /** In a sequence sorted by date, a prefix holds nothing later than anything left outside it. */
  lemma SortedPrefixIsEarliest(sorted: seq<Appointment>, n: nat)
    requires n <= |sorted| && Sorting.SortedBy(sorted, ByDateAsc())
    ensures forall a, b :: a in sorted[..n] && b in sorted && b !in sorted[..n] ==> a.date <= b.date
  {
    forall a, b | a in sorted[..n] && b in sorted && b !in sorted[..n]
      ensures a.date <= b.date
    {
      var i :| 0 <= i < n && sorted[..n][i] == a;
      var j :| 0 <= j < |sorted| && sorted[j] == b;
      assert forall k :: 0 <= k < n ==> sorted[..n][k] == sorted[k];
      assert ByDateAsc()(sorted[i], sorted[j]);
    }
  }

  /** A cancelled appointment ahead of `now` may be listed, though the upcoming statistic skips it. */
  lemma NextThreeShowsCancelled(a: Appointment, now: int)
    requires a.date > now && a.status == Cancelled
    ensures NextThree([a], now) == [a]
    ensures UpcomingCount([a], now) == 0
  {
    assert [a][1..] == [];
  }

  /** `doctors.slice(0, 3)`: the first three doctors of the list. */
  function Recommended<T>(doctors: seq<T>): (r: seq<T>)
    ensures |r| == if |doctors| < 3 then |doctors| else 3
    ensures r == doctors[..|r|]
  {
    Seqs.Take(doctors, 3)
  }

  /** Doctors added to the end of a list of at least three never change the recommendations. */
  lemma RecommendedStable<T>(doctors: seq<T>, more: seq<T>)
    requires |doctors| >= 3
    ensures Recommended(doctors + more) == Recommended(doctors)
  {
    assert (doctors + more)[..3] == doctors[..3];
  }
}

=== FILE: doctor_controller.dfy ===
/**
 * app/controllers/doctor.controller.js: doctors are users with role doctor; their upcoming
 * bookings come from the `Record` collection.
 */
module DoctorController {

  import opened Wrappers
  import opened Json
  import opened Domain
  import JsString
  import Seqs
  import Sorting

  predicate IsDoctor(u: User) {
    u.role == Doctor
  }

  /** MongoDB's `sort({createdAt: -1})`: newest first. */
  function ByCreatedDesc(): (User, User) -> bool {
    (a: User, b: User) => a.createdAt >= b.createdAt
  }

  /** MongoDB's `sort({appointmentDate: 1})`: earliest first. */
  function ByDateAsc(): (Record, Record) -> bool {
    (a: Record, b: Record) => a.date <= b.date
  }

  function FullName(u: User): string {
    u.fullName
  }

  /** MongoDB's `sort({fullName: 1})` under binary string order. */
  function ByFullName(): (User, User) -> bool {
    Sorting.ByKey(FullName)
  }

  lemma OrdersArePreorders()
    ensures Sorting.TotalPreorder(ByCreatedDesc())
    ensures Sorting.TotalPreorder(ByDateAsc())
    ensures Sorting.TotalPreorder(ByFullName())
  {
    Sorting.ByKeyIsPreorder(FullName);
  }

  /** `getAllDoctors`: exactly the doctors, newest first. */
  function GetAllDoctors(users: seq<User>): (r: seq<User>)
    ensures forall u :: u in r <==> u in users && IsDoctor(u)
    ensures multiset(r) == multiset(Seqs.Filter(users, IsDoctor))
    ensures Sorting.SortedBy(r, ByCreatedDesc())
  {
    OrdersArePreorders();
    Sorting.Sort(Seqs.Filter(users, IsDoctor), ByCreatedDesc())
  }

  /** A scheduled or confirmed booking of `doctorId` not yet in the past. */
  predicate Upcoming(rec: Record, doctorId: Id, now: int) {
    rec.doctorId == doctorId && rec.status in {Scheduled, Confirmed} && rec.date >= now
  }

  /** A doctor with the bookings still ahead of them. */
  datatype DoctorDetails = DoctorDetails(doctor: User, upcoming: seq<Record>)

  /** The first user with id `id` and role doctor (`findOne({_id, role: 'doctor'})`). */
  function FindDoctor(users: seq<User>, id: Id): (r: Option<nat>)
    ensures r.None? <==> forall k :: 0 <= k < |users| ==> !(users[k].id == id && IsDoctor(users[k]))
    ensures r.Some? ==> r.value < |users| && users[r.value].id == id && IsDoctor(users[r.value])
  {
    Seqs.FindFirst(users, (u: User) => u.id == id && IsDoctor(u))
  }

  /** `getDoctorById`: 404 unless `id` is a doctor; the upcoming bookings earliest first. */
  function GetDoctorById(db: Db, id: Id, now: int): (r: Response<DoctorDetails>)
    ensures FindDoctor(db.users, id).None? <==> r == Fail(NotFound, "Doctor not found")
    ensures r.Fail? ==> r.status == NotFound
    ensures r.Ok? ==> r.value.doctor == db.users[FindDoctor(db.users, id).value]
    ensures r.Ok? ==> forall x :: x in r.value.upcoming <==> x in db.records && Upcoming(x, id, now)
    ensures r.Ok? ==> multiset(r.value.upcoming) == multiset(Seqs.Filter(db.records, x => Upcoming(x, id, now)))
    ensures r.Ok? ==> Sorting.SortedBy(r.value.upcoming, ByDateAsc())
  {
    match FindDoctor(db.users, id)
    case None => Fail(NotFound, "Doctor not found")
    case Some(k) =>
      OrdersArePreorders();
      Ok(DoctorDetails(db.users[k], Sorting.Sort(Seqs.Filter(db.records, x => Upcoming(x, id, now)), ByDateAsc())))
  }

  /** The fields of a POST /api/doctors body. */
  datatype DoctorRequest = DoctorRequest(
    username: Option<string>,
    email: Option<string>,
    password: Option<string>,
    fullName: Option<string>,
    phone: Option<string>,
    birthYear: Option<int>,
    specialization: Option<string>)

  /** `findOne({$or: [{email}, {username}]})` with the raw values; an undefined value matches no one. */
  predicate Collides(users: seq<User>, email: Option<string>, username: Option<string>) {
    exists k :: 0 <= k < |users| && (email == Some(users[k].email) || username == Some(users[k].username))
  }

  /**
   * What the save of the new doctor demands: the required paths of the user schema are non-empty,
   * and `birthDate` is given (`new Date(undefined)` is an Invalid Date, which the Date path refuses).
   */
  predicate Saveable(req: DoctorRequest) {
    && Present(req.username) && Present(req.email) && Present(req.password) && Present(req.fullName)
    && req.birthYear.Some?
  }

  /**
   * `createDoctor`: 400 if the email or the username is taken; otherwise the save either fails
   * (500 through the error handler) or stores a verified doctor with the values as given.
   */
  function CreateDoctor(db: Db, req: DoctorRequest, newId: Id, now: int): (r: Response<Db>)
    ensures Collides(db.users, req.email, req.username) <==> r == Fail(BadRequest, "User with this email or username already exists")
    ensures !Collides(db.users, req.email, req.username) && !Saveable(req) ==> r == Fail(ServerError, "Validation failed")
    ensures r.Ok? <==> !Collides(db.users, req.email, req.username) && Saveable(req)
    ensures r.Ok? ==> r.value.(users := db.users) == db
    ensures r.Ok? ==> |r.value.users| == |db.users| + 1 && r.value.users[..|db.users|] == db.users
    ensures r.Ok? ==> var u := r.value.users[|db.users|];
                      && u.id == newId && u.role == Doctor && u.isVerified
                      && u.email == req.email.value && u.username == req.username.value
                      && u.password == req.password.value && u.fullName == req.fullName.value
                      && u.phone == req.phone && u.birthYear == req.birthYear
                      && u.specialization == req.specialization && u.createdAt == now
  {
    if Collides(db.users, req.email, req.username) then Fail(BadRequest, "User with this email or username already exists")
    else if !Saveable(req) then Fail(ServerError, "Validation failed")
    else
      var u := User(newId, req.username.value, req.email.value, req.password.value, req.fullName.value,
                    req.phone, req.birthYear, Doctor, req.specialization, true, now);
      Ok(db.(users := db.users + [u]))
  }

  /** A new doctor keeps emails and usernames unique among users. */
  lemma CreateDoctorKeepsUnique(db: Db, req: DoctorRequest, newId: Id, now: int)
    requires UniqueIds(db.users, (u: User) => u.email) && UniqueIds(db.users, (u: User) => u.username)
    requires CreateDoctor(db, req, newId, now).Ok?
    ensures var users := CreateDoctor(db, req, newId, now).value.users;
            UniqueIds(users, (u: User) => u.email) && UniqueIds(users, (u: User) => u.username)
  {
    var users := CreateDoctor(db, req, newId, now).value.users;
    assert forall k :: 0 <= k < |db.users| ==> users[k] == db.users[k];
  }

  /** The `updateDoctor` allow-list. */
  const UpdateKeys: set<string> := {"fullName", "phone", "specialization", "isVerified"}

  /** Every allow-listed value of `patch` can be cast onto its User path. */
  predicate Castable(patch: Body) {
    && !Field(patch, "fullName", AsRequiredString).Bad?
    && !Field(patch, "phone", AsText).Bad?
    && !Field(patch, "specialization", AsText).Bad?
    && !Field(patch, "isVerified", AsBool).Bad?
  }

  /** The doctor `u` with the cast values of `patch` assigned. */
  function PatchDoctor(u: User, patch: Body): (u': User)
    requires Castable(patch)
    ensures SameOutside(u, u', patch.Keys)
    ensures Sent(u', patch)
  {
    u.(fullName := Field(patch, "fullName", AsRequiredString).Or(u.fullName),
       phone := Field(patch, "phone", AsText).Or(u.phone),
       specialization := Field(patch, "specialization", AsText).Or(u.specialization),
       isVerified := Field(patch, "isVerified", AsBool).Or(u.isVerified))
  }

  /**
   * `updateDoctor`: the allow-listed fields are cast first (a failure is 500, even for an unknown
   * id), then the doctor is looked up (404) and only those fields change, to the values sent.
   */
  function UpdateDoctor(db: Db, id: Id, body: Body): (r: Response<Db>)
    ensures !Castable(Pick(body, UpdateKeys)) ==> r == Fail(ServerError, "Cast failed")
    ensures Castable(Pick(body, UpdateKeys)) && FindDoctor(db.users, id).None? ==> r == Fail(NotFound, "Doctor not found")
    ensures Castable(Pick(body, UpdateKeys)) && FindDoctor(db.users, id).Some? ==> r.Ok?
    ensures r.Ok? ==> r.value.(users := db.users) == db
    ensures r.Ok? ==> exists k :: && FindDoctor(db.users, id) == Some(k)
                                  && |r.value.users| == |db.users|
                                  && (forall j :: 0 <= j < |db.users| && j != k ==> r.value.users[j] == db.users[j])
                                  && SameOutside(db.users[k], r.value.users[k], Pick(body, UpdateKeys).Keys)
                                  && Sent(r.value.users[k], Pick(body, UpdateKeys))
  {
    var patch := Pick(body, UpdateKeys);
    if !Castable(patch) then Fail(ServerError, "Cast failed")
    else match FindDoctor(db.users, id)
      case None => Fail(NotFound, "Doctor not found")
      case Some(k) => Ok(db.(users := db.users[k := PatchDoctor(db.users[k], patch)]))
  }

  /** Each field `patch` names holds the cast of the value sent. */
  predicate Sent(u: User, patch: Body) {
    && ("fullName" in patch ==> AsRequiredString(patch["fullName"]) == Some(u.fullName))
    && ("phone" in patch ==> AsText(patch["phone"]) == Some(u.phone))
    && ("specialization" in patch ==> AsText(patch["specialization"]) == Some(u.specialization))
    && ("isVerified" in patch ==> AsBool(patch["isVerified"]) == Some(u.isVerified))
  }

  /**
   * An update keeps emails and usernames unique (neither is allow-listed), and the updated doctor
   * is still the one found under its id.
   */
  lemma UpdateDoctorKeepsUnique(db: Db, id: Id, body: Body)
    requires UniqueIds(db.users, (u: User) => u.email) && UniqueIds(db.users, (u: User) => u.username)
    requires UpdateDoctor(db, id, body).Ok?
    ensures var users := UpdateDoctor(db, id, body).value.users;
            && UniqueIds(users, (u: User) => u.email) && UniqueIds(users, (u: User) => u.username)
            && FindDoctor(users, id) == FindDoctor(db.users, id)
  {
    var k := FindDoctor(db.users, id).value;
    var u' := PatchDoctor(db.users[k], Pick(body, UpdateKeys));
    SameKeysReplace(db.users, k, u', UpdateDoctor(db, id, body).value.users);
  }

  /** Replacing one user by one with the same id, email, username and role keeps uniqueness and the doctor lookup. */
  lemma SameKeysReplace(users: seq<User>, k: nat, u': User, after: seq<User>)
    requires k < |users| && after == users[k := u']
    requires u'.id == users[k].id && u'.email == users[k].email && u'.username == users[k].username && u'.role == users[k].role
    requires UniqueIds(users, (u: User) => u.email) && UniqueIds(users, (u: User) => u.username)
    ensures UniqueIds(after, (u: User) => u.email) && UniqueIds(after, (u: User) => u.username)
    ensures forall id :: FindDoctor(after, id) == FindDoctor(users, id)
  {
    forall id
      ensures FindDoctor(after, id) == FindDoctor(users, id)
    {
      Seqs.FindFirstCongruent(users, after, (u: User) => u.id == id && IsDoctor(u));
    }
  }

  /** `b` differs from `a` only in allow-listed fields named in `keys`; the role stays. */
  predicate SameOutside(a: User, b: User, keys: set<string>) {
    && b.(fullName := a.fullName, phone := a.phone, specialization := a.specialization, isVerified := a.isVerified) == a
    && ("fullName" !in keys ==> a.fullName == b.fullName)
    && ("phone" !in keys ==> a.phone == b.phone)
    && ("specialization" !in keys ==> a.specialization == b.specialization)
    && ("isVerified" !in keys ==> a.isVerified == b.isVerified)
  }

  /** `deleteDoctor` answers 400 while the id has upcoming bookings. */
  predicate HasUpcoming(records: seq<Record>, id: Id, now: int) {
    exists k :: 0 <= k < |records| && Upcoming(records[k], id, now)
  }

  /**
   * `deleteDoctor`: 400 while upcoming bookings exist (checked before existence), then 404 unless
   * `id` is a doctor; the user is removed and the records stay.
   */
  function DeleteDoctor(db: Db, id: Id, now: int): (r: Response<Db>)
    ensures HasUpcoming(db.records, id, now) <==> r == Fail(BadRequest, "Cannot delete doctor with upcoming appointments")
    ensures !HasUpcoming(db.records, id, now) && FindDoctor(db.users, id).None? ==> r == Fail(NotFound, "Doctor not found")
    ensures r.Ok? ==> r.value.(users := db.users) == db
    ensures !HasUpcoming(db.records, id, now) && FindDoctor(db.users, id).Some? ==> r.Ok?
    ensures r.Ok? ==> exists k :: && FindDoctor(db.users, id) == Some(k)
                                  && r.value.users == db.users[..k] + db.users[k + 1..]
  {
    var upcoming := Seqs.Filter(db.records, x => Upcoming(x, id, now));
    assert HasUpcoming(db.records, id, now) <==> |upcoming| > 0 by {
      if HasUpcoming(db.records, id, now) {
        var k :| 0 <= k < |db.records| && Upcoming(db.records[k], id, now);
        assert db.records[k] in upcoming;
      }
      if |upcoming| > 0 {
        assert upcoming[0] in upcoming;
      }
    }
    if |upcoming| > 0 then Fail(BadRequest, "Cannot delete doctor with upcoming appointments")
    else match FindDoctor(db.users, id)
      case None => Fail(NotFound, "Doctor not found")
      case Some(k) => Ok(db.(users := Seqs.RemoveAt(db.users, k)))
  }

  /** A deleted doctor had nothing ahead of them at the time of deletion. */
  lemma DeletedDoctorHadNothingAhead(db: Db, id: Id, now: int)
    requires DeleteDoctor(db, id, now).Ok?
    ensures forall k :: 0 <= k < |db.records| ==> !Upcoming(db.records[k], id, now)
  {
  }

  /** The query of `searchDoctors`: doctors, optionally by specialization substring and by verification. */
  predicate Matches(u: User, specialization: Option<string>, available: Option<string>) {
    && IsDoctor(u)
    && (Present(specialization) ==>
          u.specialization.Some? && JsString.Includes(JsString.Lower(u.specialization.value), JsString.Lower(specialization.value)))
    && (available == Some("true") ==> u.isVerified)
  }

  /**
   * `searchDoctors`: a case-insensitive substring match on specialization when one is given,
   * verified doctors only when `available` is the string "true"; by name.
   */
  function SearchDoctors(users: seq<User>, specialization: Option<string>, available: Option<string>): (r: seq<User>)
    ensures forall u :: u in r <==> u in users && Matches(u, specialization, available)
    ensures Sorting.SortedBy(r, ByFullName())
    ensures multiset(r) == multiset(Seqs.Filter(users, u => Matches(u, specialization, available)))
  {
    OrdersArePreorders();
    Sorting.Sort(Seqs.Filter(users, u => Matches(u, specialization, available)), ByFullName())
  }

  /** Without filters the search returns the same doctors as `getAllDoctors`, only ordered by name. */
  lemma SearchWithoutFilters(users: seq<User>, available: Option<string>)
    requires available != Some("true")
    ensures multiset(SearchDoctors(users, None, available)) == multiset(GetAllDoctors(users))
  {
    Seqs.FilterCongruent(users, u => Matches(u, None, available), IsDoctor);
  }
}

=== FILE: doctor_dashboard.dfy ===
/** `escapeHtml` of public/js/doctorDashboard.js: the HTML entity encoder applied to user text. */
module DoctorDashboard {

  import opened Wrappers

  /** The replacement of one character: the five markup characters become entities, the rest stay. */
  function EscapeChar(c: char): (r: string)
    ensures c !in "&<>\"'" ==> r == [c]
    ensures |r| >= 1 && r[0] == (if c in "&<>\"'" then '&' else c)
  {
    if c == '&' then "&amp;"
    else if c == '<' then "&lt;"
    else if c == '>' then "&gt;"
    else if c == '"' then "&quot;"
    else if c == '\'' then "&#39;"
    else [c]
  }

  /** `String(str).replace(/[&<>"']/g, ...)`: every character replaced in order. */
  function Escape(s: string): (r: string)
    ensures forall k :: 0 <= k < |r| ==> r[k] !in "<>\"'"
    ensures |r| >= |s|
    decreases |s|
  {
    if |s| == 0 then "" else EscapeChar(s[0]) + Escape(s[1..])
  }

  /** `escapeHtml`: a falsy value (absent or empty) gives the empty string. */
  function EscapeHtml(str: Option<string>): (r: string)
    ensures str.None? ==> r == ""
    ensures str.Some? ==> r == Escape(str.value)
    ensures forall k :: 0 <= k < |r| ==> r[k] !in "<>\"'"
  {
    if str.None? || str.value == "" then "" else Escape(str.value)
  }

  /** Escaping works character by character: it distributes over concatenation. */
  lemma {:induction false} EscapeAppend(a: string, b: string)
    ensures Escape(a + b) == Escape(a) + Escape(b)
    decreases |a|
  {
    if |a| == 0 {
      assert a + b == b;
    } else {
      assert (a + b)[0] == a[0];
      assert (a + b)[1..] == a[1..] + b;
      EscapeAppend(a[1..], b);
    }
  }

  /** Text free of the five markup characters is copied unchanged. */
  lemma {:induction false} EscapePlain(s: string)
    requires forall k :: 0 <= k < |s| ==> s[k] !in "&<>\"'"
    ensures Escape(s) == s
    decreases |s|
  {
    if |s| > 0 {
      EscapePlain(s[1..]);
    }
  }

  /** The decoder of the five entities; any other character is read as itself. */
  function Unescape(s: string): (r: string)
    decreases |s|
  {
    if |s| == 0 then ""
    else if |s| >= 5 && s[..5] == "&amp;" then "&" + Unescape(s[5..])
    else if |s| >= 4 && s[..4] == "&lt;" then "<" + Unescape(s[4..])
    else if |s| >= 4 && s[..4] == "&gt;" then ">" + Unescape(s[4..])
    else if |s| >= 6 && s[..6] == "&quot;" then "\"" + Unescape(s[6..])
    else if |s| >= 5 && s[..5] == "&#39;" then "'" + Unescape(s[5..])
    else [s[0]] + Unescape(s[1..])
  }

  /** Decoding one escaped character followed by anything reads back that character first. */
  lemma UnescapeChar(c: char, rest: string)
    ensures Unescape(EscapeChar(c) + rest) == [c] + Unescape(rest)
  {
    if c == '&' {
      UnescapeAmp("&amp;" + rest, rest);
    } else if c == '<' {
      UnescapeLt("&lt;" + rest, rest);
    } else if c == '>' {
      UnescapeGt("&gt;" + rest, rest);
    } else if c == '"' {
      UnescapeQuot("&quot;" + rest, rest);
    } else if c == '\'' {
      UnescapeApos("&#39;" + rest, rest);
    } else {
      UnescapeOther(c, [c] + rest, rest);
    }
  }

  lemma UnescapeOther(c: char, s: string, rest: string)
    requires c != '&' && s == [c] + rest
    ensures Unescape(s) == [c] + Unescape(rest)
  {
    assert s[0] == c && s[1..] == rest;
    assert !(|s| >= 5 && s[..5] == "&amp;") && !(|s| >= 4 && s[..4] == "&lt;") && !(|s| >= 4 && s[..4] == "&gt;")
           && !(|s| >= 6 && s[..6] == "&quot;") && !(|s| >= 5 && s[..5] == "&#39;")
    by {
      assert "&amp;"[0] == '&' && "&lt;"[0] == '&' && "&gt;"[0] == '&' && "&quot;"[0] == '&' && "&#39;"[0] == '&';
      if |s| >= 4 { assert s[..4][0] == c; }
      if |s| >= 5 { assert s[..5][0] == c; }
      if |s| >= 6 { assert s[..6][0] == c; }
    }
  }

  lemma UnescapeAmp(s: string, rest: string)
    requires s == "&amp;" + rest
    ensures Unescape(s) == "&" + Unescape(rest)
  {
    assert s[5..] == rest;
    assert s[..5] == "&amp;";
  }

  lemma UnescapeLt(s: string, rest: string)
    requires s == "&lt;" + rest
    ensures Unescape(s) == "<" + Unescape(rest)
  {
    assert s[4..] == rest;
    assert s[..4] == "&lt;";
    assert !(|s| >= 5 && s[..5] == "&amp;") by { assert s[1] == 'l' && "&amp;"[1] == 'a'; if |s| >= 5 { assert s[..5][1] == s[1]; } }
  }

  lemma UnescapeGt(s: string, rest: string)
    requires s == "&gt;" + rest
    ensures Unescape(s) == ">" + Unescape(rest)
  {
    assert s[4..] == rest;
    assert s[..4] == "&gt;";
    assert !(|s| >= 5 && s[..5] == "&amp;") by { assert s[1] == 'g' && "&amp;"[1] == 'a'; if |s| >= 5 { assert s[..5][1] == s[1]; } }
    assert s[..4] != "&lt;" by { assert s[..4][1] == 'g' && "&lt;"[1] == 'l'; }
  }

  lemma UnescapeQuot(s: string, rest: string)
    requires s == "&quot;" + rest
    ensures Unescape(s) == "\"" + Unescape(rest)
  {
    assert s[6..] == rest;
    assert s[..6] == "&quot;";
    assert s[..5] != "&amp;" by { assert s[..5][1] == 'q' && "&amp;"[1] == 'a'; }
    assert s[..4] != "&lt;" by { assert s[..4][1] == 'q' && "&lt;"[1] == 'l'; }
    assert s[..4] != "&gt;" by { assert s[..4][1] == 'q' && "&gt;"[1] == 'g'; }
  }

  lemma UnescapeApos(s: string, rest: string)
    requires s == "&#39;" + rest
    ensures Unescape(s) == "'" + Unescape(rest)
  {
    assert s[5..] == rest;
    assert s[..5] == "&#39;";
    assert s[..5] != "&amp;" by { assert s[..5][1] == '#' && "&amp;"[1] == 'a'; }
    assert s[..4] != "&lt;" by { assert s[..4][1] == '#' && "&lt;"[1] == 'l'; }
    assert s[..4] != "&gt;" by { assert s[..4][1] == '#' && "&gt;"[1] == 'g'; }
    assert !(|s| >= 6 && s[..6] == "&quot;") by { if |s| >= 6 { assert s[..6][1] == '#' && "&quot;"[1] == 'q'; } }
  }

  /** Decoding the encoder's output gives back the input: no information is lost. */
  lemma {:induction false} UnescapeEscape(s: string)
    ensures Unescape(Escape(s)) == s
    decreases |s|
  {
    if |s| > 0 {
      UnescapeChar(s[0], Escape(s[1..]));
      UnescapeEscape(s[1..]);
      assert s == [s[0]] + s[1..];
    }
  }

  /** Distinct texts stay distinct once escaped. */
  lemma EscapeInjective(a: string, b: string)
    requires Escape(a) == Escape(b)
    ensures a == b
  {
    UnescapeEscape(a);
    UnescapeEscape(b);
  }

  /** A concrete encoding: markup characters become entities, letters stay. */
  lemma EscapeExample()
    ensures Escape("<b>") == "&lt;b&gt;"
  {
    assert "<b>"[1..] == "b>" && "b>"[1..] == ">" && ">"[1..] == "";
  }
}

=== FILE: doctor_page.dfy ===
/** public/js/doctor.js: the doctors page's free-text search and its specialization buttons. */
module DoctorPage {

  import opened Wrappers
  import opened Domain
  import JsString
  import Seqs

  /** A doctor as the page receives it. */
  datatype ClientDoctor = ClientDoctor(id: Id, fullName: string, specialization: Option<string>)

  /** The search test for a non-empty lower-cased term: in the name, or in a non-empty specialization. */
  predicate MatchesTerm(d: ClientDoctor, term: string) {
    || JsString.Includes(JsString.Lower(d.fullName), term)
    || (Present(d.specialization) && JsString.Includes(JsString.Lower(d.specialization.value), term))
  }

  /** `searchDoctors()` on the text of the search box: all doctors for an empty term, otherwise the matches in list order. */
  function Search(doctors: seq<ClientDoctor>, input: string): (r: seq<ClientDoctor>)
    ensures input == "" ==> r == doctors
    ensures input != "" ==> forall d :: d in r <==> d in doctors && MatchesTerm(d, JsString.Lower(input))
    ensures input != "" ==> Seqs.IsSubsequence(r, doctors)
  {
    var term := JsString.Lower(input);
    if term == "" then doctors else Seqs.Filter(doctors, (d: ClientDoctor) => MatchesTerm(d, term))
  }

  /** The search ignores the case of what is typed. */
  lemma SearchIgnoresCase(doctors: seq<ClientDoctor>, input: string)
    ensures Search(doctors, JsString.Lower(input)) == Search(doctors, input)
  {
    JsString.LowerIdempotent(input);
  }

  /** A needle found in a text is found wherever a longer needle starting with it is found. */
  lemma IncludesPrefix(hay: string, a: string, b: string)
    requires JsString.Includes(hay, a + b)
    ensures JsString.Includes(hay, a)
  {
    JsString.IncludesSpec(hay, a + b);
    JsString.IncludesSpec(hay, a);
    var i :| JsString.OccursAt(hay, a + b, i);
    assert hay[i..i + |a|] == (a + b)[..|a|];
    assert JsString.OccursAt(hay, a, i);
  }

  /** Typing more characters never brings a doctor back: the matches for a longer term are among those for a shorter one. */
  lemma SearchNarrows(doctors: seq<ClientDoctor>, a: string, b: string)
    requires a != ""
    ensures forall d :: d in Search(doctors, a + b) ==> d in Search(doctors, a)
  {
    assert JsString.Lower(a + b) == JsString.Lower(a) + JsString.Lower(b);
    forall d | d in Search(doctors, a + b)
      ensures d in Search(doctors, a)
    {
      var la, lb := JsString.Lower(a), JsString.Lower(b);
      if JsString.Includes(JsString.Lower(d.fullName), la + lb) {
        IncludesPrefix(JsString.Lower(d.fullName), la, lb);
      } else {
        IncludesPrefix(JsString.Lower(d.specialization.value), la, lb);
      }
    }
  }

  /** `filterBySpecialization(s)`: everyone for "all", otherwise the exact matches in list order. */
  function FilterBySpecialization(doctors: seq<ClientDoctor>, specialization: string): (r: seq<ClientDoctor>)
    ensures specialization == "all" ==> r == doctors
    ensures specialization != "all" ==> forall d :: d in r <==> d in doctors && d.specialization == Some(specialization)
    ensures specialization != "all" ==> Seqs.IsSubsequence(r, doctors)
  {
    if specialization == "all" then doctors else Seqs.Filter(doctors, (d: ClientDoctor) => d.specialization == Some(specialization))
  }

  /**
   * Each doctor shows up under the button of its own specialization and under no other; a doctor
   * without one shows up only under "all".
   */
  lemma SpecializationButtonsPartition(doctors: seq<ClientDoctor>, d: ClientDoctor, s: string)
    requires d in doctors && s != "all"
    ensures d in FilterBySpecialization(doctors, s) <==> d.specialization == Some(s)
    ensures d in FilterBySpecialization(doctors, "all")
  {
  }
}

=== FILE: domain.dfy ===
/** The clinic's entities and the database that holds them, one sequence per collection in natural order. */
module Domain {

  import opened Wrappers
  import Seqs

  type Id = string

  /** A user's role. Stored roles are strings; names outside the three known ones are kept as `Other`. */
  datatype Role = Patient | Doctor | Admin | Other(name: string)

  function RoleName(r: Role): string {
    match r
    case Patient => "patient"
    case Doctor => "doctor"
    case Admin => "admin"
    case Other(n) => n
  }

  /** Reads a stored role string. */
  function ParseRole(s: string): (r: Role)
    ensures RoleName(r) == s
    ensures r.Other? <==> s !in {"patient", "doctor", "admin"}
  {
    if s == "patient" then Patient
    else if s == "doctor" then Doctor
    else if s == "admin" then Admin
    else Other(s)
  }

  /** A role value written the one way `ParseRole` produces it. */
  predicate Canonical(r: Role) {
    r.Other? ==> r.name !in {"patient", "doctor", "admin"}
  }

  /** Writing a canonical role and reading it back gives the same role. */
  lemma ParseRoleName(r: Role)
    requires Canonical(r)
    ensures ParseRole(RoleName(r)) == r
  {
  }

  /** The four-value `status` enum of both appointment schemas. */
  datatype Status = Scheduled | Confirmed | Completed | Cancelled

  function StatusName(s: Status): string {
    match s
    case Scheduled => "scheduled"
    case Confirmed => "confirmed"
    case Completed => "completed"
    case Cancelled => "cancelled"
  }

  const StatusNames: set<string> := {"scheduled", "confirmed", "completed", "cancelled"}

  /** Reads a status string; only the four enum names are statuses. */
  function ParseStatus(s: string): (r: Option<Status>)
    ensures r.Some? <==> s in StatusNames
    ensures r.Some? ==> StatusName(r.value) == s
  {
    if s == "scheduled" then Some(Scheduled)
    else if s == "confirmed" then Some(Confirmed)
    else if s == "completed" then Some(Completed)
    else if s == "cancelled" then Some(Cancelled)
    else None
  }

  lemma StatusRoundTrip(s: Status)
    ensures ParseStatus(StatusName(s)) == Some(s)
  {
  }

  /**
   * An account. `password` is the stored credential (a bcrypt hash on the server.js path);
   * a birth date is represented by its calendar year, the only part any rule reads.
   */
  datatype User = User(
    id: Id,
    username: string,
    email: string,
    password: string,
    fullName: string,
    phone: Option<string>,
    birthYear: Option<int>,
    role: Role,
    specialization: Option<string>,
    isVerified: bool,
    createdAt: int)

  /** A document of the schema-less `doctors` collection that server.js books against. */
  datatype LegacyDoctor = LegacyDoctor(
    id: Id,
    name: Option<string>,
    specialization: Option<string>,
    isAvailable: Option<bool>)

  /** A booking in server.js's `Appointment` collection; `doctorId` is a plain string. */
  datatype Appointment = Appointment(
    id: Id,
    doctorId: string,
    patientId: Id,
    date: int,
    reason: string,
    symptoms: seq<string>,
    diagnosis: Option<string>,
    prescription: Option<string>,
    notes: Option<string>,
    duration: int,
    status: Status,
    createdAt: int)

  /** A booking in the controllers' `Record` collection; `doctorId` references a User. */
  datatype Record = Record(
    id: Id,
    patientId: Id,
    doctorId: Id,
    date: int,
    status: Status,
    reason: string,
    symptoms: seq<string>,
    diagnosis: Option<string>,
    prescription: Option<string>,
    notes: Option<string>,
    duration: int,
    price: int,
    createdAt: int)

  /** The `category` enum of the Service schema. */
  datatype Category = Therapy | Surgery | Diagnostics | Consultation | Emergency | OtherCategory

  function ParseCategory(s: string): (r: Option<Category>)
    ensures r.Some? <==> s in {"therapy", "surgery", "diagnostics", "consultation", "emergency", "other"}
  {
    if s == "therapy" then Some(Therapy)
    else if s == "surgery" then Some(Surgery)
    else if s == "diagnostics" then Some(Diagnostics)
    else if s == "consultation" then Some(Consultation)
    else if s == "emergency" then Some(Emergency)
    else if s == "other" then Some(OtherCategory)
    else None
  }

  /** A billable catalogue entry. */
  datatype Service = Service(
    id: Id,
    name: string,
    description: Option<string>,
    price: int,
    duration: int,
    category: Category,
    active: Option<bool>,
    createdAt: Option<int>,
    updatedAt: Option<int>)

  /** The whole database: the User, legacy doctors, Appointment, Record and Service collections. */
  datatype Db = Db(
    users: seq<User>,
    doctors: seq<LegacyDoctor>,
    appointments: seq<Appointment>,
    records: seq<Record>,
    services: seq<Service>)

  /** The first user with id `id`: what `User.findById` returns. */
  function UserById(users: seq<User>, id: Id): (r: Option<User>)
    ensures r.None? <==> forall i :: 0 <= i < |users| ==> users[i].id != id
    ensures r.Some? ==> r.value.id == id && r.value in users
  {
    match Seqs.FindFirst(users, (u: User) => u.id == id)
    case None => None
    case Some(i) => Some(users[i])
  }

  /** No two documents of a collection share an id. */
  predicate UniqueIds<T>(s: seq<T>, id: T -> Id) {
    forall i, j :: 0 <= i < j < |s| ==> id(s[i]) != id(s[j])
  }

  /** `id` is not yet used in the collection: what the ObjectId generator guarantees of a new document. */
  predicate Fresh<T>(s: seq<T>, id: T -> Id, newId: Id) {
    forall i :: 0 <= i < |s| ==> id(s[i]) != newId
  }

  /** Appending a document whose key is fresh keeps the keys unique. */
  lemma AppendFreshKeepsUnique<T>(s: seq<T>, x: T, id: T -> Id, after: seq<T>)
    requires UniqueIds(s, id) && Fresh(s, id, id(x)) && after == s + [x]
    ensures UniqueIds(after, id)
  {
    forall i, j | 0 <= i < j < |after|
      ensures id(after[i]) != id(after[j])
    {
      assert after[i] == s[i];
    }
  }
}

=== FILE: email_shape.dfy ===
/**
 * The email pattern `^[^\s@]+@[^\s@]+\.[^\s@]+$` shared by the registration handler and the client's
 * `validateEmail`, as an executable check and as the decomposition the pattern describes.
 */
module EmailShape {

  import opened Wrappers
  import JsString
  import Seqs

  /** A character of the class `[^\s@]`. */
  predicate Plain(c: char) {
    !JsString.IsSpace(c) && c != '@'
  }

  /**
   * The pattern read as a decomposition: `s` is local "@" domain "." tld, three non-empty runs of
   * plain characters (the domain may itself contain dots; `.` is plain).
   */
  ghost predicate MatchesPattern(s: string) {
    exists i, j :: 0 < i && i + 1 < j && j + 1 < |s| && s[i] == '@' && s[j] == '.'
                   && forall k :: 0 <= k < |s| && k != i ==> Plain(s[k])
  }

  /** The executable check: one '@' with something before it, no whitespace, and a dot strictly inside what follows. */
  predicate Valid(s: string) {
    match Seqs.FindFirst(s, c => c == '@')
    case None => false
    case Some(at) =>
      && at > 0
      && (forall k :: 0 <= k < |s| && k != at ==> Plain(s[k]))
      && at + 2 < |s| && '.' in s[at + 2 .. |s| - 1]
  }

  /** The executable check accepts exactly the strings the pattern matches. */
  lemma ValidMatchesPattern(s: string)
    ensures Valid(s) <==> MatchesPattern(s)
  {
    if Valid(s) {
      var at := Seqs.FindFirst(s, c => c == '@').value;
      var t := s[at + 2 .. |s| - 1];
      var m :| 0 <= m < |t| && t[m] == '.';
      assert s[at + 2 + m] == '.';
    }
    if MatchesPattern(s) {
      var i, j :| 0 < i && i + 1 < j && j + 1 < |s| && s[i] == '@' && s[j] == '.'
                  && forall k :: 0 <= k < |s| && k != i ==> Plain(s[k]);
      var found := Seqs.FindFirst(s, c => c == '@');
      assert found == Some(i) by {
        assert found.Some?;
        assert !Plain(s[found.value]);
      }
      assert s[i + 2 .. |s| - 1][j - i - 2] == '.';
    }
  }

  /** A domain may hold several dots; the last part only has to be non-empty. */
  lemma AcceptsDottedDomain()
    ensures Valid("a@b.c.d")
  {
    assert Seqs.FindFirst("a@b.c.d", c => c == '@') == Some(1);
    assert "a@b.c.d"[3 .. 6][0] == '.';
  }

  /** A dot right after the '@' leaves the domain empty. */
  lemma RejectsEmptyDomain()
    ensures !Valid("a@.co")
  {
    assert Seqs.FindFirst("a@.co", c => c == '@') == Some(1);
    assert "a@.co"[3 .. 4] == "c";
  }

  /** A second '@' is not a plain character. */
  lemma RejectsSecondAt()
    ensures !Valid("a@b@c.de")
  {
    assert Seqs.FindFirst("a@b@c.de", c => c == '@') == Some(1);
    assert !Plain("a@b@c.de"[3]);
  }
}

=== FILE: js_string.dfy ===
/** The JavaScript string operations the application relies on, over strings of Unicode scalar values. */
module JsString {

  import opened Wrappers

  /** The characters of the ECMAScript `\s` class, which `String.prototype.trim` also removes. */
  predicate IsSpace(c: char) {
    c == '\t' || c == '\n' || c == '\U{000B}' || c == '\U{000C}' || c == '\r' || c == ' '
    || c == '\U{00A0}' || c == '\U{1680}' || ('\U{2000}' <= c <= '\U{200A}')
    || c == '\U{2028}' || c == '\U{2029}' || c == '\U{202F}' || c == '\U{205F}'
    || c == '\U{3000}' || c == '\U{FEFF}'
  }

  /** ASCII digits, the ECMAScript `\d` class. */
  predicate IsDigit(c: char) {
    '0' <= c <= '9'
  }

  /** Leading white space removed. */
  function TrimStart(s: string): (r: string)
    ensures |r| <= |s| && r == s[|s| - |r|..]
    ensures forall i :: 0 <= i < |s| - |r| ==> IsSpace(s[i])
    ensures r == [] || !IsSpace(r[0])
  {
    if |s| > 0 && IsSpace(s[0]) then TrimStart(s[1..]) else s
  }

  /** Trailing white space removed. */
  function TrimEnd(s: string): (r: string)
    ensures |r| <= |s| && r == s[..|r|]
    ensures forall i :: |r| <= i < |s| ==> IsSpace(s[i])
    ensures r == [] || !IsSpace(r[|r| - 1])
  {
    if |s| > 0 && IsSpace(s[|s| - 1]) then TrimEnd(s[..|s| - 1]) else s
  }

  /** `needle` occurs in `hay` starting at index `i`. */
  predicate OccursAt(hay: string, needle: string, i: int) {
    0 <= i && i + |needle| <= |hay| && hay[i..i + |needle|] == needle
  }

  /** `String.prototype.trim`: the longest slice of `s` that neither starts nor ends with white space. */
  function Trim(s: string): (r: string)
    ensures exists i :: OccursAt(s, r, i)
                        && (forall k :: 0 <= k < i ==> IsSpace(s[k]))
                        && (forall k :: i + |r| <= k < |s| ==> IsSpace(s[k]))
    ensures r == [] || (!IsSpace(r[0]) && !IsSpace(r[|r| - 1]))
    ensures forall k :: 0 <= k < |r| ==> r[k] in s
  {
    var t := TrimStart(s);
    var r := TrimEnd(t);
    TrimSlice(s, t, r);
    r
  }

  /** The trimmed text is the slice of `s` after the leading white space, with only white space after it. */
  lemma TrimSlice(s: string, t: string, r: string)
    requires t == TrimStart(s) && r == TrimEnd(t)
    ensures OccursAt(s, r, |s| - |t|)
    ensures forall k :: |s| - |t| + |r| <= k < |s| ==> IsSpace(s[k])
    ensures forall k :: 0 <= k < |r| ==> r[k] in s
  {
    var i := |s| - |t|;
    SliceOfSuffix(s, t, r);
    TrailingSpace(s, t, r);
    SliceChars(s, r, i);
  }

  lemma SliceOfSuffix(s: string, t: string, r: string)
    requires |r| <= |t| <= |s| && t == s[|s| - |t|..] && r == t[..|r|]
    ensures OccursAt(s, r, |s| - |t|)
  {
    var i := |s| - |t|;
    assert r == s[i..i + |r|];
  }

  lemma TrailingSpace(s: string, t: string, r: string)
    requires |r| <= |t| <= |s| && t == s[|s| - |t|..]
    requires forall k :: |r| <= k < |t| ==> IsSpace(t[k])
    ensures forall k :: |s| - |t| + |r| <= k < |s| ==> IsSpace(s[k])
  {
    var i := |s| - |t|;
    forall k | i + |r| <= k < |s|
      ensures IsSpace(s[k])
    {
      assert s[k] == t[k - i];
    }
  }

  lemma SliceChars(s: string, r: string, i: int)
    requires OccursAt(s, r, i)
    ensures forall k :: 0 <= k < |r| ==> r[k] in s
  {
    forall k | 0 <= k < |r|
      ensures r[k] in s
    {
      assert r[k] == s[i + k];
    }
  }

  /** Trimming twice is trimming once. */
  lemma TrimIdempotent(s: string)
    ensures Trim(Trim(s)) == Trim(s)
  {
    var r := Trim(s);
    assert TrimStart(r) == r;
    assert TrimEnd(r) == r;
  }

  /** One character's lower-case form: ASCII and basic Cyrillic letters fold, all others are kept. */
  function LowerChar(c: char): char {
    if 'A' <= c <= 'Z' then (c as int + 32) as char
    else if '\U{0410}' <= c <= '\U{042F}' then (c as int + 32) as char
    else if '\U{0400}' <= c <= '\U{040F}' then (c as int + 80) as char
    else c
  }

  /** `String.prototype.toLowerCase`, character by character. */
  function Lower(s: string): (r: string)
    ensures |r| == |s|
    ensures forall i :: 0 <= i < |s| ==> r[i] == LowerChar(s[i])
  {
    seq(|s|, i requires 0 <= i < |s| => LowerChar(s[i]))
  }

  lemma LowerIdempotent(s: string)
    ensures Lower(Lower(s)) == Lower(s)
  {
  }

  /** Lower-casing and trimming commute, since no white-space character has a case. */
  lemma LowerKeepsSpace(c: char)
    ensures IsSpace(LowerChar(c)) <==> IsSpace(c)
  {
  }

  /** `String.prototype.includes`, computed by scanning from the left. */
  function Includes(hay: string, needle: string): bool
    decreases |hay|
  {
    if |needle| > |hay| then false
    else if hay[..|needle|] == needle then true
    else Includes(hay[1..], needle)
  }

  /** `Includes` holds exactly when the needle occurs at some index; the empty needle occurs everywhere. */
  lemma {:induction false} IncludesSpec(hay: string, needle: string)
    ensures Includes(hay, needle) <==> exists i :: OccursAt(hay, needle, i)
    decreases |hay|
  {
    if |needle| > |hay| {
    } else if hay[..|needle|] == needle {
      assert OccursAt(hay, needle, 0);
    } else {
      IncludesSpec(hay[1..], needle);
      if Includes(hay[1..], needle) {
        var i :| OccursAt(hay[1..], needle, i);
        assert hay[i + 1..i + 1 + |needle|] == hay[1..][i..i + |needle|];
        assert OccursAt(hay, needle, i + 1);
      } else {
        forall i | OccursAt(hay, needle, i)
          ensures false
        {
          assert i != 0;
          assert hay[1..][i - 1..i - 1 + |needle|] == hay[i..i + |needle|];
          assert OccursAt(hay[1..], needle, i - 1);
        }
      }
    }
  }

  /** The index of the first occurrence of `pat` in `s`, if any. */
  function IndexOf(s: string, pat: string): (r: Option<nat>)
    ensures r.Some? ==> OccursAt(s, pat, r.value) && forall j :: 0 <= j < r.value ==> !OccursAt(s, pat, j)
    ensures r.None? ==> forall j :: !OccursAt(s, pat, j)
    decreases |s|
  {
    if |pat| > |s| then
      assert forall j :: !OccursAt(s, pat, j);
      None
    else if s[..|pat|] == pat then Some(0)
    else
      var rest := IndexOf(s[1..], pat);
      assert forall j :: 1 <= j ==> (OccursAt(s, pat, j) <==> OccursAt(s[1..], pat, j - 1)) by {
        forall j | 1 <= j
          ensures OccursAt(s, pat, j) <==> OccursAt(s[1..], pat, j - 1)
        {
          if j + |pat| <= |s| {
            var u := s[1..];
            var a, b := s[j..j + |pat|], u[j - 1..j - 1 + |pat|];
            assert forall t :: 0 <= t < |pat| ==> a[t] == b[t];
            assert a == b;
          }
        }
      }
      match rest
      case None => None
      case Some(k) => Some(k + 1)
  }

  /** `s.replace(pat, "")` with a string pattern: only the first occurrence is removed. */
  function RemoveFirst(s: string, pat: string): (r: string)
    ensures (forall j :: !OccursAt(s, pat, j)) ==> r == s
    ensures forall k :: (OccursAt(s, pat, k) && forall j :: 0 <= j < k ==> !OccursAt(s, pat, j))
                          ==> r == s[..k] + s[k + |pat|..]
  {
    match IndexOf(s, pat)
    case None => s
    case Some(k) => s[..k] + s[k + |pat|..]
  }

  /** A prefix is the first occurrence, so removing the first occurrence strips exactly the prefix. */
  lemma RemoveFirstPrefix(pat: string, rest: string)
    ensures RemoveFirst(pat + rest, pat) == rest
  {
    var s := pat + rest;
    assert OccursAt(s, pat, 0);
    assert s[|pat|..] == rest;
  }

  /** `s.split(sep)` with a one-character separator: the maximal separator-free pieces, empty ones included. */
  function Split(s: string, sep: char): (parts: seq<string>)
    ensures |parts| >= 1
    ensures forall p <- parts :: sep !in p
    decreases |s|
  {
    if |s| == 0 then [""]
    else
      var rest := Split(s[1..], sep);
      if s[0] == sep then [""] + rest
      else [[s[0]] + rest[0]] + rest[1..]
  }

  /** `parts.join(sep)`. */
  function Join(parts: seq<string>, sep: string): string
    decreases |parts|
  {
    if |parts| == 0 then ""
    else if |parts| == 1 then parts[0]
    else parts[0] + sep + Join(parts[1..], sep)
  }

  /** Splitting and re-joining on the same separator gives back the original string. */
  lemma {:induction false} JoinSplit(s: string, sep: char)
    ensures Join(Split(s, sep), [sep]) == s
    decreases |s|
  {
    if |s| > 0 {
      var rest := Split(s[1..], sep);
      JoinSplit(s[1..], sep);
      if s[0] == sep {
        assert Split(s, sep) == [""] + rest;
        assert ([""] + rest)[1..] == rest;
      } else {
        var parts := [[s[0]] + rest[0]] + rest[1..];
        assert Split(s, sep) == parts;
        if |rest| == 1 {
          assert Join(rest, [sep]) == rest[0];
        } else {
          assert parts[1..] == rest[1..];
          assert Join(rest, [sep]) == rest[0] + [sep] + Join(rest[1..], [sep]);
        }
      }
    }
  }

  /** `.length` of a JavaScript string: UTF-16 code units, two for each character outside the BMP. */
  function JsLength(s: string): (n: nat)
    ensures |s| <= n <= 2 * |s|
    decreases |s|
  {
    if |s| == 0 then 0 else (if s[0] as int > 0xFFFF then 2 else 1) + JsLength(s[1..])
  }
}

=== FILE: json.dfy ===
/** JSON request bodies, JavaScript truthiness, and the casting of body values onto typed schema fields. */
module Json {

  import opened Wrappers

  /** A JSON value as parsed by the body parser; numbers are modelled as integers. */
  datatype Json = JNull | JBool(b: bool) | JNum(n: int) | JStr(s: string) | JArr(items: seq<Json>)

  /** A request body: a JSON object, one value per key. */
  type Body = map<string, Json>

  /** JavaScript truthiness of a body value. */
  predicate Truthy(v: Json) {
    match v
    case JNull => false
    case JBool(b) => b
    case JNum(n) => n != 0
    case JStr(s) => s != ""
    case JArr(_) => true
  }

  /** The `Object.keys(body).forEach(k => if (allowed.includes(k)) ...)` filter: the body restricted to `allowed`. */
  function Pick(body: Body, allowed: set<string>): (r: Body)
    ensures r.Keys == body.Keys * allowed
    ensures forall k <- r.Keys :: r[k] == body[k]
  {
    map k | k in body.Keys && k in allowed :: body[k]
  }

  /** Filtering twice with the same allow-list changes nothing more. */
  lemma PickIdempotent(body: Body, allowed: set<string>)
    ensures Pick(Pick(body, allowed), allowed) == Pick(body, allowed)
  {
  }

  /** What assigning one body value to a schema field does: nothing (key absent), set a value, or fail the save. */
  datatype Cast<+T> = Absent | Set(value: T) | Bad {

    /** The field's value after the assignment, given its value before. */
    function Or(current: T): T {
      if Set? then value else current
    }
  }

  /** Casts `body[key]` with `cast`, which answers None for a value the field cannot hold. */
  function Field<T>(body: Body, key: string, cast: Json -> Option<T>): (c: Cast<T>)
    ensures key !in body ==> c.Absent?
    ensures key in body ==> (c.Bad? <==> cast(body[key]).None?)
    ensures c.Set? ==> key in body && cast(body[key]) == Some(c.value)
  {
    if key !in body then Absent
    else match cast(body[key])
      case Some(v) => Set(v)
      case None => Bad
  }

  /** `after` is the cast of `body[key]` when the body names `key`, and `before` otherwise. */
  predicate Assigned<T(==)>(body: Body, key: string, cast: Json -> Option<T>, after: T, before: T) {
    if key in body then cast(body[key]) == Some(after) else after == before
  }

  /** A cast that does not fail assigns its value, and an absent key keeps the old one. */
  lemma FieldAssigns<T>(body: Body, key: string, cast: Json -> Option<T>, before: T)
    requires !Field(body, key, cast).Bad?
    ensures Assigned(body, key, cast, Field(body, key, cast).Or(before), before)
  {
  }

  /** A string field; any string is accepted. */
  function AsString(v: Json): Option<string> {
    if v.JStr? then Some(v.s) else None
  }

  /** A required string field: the empty string fails Mongoose's `required` validator. */
  function AsRequiredString(v: Json): Option<string> {
    if v.JStr? && v.s != "" then Some(v.s) else None
  }

  /** An optional string field: `null` clears it. */
  function AsText(v: Json): Option<Option<string>> {
    match v
    case JStr(s) => Some(Some(s))
    case JNull => Some(None)
    case _ => None
  }

  /** A number field. */
  function AsInt(v: Json): Option<int> {
    if v.JNum? then Some(v.n) else None
  }

  /** A boolean field. */
  function AsBool(v: Json): Option<bool> {
    if v.JBool? then Some(v.b) else None
  }

  /** An optional boolean field: `null` clears it. */
  function AsNullableBool(v: Json): Option<Option<bool>> {
    match v
    case JBool(b) => Some(Some(b))
    case JNull => Some(None)
    case _ => None
  }

  /** An optional number (or date) field: `null` clears it. */
  function AsNullableInt(v: Json): Option<Option<int>> {
    match v
    case JNum(n) => Some(Some(n))
    case JNull => Some(None)
    case _ => None
  }

  /** An array-of-strings field. */
  function AsStrings(v: Json): Option<seq<string>> {
    if v.JArr? && forall i :: 0 <= i < |v.items| ==> v.items[i].JStr? then
      Some(seq(|v.items|, i requires 0 <= i < |v.items| && v.items[i].JStr? => v.items[i].s))
    else None
  }
}

=== FILE: record_controller.dfy ===
/**
 * app/controllers/record.controller.js: bookings in the `Record` collection, for a caller whose id
 * `verifyToken` has established. An error passed to `next` is answered with 500.
 */
module RecordController {

  import opened Wrappers
  import opened Json
  import opened Domain
  import opened AppointmentRules
  import Seqs
  import Sorting
  import RecordModel

  /** The fields of a POST /api/records body. */
  datatype RecordRequest = RecordRequest(
    doctorId: Id,
    date: int,
    reason: Option<string>,
    symptoms: Option<seq<string>>,
    duration: Option<int>,
    price: Option<int>)

  /** `x || default` on a number: undefined and 0 both take the default. */
  function OrDefault(x: Option<int>, default: int): (r: Option<int>)
    ensures r.Some?
    ensures x.Some? && x.value != 0 ==> r == x
    ensures x.None? || x.value == 0 ==> r == Some(default)
  {
    if x.Some? && x.value != 0 then x else Some(default)
  }

  /** `User.findOne({_id: doctorId, role: 'doctor'})` finds someone. */
  predicate IsDoctorId(users: seq<User>, doctorId: Id) {
    exists k :: 0 <= k < |users| && users[k].id == doctorId && users[k].role == Doctor
  }

  /**
   * `createRecord`: 404 unless `doctorId` names a user with role doctor; then a scheduled record of
   * the caller is saved, with `duration || 30` and `price || 0`. There is no slot check.
   */
  function CreateRecord(db: Db, caller: Id, req: RecordRequest, newId: Id, now: int): (r: Response<Db>)
    ensures !IsDoctorId(db.users, req.doctorId) <==> r == Fail(NotFound, "Doctor not found")
    ensures r.Ok? <==> (IsDoctorId(db.users, req.doctorId) && RecordModel.Create(Draft(caller, req), newId, now).Some?)
    ensures r.Ok? ==> r.value.(records := db.records) == db
    ensures r.Ok? ==> |r.value.records| == |db.records| + 1 && r.value.records[..|db.records|] == db.records
    ensures r.Ok? ==> var rec := r.value.records[|db.records|];
                      && RecordModel.Valid(rec)
                      && rec.id == newId && rec.patientId == caller && rec.doctorId == req.doctorId
                      && rec.date == req.date && rec.status == Scheduled
                      && rec.duration == OrDefault(req.duration, 30).value
                      && rec.price == OrDefault(req.price, 0).value
                      && rec.symptoms == req.symptoms.GetOr([])
                      && req.reason.Some? && rec.reason == req.reason.value
    ensures IsDoctorId(db.users, req.doctorId) && RecordModel.Create(Draft(caller, req), newId, now).None?
            ==> r == Fail(ServerError, "Record validation failed")
  {
    match Seqs.FindFirst(db.users, (u: User) => u.id == req.doctorId && u.role == Doctor)
    case None => Fail(NotFound, "Doctor not found")
    case Some(_) =>
      match RecordModel.Create(Draft(caller, req), newId, now)
      case None => Fail(ServerError, "Record validation failed")
      case Some(rec) => Ok(db.(records := db.records + [rec]))
  }

  /** The record the controller constructs from a request. */
  function Draft(caller: Id, req: RecordRequest): RecordModel.Draft {
    RecordModel.Draft(caller, req.doctorId, req.date, req.reason, req.symptoms.GetOr([]),
                      OrDefault(req.duration, 30), OrDefault(req.price, 0), Some(Scheduled))
  }

  /** Whether a creation succeeds depends on the users alone: the existing records are never consulted. */
  lemma CreateRecordIgnoresRecords(db: Db, other: seq<Record>, caller: Id, req: RecordRequest, newId: Id, now: int)
    ensures CreateRecord(db, caller, req, newId, now).Ok? <==> CreateRecord(db.(records := other), caller, req, newId, now).Ok?
  {
  }

  /** At most one scheduled or confirmed record per (doctor, date): what the legacy path enforces. */
  predicate NoDoubleBooking(records: seq<Record>) {
    forall i, j :: 0 <= i < j < |records| && records[i].status != Cancelled && records[j].status != Cancelled
      ==> !(records[i].doctorId == records[j].doctorId && records[i].date == records[j].date)
  }

  /** A booking that succeeds once succeeds again for the same slot, so the controller path can double-book a doctor. */
  lemma CreateRecordCanDoubleBook(db: Db, c1: Id, c2: Id, req: RecordRequest, id1: Id, id2: Id, now1: int, now2: int)
    requires CreateRecord(db, c1, req, id1, now1).Ok?
    ensures var db1 := CreateRecord(db, c1, req, id1, now1).value;
            && CreateRecord(db1, c2, req, id2, now2).Ok?
            && !NoDoubleBooking(CreateRecord(db1, c2, req, id2, now2).value.records)
  {
    var db1 := CreateRecord(db, c1, req, id1, now1).value;
    assert db1.users == db.users;
    assert RecordModel.Create(Draft(c2, req), id2, now2).Some?;
    var db2 := CreateRecord(db1, c2, req, id2, now2).value;
    var n := |db.records|;
    assert db2.records[n] == db1.records[n];
    assert db2.records[n].status == Scheduled && db2.records[n + 1].status == Scheduled;
  }

  /** Which records a user may see: a patient their own, a doctor those booked with them, anyone else all. */
  predicate Visible(user: User, rec: Record) {
    match user.role
    case Patient => rec.patientId == user.id
    case Doctor => rec.doctorId == user.id
    case _ => true
  }

  /** MongoDB's `sort({appointmentDate: -1})`: later dates first. */
  function ByDateDesc(): (Record, Record) -> bool {
    (a: Record, b: Record) => a.date >= b.date
  }

  lemma ByDateDescIsPreorder()
    ensures Sorting.TotalPreorder(ByDateDesc())
  {
  }

  /**
   * `getRecords`: the records visible to the caller, latest first. A missing caller makes the
   * `user.role` read throw (500).
   */
  function GetRecords(db: Db, caller: Id): (r: Response<seq<Record>>)
    ensures UserById(db.users, caller).None? ==> r.Fail? && r.status == ServerError
    ensures UserById(db.users, caller).Some? ==> r.Ok?
    ensures r.Ok? ==> forall x :: x in r.value <==> x in db.records && Visible(UserById(db.users, caller).value, x)
    ensures r.Ok? ==> Sorting.SortedBy(r.value, ByDateDesc())
    ensures r.Ok? ==> multiset(r.value) == multiset(Seqs.Filter(db.records, x => Visible(UserById(db.users, caller).value, x)))
  {
    match UserById(db.users, caller)
    case None => Fail(ServerError, "Cannot read properties of null (reading 'role')")
    case Some(user) =>
      var visible := Seqs.Filter(db.records, x => Visible(user, x));
      ByDateDescIsPreorder();
      Ok(Sorting.Sort(visible, ByDateDesc()))
  }

  /** Admins (and any role other than patient and doctor) see every record. */
  lemma AdminSeesAll(db: Db, caller: Id)
    requires UserById(db.users, caller).Some? && UserById(db.users, caller).value.role !in {Patient, Doctor}
    ensures multiset(GetRecords(db, caller).value) == multiset(db.records)
  {
    var user := UserById(db.users, caller).value;
    Seqs.FilterAll(db.records, x => Visible(user, x));
  }

  /** The index of the record `Record.findById` returns. */
  function FindRecord(records: seq<Record>, id: Id): (r: Option<nat>)
    ensures r.None? <==> forall k :: 0 <= k < |records| ==> records[k].id != id
    ensures r.Some? ==> r.value < |records| && records[r.value].id == id && forall k :: 0 <= k < r.value ==> records[k].id != id
  {
    Seqs.FindFirst(records, (x: Record) => x.id == id)
  }

  /** The populated reference the ownership test reads (the patient's for a patient, the doctor's for a doctor) is not null. */
  predicate RefLive(users: seq<User>, user: User, rec: Record) {
    && (user.role == Patient ==> UserById(users, rec.patientId).Some?)
    && (user.role == Doctor ==> UserById(users, rec.doctorId).Some?)
  }

  /** The ownership test of `getRecordById` for a found record and caller. */
  function CheckAccess(users: seq<User>, user: User, rec: Record): (r: Response<Record>)
    ensures !RefLive(users, user, rec) ==> r == Fail(ServerError, "Cannot read properties of null (reading '_id')")
    ensures RefLive(users, user, rec) && Visible(user, rec) ==> r == Ok(rec)
    ensures RefLive(users, user, rec) && !Visible(user, rec) ==> r == Fail(Forbidden, "Access denied")
  {
    if user.role == Patient then
      if UserById(users, rec.patientId).None? then Fail(ServerError, "Cannot read properties of null (reading '_id')")
      else if rec.patientId != user.id then Fail(Forbidden, "Access denied")
      else Ok(rec)
    else if user.role == Doctor then
      if UserById(users, rec.doctorId).None? then Fail(ServerError, "Cannot read properties of null (reading '_id')")
      else if rec.doctorId != user.id then Fail(Forbidden, "Access denied")
      else Ok(rec)
    else Ok(rec)
  }

  /**
   * `getRecordById`: 404 for a missing record; a missing caller (500); then a patient must be the
   * record's patient and a doctor its doctor (403). The ownership test reads the populated reference,
   * so a dangling reference there is a 500 as well.
   */
  function GetRecordById(db: Db, caller: Id, id: Id): (r: Response<Record>)
    ensures FindRecord(db.records, id).None? ==> r == Fail(NotFound, "Appointment not found")
    ensures FindRecord(db.records, id).Some? && UserById(db.users, caller).None?
            ==> r == Fail(ServerError, "Cannot read properties of null (reading 'role')")
    ensures FindRecord(db.records, id).Some? && UserById(db.users, caller).Some?
            && !RefLive(db.users, UserById(db.users, caller).value, db.records[FindRecord(db.records, id).value])
            ==> r == Fail(ServerError, "Cannot read properties of null (reading '_id')")
    ensures FindRecord(db.records, id).Some? && UserById(db.users, caller).Some?
            && RefLive(db.users, UserById(db.users, caller).value, db.records[FindRecord(db.records, id).value])
            ==> r == if Visible(UserById(db.users, caller).value, db.records[FindRecord(db.records, id).value])
                     then Ok(db.records[FindRecord(db.records, id).value])
                     else Fail(Forbidden, "Access denied")
    ensures r.Ok? ==> r.value in db.records && r.value.id == id
    ensures r.Ok? ==> UserById(db.users, caller).Some? && Visible(UserById(db.users, caller).value, r.value)
  {
    match FindRecord(db.records, id)
    case None => Fail(NotFound, "Appointment not found")
    case Some(i) =>
      var rec := db.records[i];
      match UserById(db.users, caller)
      case None => Fail(ServerError, "Cannot read properties of null (reading 'role')")
      case Some(user) => CheckAccess(db.users, user, rec)
  }

  /** A record fetched by id is one the caller also gets in the list. */
  lemma GetByIdInList(db: Db, caller: Id, id: Id)
    requires GetRecordById(db, caller, id).Ok?
    ensures GetRecords(db, caller).Ok? && GetRecordById(db, caller, id).value in GetRecords(db, caller).value
  {
  }

  /** The `updateRecord` allow-list: date, reason, duration and the parties cannot change here. */
  const UpdateKeys: set<string> := {"status", "diagnosis", "prescription", "notes", "price"}

  /** Some path the patch names cannot hold the value sent, so the update validators fail. */
  predicate Refused(patch: Body) {
    || Field(patch, "status", AsStatus).Bad?
    || Field(patch, "diagnosis", AsText).Bad?
    || Field(patch, "prescription", AsText).Bad?
    || Field(patch, "notes", AsText).Bad?
    || Field(patch, "price", AsInt).Bad?
  }

  /** `$set` of the filtered body with update validators; None is a cast or validation failure. */
  function ApplyPatch(rec: Record, patch: Body): (r: Option<Record>)
    ensures r.None? <==> Refused(patch)
    ensures r.Some? ==> && r.value.id == rec.id && r.value.patientId == rec.patientId && r.value.doctorId == rec.doctorId
                        && r.value.date == rec.date && r.value.reason == rec.reason && r.value.symptoms == rec.symptoms
                        && r.value.duration == rec.duration && r.value.createdAt == rec.createdAt
    ensures r.Some? ==> && ("status" !in patch ==> r.value.status == rec.status)
                        && ("diagnosis" !in patch ==> r.value.diagnosis == rec.diagnosis)
                        && ("prescription" !in patch ==> r.value.prescription == rec.prescription)
                        && ("notes" !in patch ==> r.value.notes == rec.notes)
                        && ("price" !in patch ==> r.value.price == rec.price)
    ensures r.Some? && "status" in patch ==> patch["status"] == JStr(StatusName(r.value.status))
    ensures r.Some? && "diagnosis" in patch ==> AsText(patch["diagnosis"]) == Some(r.value.diagnosis)
    ensures r.Some? && "prescription" in patch ==> AsText(patch["prescription"]) == Some(r.value.prescription)
    ensures r.Some? && "notes" in patch ==> AsText(patch["notes"]) == Some(r.value.notes)
    ensures r.Some? && "price" in patch ==> patch["price"] == JNum(r.value.price)
  {
    var status := Field(patch, "status", AsStatus);
    var diagnosis := Field(patch, "diagnosis", AsText);
    var prescription := Field(patch, "prescription", AsText);
    var notes := Field(patch, "notes", AsText);
    var price := Field(patch, "price", AsInt);
    if Refused(patch) then None
    else Some(rec.(status := status.Or(rec.status), diagnosis := diagnosis.Or(rec.diagnosis),
                   prescription := prescription.Or(rec.prescription), notes := notes.Or(rec.notes),
                   price := price.Or(rec.price)))
  }

  /** `$set` of the same body twice stores what setting it once stores. */
  lemma ApplyPatchIdempotent(rec: Record, patch: Body)
    requires ApplyPatch(rec, patch).Some?
    ensures ApplyPatch(ApplyPatch(rec, patch).value, patch) == ApplyPatch(rec, patch)
  {
  }

  /** The patient rule of `updateRecord`: a patient may only cancel, and only a record of their own. */
  predicate PatientMay(rec: Record, caller: Id, patch: Body) {
    rec.patientId == caller && CancelOnly(patch)
  }

  /** A lone cancellation always passes the update validators and cancels. */
  lemma CancelApplies(rec: Record, patch: Body)
    requires CancelOnly(patch)
    ensures ApplyPatch(rec, patch).Some? && ApplyPatch(rec, patch).value.status == Cancelled
  {
    CancelOnlyExact(patch);
  }

  /**
   * `updateRecord` once the record (at `i`) and the caller are found: the patient rule, then
   * `findByIdAndUpdate` with the validators.
   */
  function UpdateRecordAt(db: Db, i: nat, user: User, caller: Id, patch: Body): (r: Response<Db>)
    requires i < |db.records|
    ensures user.role == Patient && !PatientMay(db.records[i], caller, patch) ==> r == Fail(Forbidden, "Access denied")
    ensures user.role == Patient && PatientMay(db.records[i], caller, patch) ==> r.Ok?
    ensures user.role != Patient ==> (r.Ok? <==> ApplyPatch(db.records[i], patch).Some?)
    ensures ApplyPatch(db.records[i], patch).None? && !(user.role == Patient && !PatientMay(db.records[i], caller, patch))
            ==> r == Fail(ServerError, "Validation failed")
    ensures r.Ok? ==> && ApplyPatch(db.records[i], patch).Some?
                      && r.value == db.(records := db.records[i := ApplyPatch(db.records[i], patch).value])
    ensures r.Ok? && user.role == Patient ==> PatientMay(db.records[i], caller, patch) && r.value.records[i].status == Cancelled
  {
    var rec := db.records[i];
    if user.role == Patient && !PatientMay(rec, caller, patch) then Fail(Forbidden, "Access denied")
    else
      assert user.role == Patient ==> ApplyPatch(rec, patch).Some? && ApplyPatch(rec, patch).value.status == Cancelled by {
        if user.role == Patient { CancelApplies(rec, patch); }
      }
      match ApplyPatch(rec, patch)
      case None => Fail(ServerError, "Validation failed")
      case Some(rec') => Ok(db.(records := db.records[i := rec']))
  }

  /**
   * `updateRecord`: allow-list, then 400 for an invalid truthy status before the 404 lookup; a missing
   * caller is a 500; a patient may only cancel their own record.
   */
  function UpdateRecord(db: Db, caller: Id, id: Id, body: Body): (r: Response<Db>)
    ensures RejectsStatus(Pick(body, UpdateKeys)) ==> r == Fail(BadRequest, "Invalid status")
    ensures !RejectsStatus(Pick(body, UpdateKeys)) && FindRecord(db.records, id).None?
            ==> r == Fail(NotFound, "Appointment not found")
    ensures !RejectsStatus(Pick(body, UpdateKeys)) && FindRecord(db.records, id).Some?
            && UserById(db.users, caller).None?
            ==> r == Fail(ServerError, "Cannot read properties of null (reading 'role')")
    ensures !RejectsStatus(Pick(body, UpdateKeys)) && FindRecord(db.records, id).Some?
            && UserById(db.users, caller).Some?
            ==> r == UpdateRecordAt(db, FindRecord(db.records, id).value, UserById(db.users, caller).value, caller, Pick(body, UpdateKeys))
  {
    var patch := Pick(body, UpdateKeys);
    if RejectsStatus(patch) then Fail(BadRequest, "Invalid status")
    else match FindRecord(db.records, id)
      case None => Fail(NotFound, "Appointment not found")
      case Some(i) =>
        match UserById(db.users, caller)
        case None => Fail(ServerError, "Cannot read properties of null (reading 'role')")
        case Some(user) => UpdateRecordAt(db, i, user, caller, patch)
  }

  /** Repeating a successful update changes nothing more: the second answer is the store the first produced. */
  lemma UpdateRecordIdempotent(db: Db, caller: Id, id: Id, body: Body)
    requires UpdateRecord(db, caller, id, body).Ok?
    ensures var db1 := UpdateRecord(db, caller, id, body).value;
            UpdateRecord(db1, caller, id, body) == Ok(db1)
  {
    var patch := Pick(body, UpdateKeys);
    var i := FindRecord(db.records, id).value;
    var db1 := UpdateRecord(db, caller, id, body).value;
    var rec' := ApplyPatch(db.records[i], patch).value;
    assert db1.records == db.records[i := rec'];
    assert FindRecord(db1.records, id) == Some(i) by {
      assert db1.records[i].id == id;
      assert forall k :: 0 <= k < i ==> db1.records[k] == db.records[k];
    }
    ApplyPatchIdempotent(db.records[i], patch);
    assert db1.records[i := rec'] == db1.records;
  }

  /** Updates keep every stored record valid: the schema-checked fields are outside the allow-list. */
  lemma UpdateKeepsValid(db: Db, caller: Id, id: Id, body: Body)
    requires forall k :: 0 <= k < |db.records| ==> RecordModel.Valid(db.records[k])
    requires UpdateRecord(db, caller, id, body).Ok?
    ensures var after := UpdateRecord(db, caller, id, body).value.records;
            forall k :: 0 <= k < |after| ==> RecordModel.Valid(after[k])
  {
    var r := UpdateRecord(db, caller, id, body);
    var i := FindRecord(db.records, id).value;
    var rec' := ApplyPatch(db.records[i], Pick(body, UpdateKeys)).value;
    ReplaceKeepsValid(db.records, i, Pick(body, UpdateKeys), rec', r.value.records);
  }

  /** Replacing one valid record by a patched copy keeps every record valid. */
  lemma ReplaceKeepsValid(records: seq<Record>, i: nat, patch: Body, rec': Record, after: seq<Record>)
    requires i < |records| && forall k :: 0 <= k < |records| ==> RecordModel.Valid(records[k])
    requires ApplyPatch(records[i], patch) == Some(rec') && after == records[i := rec']
    ensures forall k :: 0 <= k < |after| ==> RecordModel.Valid(after[k])
  {
    assert RecordModel.Valid(records[i]);
  }

  /**
   * `deleteRecord`: 404 for a missing record, 500 for a missing caller, 403 for a patient who does not
   * own it; the owner and any other role may delete it.
   */
  function DeleteRecord(db: Db, caller: Id, id: Id): (r: Response<Db>)
    ensures FindRecord(db.records, id).None? ==> r == Fail(NotFound, "Appointment not found")
    ensures FindRecord(db.records, id).Some? && UserById(db.users, caller).None?
            ==> r == Fail(ServerError, "Cannot read properties of null (reading 'role')")
    ensures FindRecord(db.records, id).Some? && UserById(db.users, caller).Some?
            ==> (r == Fail(Forbidden, "Access denied")
                 <==> UserById(db.users, caller).value.role == Patient
                      && db.records[FindRecord(db.records, id).value].patientId != caller)
    ensures FindRecord(db.records, id).Some? && UserById(db.users, caller).Some?
            && (UserById(db.users, caller).value.role != Patient || db.records[FindRecord(db.records, id).value].patientId == caller)
            ==> r.Ok?
    ensures r.Ok? ==> r.value.(records := db.records) == db
    ensures r.Ok? ==> && FindRecord(db.records, id).Some?
                      && var k := FindRecord(db.records, id).value;
                         r.value.records == db.records[..k] + db.records[k + 1..]
  {
    match FindRecord(db.records, id)
    case None => Fail(NotFound, "Appointment not found")
    case Some(i) =>
      match UserById(db.users, caller)
      case None => Fail(ServerError, "Cannot read properties of null (reading 'role')")
      case Some(user) =>
        if user.role == Patient && db.records[i].patientId != caller then Fail(Forbidden, "Access denied")
        else Ok(db.(records := Seqs.RemoveAt(db.records, i)))
  }

  /** With unique ids, a deletion removes exactly the addressed record: every other record stays. */
  lemma DeleteRemovesOnlyTarget(db: Db, caller: Id, id: Id)
    requires UniqueIds(db.records, (x: Record) => x.id)
    requires DeleteRecord(db, caller, id).Ok?
    ensures var after := DeleteRecord(db, caller, id).value.records;
            && |after| == |db.records| - 1
            && forall x :: x in after <==> x in db.records && x.id != id
  {
    var k := FindRecord(db.records, id).value;
    RemoveAtKeepsOthers(db.records, k, DeleteRecord(db, caller, id).value.records);
  }

  /** Removing the record at `k` leaves every record whose id differs from it, and nothing else. */
  lemma RemoveAtKeepsOthers(records: seq<Record>, k: nat, after: seq<Record>)
    requires k < |records| && after == records[..k] + records[k + 1..]
    requires UniqueIds(records, (x: Record) => x.id)
    ensures |after| == |records| - 1
    ensures forall x :: x in after <==> x in records && x.id != records[k].id
  {
    assert forall j :: 0 <= j < |after| ==> after[j] == records[if j < k then j else j + 1];
    forall x | x in records && x.id != records[k].id
      ensures x in after
    {
      var j :| 0 <= j < |records| && records[j] == x;
      assert j != k;
      assert after[if j < k then j else j - 1] == x;
    }
  }
}

=== FILE: record_model.dfy ===
/** The `Record` schema of app/models/record.model.js: required fields, the enum, bounds and defaults. */
module RecordModel {

  import opened Wrappers
  import opened Domain
  import JsString

  const MinReasonLength := 10
  const MinDuration := 15
  const MaxDuration := 120
  const DefaultDuration := 30
  const DefaultPrice := 0

  predicate DurationInRange(d: int) {
    MinDuration <= d <= MaxDuration
  }

  /** The schema's validators hold of a stored record (`minlength` counts UTF-16 code units). */
  predicate Valid(r: Record) {
    JsString.JsLength(r.reason) >= MinReasonLength && DurationInRange(r.duration)
  }

  /** The values a new `Record(...)` is constructed from; None is an undefined path. */
  datatype Draft = Draft(
    patientId: Id,
    doctorId: Id,
    date: int,
    reason: Option<string>,
    symptoms: seq<string>,
    duration: Option<int>,
    price: Option<int>,
    status: Option<Status>)

  /**
   * `new Record(draft).save()`: defaults fill undefined paths, then the validators run. None is a
   * failed validation.
   */
  function Create(d: Draft, id: Id, now: int): (r: Option<Record>)
    ensures r.Some? <==> d.reason.Some? && JsString.JsLength(d.reason.value) >= MinReasonLength
                         && DurationInRange(d.duration.GetOr(DefaultDuration))
    ensures r.Some? ==> Valid(r.value)
    ensures r.Some? ==> && r.value.id == id && r.value.patientId == d.patientId && r.value.doctorId == d.doctorId
                        && r.value.date == d.date && r.value.reason == d.reason.value && r.value.symptoms == d.symptoms
                        && r.value.diagnosis.None? && r.value.prescription.None? && r.value.notes.None?
                        && r.value.createdAt == now
    ensures r.Some? ==> && r.value.duration == (if d.duration.Some? then d.duration.value else DefaultDuration)
                        && r.value.price == (if d.price.Some? then d.price.value else DefaultPrice)
                        && r.value.status == (if d.status.Some? then d.status.value else Scheduled)
  {
    var duration := d.duration.GetOr(DefaultDuration);
    if d.reason.None? || JsString.JsLength(d.reason.value) < MinReasonLength || !DurationInRange(duration) then None
    else Some(Record(id, d.patientId, d.doctorId, d.date, d.status.GetOr(Scheduled), d.reason.value, d.symptoms,
                     None, None, None, duration, d.price.GetOr(DefaultPrice), now))
  }

  /** Left undefined, duration, price and status take their defaults: 30 minutes, 0, scheduled. */
  lemma CreateDefaults(patientId: Id, doctorId: Id, date: int, reason: string, id: Id, now: int)
    requires |reason| >= MinReasonLength
    ensures var r := Create(Draft(patientId, doctorId, date, Some(reason), [], None, None, None), id, now);
            r.Some? && r.value.duration == 30 && r.value.price == 0 && r.value.status == Scheduled
  {
    assert JsString.JsLength(reason) >= |reason|;
  }

  /** A duration outside [15, 120] is never stored. */
  lemma CreateRejectsDuration(d: Draft, id: Id, now: int)
    requires d.duration.Some? && (d.duration.value < 15 || d.duration.value > 120)
    ensures Create(d, id, now).None?
  {
  }
}

=== FILE: record_routes.dfy ===
/**
 * app/routes/record.routes.js: every record route sits behind `verifyToken`, and creation is
 * preceded by the `recordValidation` rules.
 */
module RecordRoutes {

  import opened Wrappers
  import opened Json
  import opened Domain
  import JsString
  import AuthJwt
  import RecordModel
  import RecordController

  /** The `recordValidation` messages that apply to a request, in rule order. */
  function Validate(req: RecordController.RecordRequest): (errors: seq<string>)
    ensures |errors| <= 3
    ensures req.doctorId == "" <==> "Doctor ID is required" in errors
    ensures (req.reason.None? || |req.reason.value| < 10) <==> "Reason must be at least 10 characters" in errors
    ensures (req.duration.Some? && !(15 <= req.duration.value <= 120)) <==> "Duration must be between 15-120 minutes" in errors
  {
    (if req.doctorId == "" then ["Doctor ID is required"] else [])
    + (if req.reason.None? || |req.reason.value| < 10 then ["Reason must be at least 10 characters"] else [])
    + (if req.duration.Some? && !(15 <= req.duration.value <= 120) then ["Duration must be between 15-120 minutes"] else [])
  }

  /** A request that passes `recordValidation`. */
  predicate Validated(req: RecordController.RecordRequest) {
    |Validate(req)| == 0
  }

  /** The record endpoints, with their path and body parameters. */
  datatype Route =
    | Create(req: RecordController.RecordRequest)
    | List
    | Get(id: Id)
    | Update(id: Id, body: Body)
    | Delete(id: Id)

  /** What a successful request answers: the new database, a list of records or one record. */
  datatype Reply = Changed(db: Db) | Records(records: seq<Record>) | One(record: Record)

  /**
   * A request to /api/records: `verifyToken` first (403 or 401), then for creation the validation
   * rules (400 with the first message), then the controller.
   */
  function Handle(db: Db, xAccess: Option<string>, authorization: Option<string>, verify: AuthJwt.Verifier,
                  route: Route, newId: Id, now: int): (r: Response<Reply>)
    ensures AuthJwt.VerifyToken(xAccess, authorization, verify).Fail? ==>
              r == Fail(AuthJwt.VerifyToken(xAccess, authorization, verify).status, AuthJwt.VerifyToken(xAccess, authorization, verify).message)
    ensures route.Create? && AuthJwt.VerifyToken(xAccess, authorization, verify).Ok? && !Validated(route.req) ==>
              r == Fail(BadRequest, Validate(route.req)[0])
    ensures r.Ok? && route.Create? ==> Validated(route.req)
    ensures r.Ok? && (route.Create? || route.Update? || route.Delete?) ==> r.value.Changed?
  {
    match AuthJwt.VerifyToken(xAccess, authorization, verify)
    case Fail(status, message) => Fail(status, message)
    case Ok(caller) =>
      match route
      case Create(req) =>
        if !Validated(req) then Fail(BadRequest, Validate(req)[0])
        else AsChange(RecordController.CreateRecord(db, caller, req, newId, now))
      case List =>
        var r := RecordController.GetRecords(db, caller);
        if r.Ok? then Ok(Records(r.value)) else Fail(r.status, r.message)
      case Get(id) =>
        var r := RecordController.GetRecordById(db, caller, id);
        if r.Ok? then Ok(One(r.value)) else Fail(r.status, r.message)
      case Update(id, body) => AsChange(RecordController.UpdateRecord(db, caller, id, body))
      case Delete(id) => AsChange(RecordController.DeleteRecord(db, caller, id))
  }

  /** Wraps a handler's new database as a reply. */
  function AsChange(r: Response<Db>): (reply: Response<Reply>)
    ensures reply.Ok? <==> r.Ok?
    ensures reply.Ok? ==> reply.value == Changed(r.value)
    ensures reply.Fail? ==> reply == Fail(r.status, r.message)
  {
    if r.Ok? then Ok(Changed(r.value)) else Fail(r.status, r.message)
  }

  /**
   * A request that passes validation never fails the schema on save: `reason` has at least ten
   * characters (and so at least ten UTF-16 units) and `duration || 30` lies in [15, 120]. Only a
   * missing doctor can stop it.
   */
  lemma ValidatedCreateSaves(db: Db, caller: Id, req: RecordController.RecordRequest, newId: Id, now: int)
    requires Validated(req)
    ensures RecordController.CreateRecord(db, caller, req, newId, now).Ok?
            <==> RecordController.IsDoctorId(db.users, req.doctorId)
  {
    assert "Reason must be at least 10 characters" !in Validate(req);
    assert "Duration must be between 15-120 minutes" !in Validate(req);
    assert JsString.JsLength(req.reason.value) >= 10;
  }
}

=== FILE: role_middleware.dfy ===
/** `checkRole(...roles)` of app/middlewares/roleMiddleware.js. */
module RoleMiddleware {

  import opened Wrappers
  import opened Domain
  import JsString
  import AuthJwt

  /** The role names of `roles`, in order. */
  function Names(roles: seq<Role>): (r: seq<string>)
    ensures |r| == |roles|
    ensures forall i :: 0 <= i < |roles| ==> r[i] == RoleName(roles[i])
  {
    seq(|roles|, i requires 0 <= i < |roles| => RoleName(roles[i]))
  }

  /** The 403 message: the role names joined with ", ". */
  function RejectMessage(roles: seq<Role>): string {
    "Require one of these roles: " + JsString.Join(Names(roles), ", ")
  }

  /** `checkRole`: 404 for a missing user (checked first), then pass iff the user's role is in `roles`. */
  function CheckRole(users: seq<User>, userId: Id, roles: seq<Role>): (r: Response<User>)
    ensures UserById(users, userId).None? <==> r == Fail(NotFound, "User not found")
    ensures r.Ok? <==> UserById(users, userId).Some? && UserById(users, userId).value.role in roles
    ensures r.Ok? ==> r.value in users && r.value.id == userId
    ensures UserById(users, userId).Some? && r.Fail? ==> r == Fail(Forbidden, RejectMessage(roles))
    ensures |roles| == 0 ==> r.Fail?
  {
    match UserById(users, userId)
    case None => Fail(NotFound, "User not found")
    case Some(u) => if u.role in roles then Ok(u) else Fail(Forbidden, RejectMessage(roles))
  }

  /** `checkRole('admin')` and `checkRole('doctor', 'admin')` let through the same users as `isAdmin` and `isDoctor`. */
  lemma CheckRoleAgreesWithGates(users: seq<User>, userId: Id)
    ensures CheckRole(users, userId, [Admin]).Ok? <==> AuthJwt.IsAdmin(users, userId).Ok?
    ensures CheckRole(users, userId, [Doctor, Admin]).Ok? <==> AuthJwt.IsDoctor(users, userId).Ok?
  {
  }

  /** The message for `checkRole('doctor', 'admin')`. */
  lemma RejectMessageExample()
    ensures RejectMessage([Doctor, Admin]) == "Require one of these roles: doctor, admin"
  {
    assert Names([Doctor, Admin]) == ["doctor", "admin"];
    assert JsString.Join(["doctor", "admin"], ", ") == "doctor, admin";
  }
}

=== FILE: seqs.dfy ===
/** Array operations of the source over sequences: `filter`, `find`, `slice`, and removal by index. */
module Seqs {

  import opened Wrappers

  /** `a` is an order-preserving subsequence of `b` (matched greedily from the left). */
  predicate IsSubsequence<T(==,!new)>(a: seq<T>, b: seq<T>)
    decreases |b|
  {
    |a| == 0 || (|b| > 0 && if a[0] == b[0] then IsSubsequence(a[1..], b[1..]) else IsSubsequence(a, b[1..]))
  }

  /** `Array.prototype.filter`: the elements satisfying `p`, in their original order. */
  function Filter<T(==,!new)>(s: seq<T>, p: T -> bool): (r: seq<T>)
    ensures |r| <= |s|
    ensures forall x :: x in r <==> x in s && p(x)
    ensures IsSubsequence(r, s)
    ensures multiset(r) <= multiset(s)
    ensures forall x :: multiset(r)[x] == if p(x) then multiset(s)[x] else 0
    decreases |s|
  {
    if |s| == 0 then []
    else
      var rest := Filter(s[1..], p);
      assert s == [s[0]] + s[1..];
      if p(s[0]) then
        assert ([s[0]] + rest)[1..] == rest;
        [s[0]] + rest
      else
        assert rest == [] || rest[0] != s[0];
        rest
  }

  /** Filtering distributes over concatenation. */
  lemma {:induction false} FilterAppend<T(!new)>(a: seq<T>, b: seq<T>, p: T -> bool)
    ensures Filter(a + b, p) == Filter(a, p) + Filter(b, p)
    decreases |a|
  {
    if |a| == 0 {
      assert a + b == b;
    } else {
      assert (a + b)[1..] == a[1..] + b;
      FilterAppend(a[1..], b, p);
    }
  }

  /** Filtering keeps everything exactly when every element satisfies the predicate. */
  lemma {:induction false} FilterAll<T(!new)>(s: seq<T>, p: T -> bool)
    requires forall i :: 0 <= i < |s| ==> p(s[i])
    ensures Filter(s, p) == s
    decreases |s|
  {
    if |s| > 0 {
      FilterAll(s[1..], p);
    }
  }

  /** Filtering by a conjunction is filtering twice. */
  lemma {:induction false} FilterFilter<T(!new)>(s: seq<T>, p: T -> bool, q: T -> bool)
    ensures Filter(Filter(s, p), q) == Filter(s, x => p(x) && q(x))
    decreases |s|
  {
    if |s| > 0 {
      FilterFilter(s[1..], p, q);
    }
  }

  /** Filtering by two predicates that agree everywhere gives the same result. */
  lemma {:induction false} FilterCongruent<T(!new)>(s: seq<T>, p: T -> bool, q: T -> bool)
    requires forall x :: p(x) == q(x)
    ensures Filter(s, p) == Filter(s, q)
    decreases |s|
  {
    if |s| > 0 {
      FilterCongruent(s[1..], p, q);
    }
  }

  /** The number of elements satisfying `p` (`filter(p).length`). */
  function Count<T(==,!new)>(s: seq<T>, p: T -> bool): (n: nat)
    ensures n <= |s|
    ensures n == 0 <==> forall i :: 0 <= i < |s| ==> !p(s[i])
    ensures n == |s| <==> forall i :: 0 <= i < |s| ==> p(s[i])
  {
    var r := Filter(s, p);
    assert |r| > 0 ==> r[0] in r;
    FilterFull(s, p);
    |r|
  }

  /** Filtering keeps the whole sequence exactly when every element satisfies `p`. */
  lemma {:induction false} FilterFull<T(!new)>(s: seq<T>, p: T -> bool)
    ensures |Filter(s, p)| == |s| <==> forall i :: 0 <= i < |s| ==> p(s[i])
    decreases |s|
  {
    if |s| > 0 {
      FilterFull(s[1..], p);
      if forall i :: 0 <= i < |s| ==> p(s[i]) {
        assert forall i :: 0 <= i < |s[1..]| ==> p(s[1..][i]) by {
          forall i | 0 <= i < |s[1..]| ensures p(s[1..][i]) { assert s[1..][i] == s[i + 1]; }
        }
      }
      if |Filter(s, p)| == |s| {
        forall i | 0 <= i < |s| ensures p(s[i]) {
          if i > 0 { assert s[i] == s[1..][i - 1]; }
        }
      }
    }
  }

  /** Counting distributes over concatenation: every element is counted once. */
  lemma CountAppend<T(!new)>(a: seq<T>, b: seq<T>, p: T -> bool)
    ensures Count(a + b, p) == Count(a, p) + Count(b, p)
  {
    FilterAppend(a, b, p);
  }

  /** `Array.prototype.slice(0, n)`. */
  function Take<T>(s: seq<T>, n: nat): (r: seq<T>)
    ensures |r| == if |s| <= n then |s| else n
    ensures r == s[..|r|]
  {
    if |s| <= n then s else s[..n]
  }

  /** The index of the first element satisfying `p` (what `findOne` returns in natural order). */
  function FindFirst<T>(s: seq<T>, p: T -> bool): (r: Option<nat>)
    ensures r.None? <==> forall i :: 0 <= i < |s| ==> !p(s[i])
    ensures r.Some? ==> r.value < |s| && p(s[r.value]) && forall i :: 0 <= i < r.value ==> !p(s[i])
    decreases |s|
  {
    if |s| == 0 then None
    else if p(s[0]) then Some(0)
    else
      match FindFirst(s[1..], p)
      case None => None
      case Some(k) => Some(k + 1)
  }

  /** Two sequences of the same length whose elements agree on `p` have the same first match. */
  lemma {:induction false} FindFirstCongruent<T>(s: seq<T>, t: seq<T>, p: T -> bool)
    requires |s| == |t| && forall i :: 0 <= i < |s| ==> p(s[i]) == p(t[i])
    ensures FindFirst(s, p) == FindFirst(t, p)
    decreases |s|
  {
    if |s| > 0 && !p(s[0]) {
      FindFirstCongruent(s[1..], t[1..], p);
    }
  }

  /** The sequence without its element at index `i`. */
  function RemoveAt<T>(s: seq<T>, i: nat): (r: seq<T>)
    requires i < |s|
    ensures |r| == |s| - 1
    ensures forall j :: 0 <= j < i ==> r[j] == s[j]
    ensures forall j :: i <= j < |r| ==> r[j] == s[j + 1]
  {
    s[..i] + s[i + 1..]
  }
}

=== FILE: server_appointments.dfy ===
/**
 * server.js's booking endpoints over the `Appointment` collection: POST, PUT and DELETE
 * /api/appointments, for a caller the `auth` middleware has already resolved.
 */
module ServerAppointments {

  import opened Wrappers
  import opened Json
  import opened Domain
  import opened AppointmentRules
  import Seqs

  /** The fields of a POST /api/appointments body. An absent `reason` is the empty string. */
  datatype BookingRequest = BookingRequest(
    doctorId: string,
    date: int,
    reason: string,
    symptoms: Option<string>,
    duration: Option<int>)

  /** A non-cancelled appointment of `doctorId` at exactly `date` already exists. */
  predicate SlotTaken(apps: seq<Appointment>, doctorId: string, date: int) {
    exists i :: 0 <= i < |apps| && apps[i].doctorId == doctorId && apps[i].date == date && apps[i].status != Cancelled
  }

  /** At most one non-cancelled appointment per (doctor, date). */
  predicate NoDoubleBooking(apps: seq<Appointment>) {
    forall i, j :: 0 <= i < j < |apps| && apps[i].status != Cancelled && apps[j].status != Cancelled
      ==> !(apps[i].doctorId == apps[j].doctorId && apps[i].date == apps[j].date)
  }

  /** The `duration || 30` default: an absent or zero duration becomes 30 minutes. */
  function DurationOr30(duration: Option<int>): (d: int)
    ensures duration.Some? && duration.value != 0 ==> d == duration.value
    ensures duration.None? || duration.value == 0 ==> d == 30
  {
    if duration.Some? && duration.value != 0 then duration.value else 30
  }

  /** The index of the legacy doctor `findOne({_id})` returns. */
  function FindLegacyDoctor(doctors: seq<LegacyDoctor>, id: string): (r: Option<nat>)
    ensures r.None? <==> forall k :: 0 <= k < |doctors| ==> doctors[k].id != id
    ensures r.Some? ==> r.value < |doctors| && doctors[r.value].id == id && forall k :: 0 <= k < r.value ==> doctors[k].id != id
  {
    Seqs.FindFirst(doctors, (d: LegacyDoctor) => d.id == id)
  }

  /**
   * POST /api/appointments: the doctor must exist in the legacy collection (404), must not be marked
   * `is_available: false` (400), and the exact slot must be free (400); then a scheduled appointment
   * of the caller is appended. A missing reason fails the schema's `required` check on save.
   */
  function Book(db: Db, caller: Id, req: BookingRequest, newId: Id, now: int): (r: Response<Db>)
    ensures FindLegacyDoctor(db.doctors, req.doctorId).None? <==> r == Fail(NotFound, "Врач не найден")
    ensures FindLegacyDoctor(db.doctors, req.doctorId).Some?
            && db.doctors[FindLegacyDoctor(db.doctors, req.doctorId).value].isAvailable == Some(false)
            ==> r == Fail(BadRequest, "Врач временно недоступен для записи")
    ensures FindLegacyDoctor(db.doctors, req.doctorId).Some?
            && db.doctors[FindLegacyDoctor(db.doctors, req.doctorId).value].isAvailable != Some(false)
            && SlotTaken(db.appointments, req.doctorId, req.date)
            ==> r == Fail(BadRequest, "Это время уже занято")
    ensures FindLegacyDoctor(db.doctors, req.doctorId).Some?
            && db.doctors[FindLegacyDoctor(db.doctors, req.doctorId).value].isAvailable != Some(false)
            && !SlotTaken(db.appointments, req.doctorId, req.date) && req.reason == ""
            ==> r == Fail(ServerError, "Ошибка сервера при создании записи")
    ensures r.Ok? <==>
      && FindLegacyDoctor(db.doctors, req.doctorId).Some?
      && db.doctors[FindLegacyDoctor(db.doctors, req.doctorId).value].isAvailable != Some(false)
      && !SlotTaken(db.appointments, req.doctorId, req.date)
      && req.reason != ""
    ensures r.Ok? ==> r.value.(appointments := db.appointments) == db
    ensures r.Ok? ==> |r.value.appointments| == |db.appointments| + 1
                      && r.value.appointments[..|db.appointments|] == db.appointments
    ensures r.Ok? ==> var a := r.value.appointments[|db.appointments|];
                      && a.id == newId && a.patientId == caller
                      && a.doctorId == req.doctorId && a.date == req.date && a.reason == req.reason
                      && a.status == Scheduled
                      && a.duration == DurationOr30(req.duration)
                      && a.symptoms == SymptomList(req.symptoms)
                      && a.diagnosis.None? && a.prescription.None? && a.notes.None?
                      && a.createdAt == now
  {
    match FindLegacyDoctor(db.doctors, req.doctorId)
    case None => Fail(NotFound, "Врач не найден")
    case Some(k) =>
      if db.doctors[k].isAvailable == Some(false) then Fail(BadRequest, "Врач временно недоступен для записи")
      else if SlotTaken(db.appointments, req.doctorId, req.date) then Fail(BadRequest, "Это время уже занято")
      else if req.reason == "" then Fail(ServerError, "Ошибка сервера при создании записи")
      else
        var a := Appointment(newId, req.doctorId, caller, req.date, req.reason, SymptomList(req.symptoms),
                             None, None, None, DurationOr30(req.duration), Scheduled, now);
        Ok(db.(appointments := db.appointments + [a]))
  }

  /** A successful booking keeps the one-booking-per-slot invariant. */
  lemma BookKeepsNoDoubleBooking(db: Db, caller: Id, req: BookingRequest, newId: Id, now: int)
    requires NoDoubleBooking(db.appointments)
    requires Book(db, caller, req, newId, now).Ok?
    ensures NoDoubleBooking(Book(db, caller, req, newId, now).value.appointments)
  {
    var apps := Book(db, caller, req, newId, now).value.appointments;
    var n := |db.appointments|;
    assert forall k :: 0 <= k < n ==> apps[k] == db.appointments[k];
    assert forall k :: 0 <= k < n && db.appointments[k].status != Cancelled
             ==> !(db.appointments[k].doctorId == req.doctorId && db.appointments[k].date == req.date);
  }

  /** One booking request as it reaches the handler. */
  datatype Booking = Booking(caller: Id, req: BookingRequest, newId: Id, now: int)

  /** The database after handling `bookings` one after another; a rejected booking changes nothing. */
  function Replay(db: Db, bookings: seq<Booking>): Db
    decreases |bookings|
  {
    if |bookings| == 0 then db
    else
      var b := bookings[0];
      match Book(db, b.caller, b.req, b.newId, b.now)
      case Ok(next) => Replay(next, bookings[1..])
      case Fail(_, _) => Replay(db, bookings[1..])
  }

  /** Any sequence of bookings alone preserves at most one active appointment per (doctor, date). */
  lemma {:induction false} ReplayKeepsNoDoubleBooking(db: Db, bookings: seq<Booking>)
    requires NoDoubleBooking(db.appointments)
    ensures NoDoubleBooking(Replay(db, bookings).appointments)
    decreases |bookings|
  {
    if |bookings| > 0 {
      var b := bookings[0];
      var r := Book(db, b.caller, b.req, b.newId, b.now);
      if r.Ok? {
        BookKeepsNoDoubleBooking(db, b.caller, b.req, b.newId, b.now);
        ReplayKeepsNoDoubleBooking(r.value, bookings[1..]);
      } else {
        ReplayKeepsNoDoubleBooking(db, bookings[1..]);
      }
    }
  }

  /** The PUT allow-list of server.js. */
  const UpdateKeys: set<string> :=
    {"status", "diagnosis", "prescription", "notes", "price", "appointmentDate", "reason", "symptoms", "duration"}

  /** `b` differs from `a` only in fields named in `keys`; identity, parties and creation time never change. */
  predicate SameOutside(a: Appointment, b: Appointment, keys: set<string>) {
    && a.id == b.id && a.doctorId == b.doctorId && a.patientId == b.patientId && a.createdAt == b.createdAt
    && ("status" !in keys ==> a.status == b.status)
    && ("diagnosis" !in keys ==> a.diagnosis == b.diagnosis)
    && ("prescription" !in keys ==> a.prescription == b.prescription)
    && ("notes" !in keys ==> a.notes == b.notes)
    && ("appointmentDate" !in keys ==> a.date == b.date)
    && ("reason" !in keys ==> a.reason == b.reason)
    && ("symptoms" !in keys ==> a.symptoms == b.symptoms)
    && ("duration" !in keys ==> a.duration == b.duration)
  }

  /** Each field `patch` names holds the value sent, as its path casts it. */
  predicate Sent(a: Appointment, patch: Body) {
    && ("status" in patch ==> patch["status"] == JStr(StatusName(a.status)))
    && ("diagnosis" in patch ==> AsText(patch["diagnosis"]) == Some(a.diagnosis))
    && ("prescription" in patch ==> AsText(patch["prescription"]) == Some(a.prescription))
    && ("notes" in patch ==> AsText(patch["notes"]) == Some(a.notes))
    && ("appointmentDate" in patch ==> patch["appointmentDate"] == JNum(a.date))
    && ("reason" in patch ==> patch["reason"] == JStr(a.reason) && a.reason != "")
    && ("symptoms" in patch ==> AsStrings(patch["symptoms"]) == Some(a.symptoms))
    && ("duration" in patch ==> patch["duration"] == JNum(a.duration))
  }

  /** Some path the patch names cannot hold the value sent, so the save fails. */
  predicate Refused(patch: Body) {
    || Field(patch, "status", AsStatus).Bad?
    || Field(patch, "diagnosis", AsText).Bad?
    || Field(patch, "prescription", AsText).Bad?
    || Field(patch, "notes", AsText).Bad?
    || Field(patch, "appointmentDate", AsInt).Bad?
    || Field(patch, "reason", AsRequiredString).Bad?
    || Field(patch, "symptoms", AsStrings).Bad?
    || Field(patch, "duration", AsInt).Bad?
  }

  /**
   * `record[k] = filteredUpdates[k]` for every key, then `save()`. The schema has no `price`
   * path, so a price is silently dropped; a value the field cannot hold fails the save (None).
   */
  function ApplyPatch(a: Appointment, patch: Body): (r: Option<Appointment>)
    ensures r.Some? ==> SameOutside(a, r.value, patch.Keys)
    ensures r.Some? ==> Sent(r.value, patch)
    ensures r.None? <==> Refused(patch)
  {
    var status := Field(patch, "status", AsStatus);
    var diagnosis := Field(patch, "diagnosis", AsText);
    var prescription := Field(patch, "prescription", AsText);
    var notes := Field(patch, "notes", AsText);
    var date := Field(patch, "appointmentDate", AsInt);
    var reason := Field(patch, "reason", AsRequiredString);
    var symptoms := Field(patch, "symptoms", AsStrings);
    var duration := Field(patch, "duration", AsInt);
    if Refused(patch) then None
    else
      Some(a.(status := status.Or(a.status), diagnosis := diagnosis.Or(a.diagnosis),
              prescription := prescription.Or(a.prescription), notes := notes.Or(a.notes),
              date := date.Or(a.date), reason := reason.Or(a.reason), symptoms := symptoms.Or(a.symptoms),
              duration := duration.Or(a.duration)))
  }

  /**
   * Assigning the same body twice stores what assigning it once stores; a body that names no
   * allow-listed path leaves the appointment as it was.
   */
  lemma ApplyPatchIdempotent(a: Appointment, patch: Body)
    requires ApplyPatch(a, patch).Some?
    ensures ApplyPatch(ApplyPatch(a, patch).value, patch) == ApplyPatch(a, patch)
    ensures patch.Keys !! UpdateKeys ==> ApplyPatch(a, patch) == Some(a)
  {
  }

  /** The index of the appointment `findById` returns. */
  function FindAppointment(apps: seq<Appointment>, id: Id): (r: Option<nat>)
    ensures r.None? <==> forall k :: 0 <= k < |apps| ==> apps[k].id != id
    ensures r.Some? ==> r.value < |apps| && apps[r.value].id == id && forall k :: 0 <= k < r.value ==> apps[k].id != id
  {
    Seqs.FindFirst(apps, (a: Appointment) => a.id == id)
  }

  /** The patient rule of the PUT route: a patient may only cancel, and only an appointment of their own. */
  predicate PatientMay(a: Appointment, caller: Id, patch: Body) {
    a.patientId == caller && CancelOnly(patch)
  }

  /** A lone cancellation always fits the schema. */
  lemma CancelApplies(a: Appointment, patch: Body)
    requires CancelOnly(patch)
    ensures ApplyPatch(a, patch).Some? && ApplyPatch(a, patch).value.status == Cancelled
  {
    CancelOnlyExact(patch);
  }

  /**
   * The PUT route once the appointment (at `i`) and the caller are found: the patient rule, then
   * the assignments and the save.
   */
  function UpdateAt(db: Db, i: nat, user: User, caller: Id, patch: Body): (r: Response<Db>)
    requires i < |db.appointments|
    ensures user.role == Patient && !PatientMay(db.appointments[i], caller, patch) ==> r == Fail(Forbidden, "Access denied")
    ensures user.role == Patient && PatientMay(db.appointments[i], caller, patch) ==> r.Ok?
    ensures user.role != Patient ==> (r.Ok? <==> ApplyPatch(db.appointments[i], patch).Some?)
    ensures ApplyPatch(db.appointments[i], patch).None? && !(user.role == Patient && !PatientMay(db.appointments[i], caller, patch))
            ==> r == Fail(ServerError, "Server error")
    ensures r.Ok? ==> && ApplyPatch(db.appointments[i], patch).Some?
                      && r.value == db.(appointments := db.appointments[i := ApplyPatch(db.appointments[i], patch).value])
    ensures r.Ok? && user.role == Patient ==> PatientMay(db.appointments[i], caller, patch) && r.value.appointments[i].status == Cancelled
  {
    var a := db.appointments[i];
    if user.role == Patient && !PatientMay(a, caller, patch) then Fail(Forbidden, "Access denied")
    else
      assert user.role == Patient ==> ApplyPatch(a, patch).Some? && ApplyPatch(a, patch).value.status == Cancelled by {
        if user.role == Patient { CancelApplies(a, patch); }
      }
      match ApplyPatch(a, patch)
      case None => Fail(ServerError, "Server error")
      case Some(a') => Ok(db.(appointments := db.appointments[i := a']))
  }

  /**
   * PUT /api/appointments/:id. The body is filtered through the allow-list; an invalid truthy status
   * is 400 before any lookup; then 404 for a missing appointment and 401 for a missing caller. A patient
   * may only cancel an appointment of their own (403); other roles face no ownership check. A value
   * the schema cannot hold fails the save (500).
   */
  function Update(db: Db, caller: Id, id: Id, body: Body): (r: Response<Db>)
    ensures RejectsStatus(Pick(body, UpdateKeys)) ==> r == Fail(BadRequest, "Invalid status")
    ensures !RejectsStatus(Pick(body, UpdateKeys)) && FindAppointment(db.appointments, id).None?
            ==> r == Fail(NotFound, "Appointment not found")
    ensures !RejectsStatus(Pick(body, UpdateKeys)) && FindAppointment(db.appointments, id).Some?
            && UserById(db.users, caller).None?
            ==> r == Fail(Unauthorized, "User not found")
    ensures !RejectsStatus(Pick(body, UpdateKeys)) && FindAppointment(db.appointments, id).Some?
            && UserById(db.users, caller).Some?
            ==> r == UpdateAt(db, FindAppointment(db.appointments, id).value, UserById(db.users, caller).value, caller, Pick(body, UpdateKeys))
  {
    var patch := Pick(body, UpdateKeys);
    if RejectsStatus(patch) then Fail(BadRequest, "Invalid status")
    else match FindAppointment(db.appointments, id)
      case None => Fail(NotFound, "Appointment not found")
      case Some(i) =>
        match UserById(db.users, caller)
        case None => Fail(Unauthorized, "User not found")
        case Some(user) => UpdateAt(db, i, user, caller, patch)
  }

  /** Only documents with id `id` differ between `before` and `after`, which have the same length. */
  predicate OnlyChanged(before: seq<Appointment>, after: seq<Appointment>, id: Id) {
    |after| == |before| && forall k :: 0 <= k < |before| && after[k] != before[k] ==> before[k].id == id
  }

  /** A successful PUT touches only the addressed appointment and no other collection. */
  lemma UpdateTouchesOnlyTarget(db: Db, caller: Id, id: Id, body: Body)
    requires Update(db, caller, id, body).Ok?
    ensures Update(db, caller, id, body).value.(appointments := db.appointments) == db
    ensures OnlyChanged(db.appointments, Update(db, caller, id, body).value.appointments, id)
  {
    var r := Update(db, caller, id, body);
    var i := FindAppointment(db.appointments, id).value;
    var a' := ApplyPatch(db.appointments[i], Pick(body, UpdateKeys)).value;
    ReplaceOnlyChanges(db.appointments, i, a', id, r.value.appointments);
  }

  /** Replacing the element at an index holding `id` changes only documents with that id. */
  lemma ReplaceOnlyChanges(before: seq<Appointment>, i: nat, a': Appointment, id: Id, after: seq<Appointment>)
    requires i < |before| && before[i].id == id && after == before[i := a']
    ensures OnlyChanged(before, after, id)
  {
  }

  /** A doctor or admin updating an existing appointment with castable values always succeeds. */
  lemma StaffUpdateSucceeds(db: Db, caller: Id, id: Id, body: Body)
    requires UserById(db.users, caller).Some? && UserById(db.users, caller).value.role != Patient
    requires exists k :: 0 <= k < |db.appointments| && db.appointments[k].id == id
    requires !RejectsStatus(Pick(body, UpdateKeys)) && !Refused(Pick(body, UpdateKeys))
    ensures Update(db, caller, id, body).Ok?
    ensures var k := FindAppointment(db.appointments, id).value;
            Update(db, caller, id, body).value.appointments[k] == ApplyPatch(db.appointments[k], Pick(body, UpdateKeys)).value
  {
    var k :| 0 <= k < |db.appointments| && db.appointments[k].id == id;
    assert FindAppointment(db.appointments, id).Some?;
  }

  /**
   * PUT does not re-check the slot: a doctor re-scheduling a cancelled appointment into a slot
   * that is held again produces two active appointments for one (doctor, date).
   */
  lemma UpdateCanDoubleBook(db: Db, caller: Id, i: nat, j: nat)
    requires i < |db.appointments| && j < |db.appointments| && i != j
    requires NoDoubleBooking(db.appointments) && UniqueIds(db.appointments, (a: Appointment) => a.id)
    requires UserById(db.users, caller).Some? && UserById(db.users, caller).value.role != Patient
    requires db.appointments[i].status == Cancelled && db.appointments[j].status != Cancelled
    requires db.appointments[i].doctorId == db.appointments[j].doctorId && db.appointments[i].date == db.appointments[j].date
    ensures var r := Update(db, caller, db.appointments[i].id, map["status" := JStr("scheduled")]);
            r.Ok? && !NoDoubleBooking(r.value.appointments)
  {
    var apps := db.appointments;
    var found := FindAppointment(apps, apps[i].id);
    assert found == Some(i) by {
      assert found.Some?;
      assert found.value < |apps| && apps[found.value].id == apps[i].id;
    }
    StaffStatusUpdate(db, caller, i, Scheduled);
    var after := apps[i := apps[i].(status := Scheduled)];
    assert map["status" := JStr("scheduled")] == map["status" := JStr(StatusName(Scheduled))];
    assert after[i].status != Cancelled && after[j] == apps[j];
    if i < j {
      assert !NoDoubleBooking(after) by { assert after[i].doctorId == after[j].doctorId && after[i].date == after[j].date; }
    } else {
      assert !NoDoubleBooking(after) by { assert after[j].doctorId == after[i].doctorId && after[j].date == after[i].date; }
    }
  }

  /** A body holding only a valid status passes the filter and the status check and sets that status. */
  lemma StatusOnlyBody(a: Appointment, st: Status)
    ensures var body := map["status" := JStr(StatusName(st))];
            && Pick(body, UpdateKeys) == body && !RejectsStatus(body)
            && ApplyPatch(a, body) == Some(a.(status := st))
  {
    var body := map["status" := JStr(StatusName(st))];
    assert Pick(body, UpdateKeys) == body;
    StatusRoundTrip(st);
  }

  /** Staff setting a valid status on the appointment a lookup finds always succeeds with just that change. */
  lemma StaffStatusUpdate(db: Db, caller: Id, i: nat, st: Status)
    requires i < |db.appointments|
    requires FindAppointment(db.appointments, db.appointments[i].id) == Some(i)
    requires UserById(db.users, caller).Some? && UserById(db.users, caller).value.role != Patient
    ensures Update(db, caller, db.appointments[i].id, map["status" := JStr(StatusName(st))])
            == Ok(db.(appointments := db.appointments[i := db.appointments[i].(status := st)]))
  {
    StatusOnlyBody(db.appointments[i], st);
  }

  /**
   * DELETE /api/appointments/:id: 404 for a missing appointment, 401 for a missing caller, 403 for a
   * patient who does not own it; the owner and any other role delete it.
   */
  function Delete(db: Db, caller: Id, id: Id): (r: Response<Db>)
    ensures FindAppointment(db.appointments, id).None? ==> r == Fail(NotFound, "Appointment not found")
    ensures FindAppointment(db.appointments, id).Some? && UserById(db.users, caller).None? ==> r == Fail(Unauthorized, "User not found")
    ensures FindAppointment(db.appointments, id).Some? && UserById(db.users, caller).Some?
            ==> (r == Fail(Forbidden, "Access denied")
                 <==> UserById(db.users, caller).value.role == Patient
                      && db.appointments[FindAppointment(db.appointments, id).value].patientId != caller)
    ensures FindAppointment(db.appointments, id).Some? && UserById(db.users, caller).Some?
            && (UserById(db.users, caller).value.role != Patient
                || db.appointments[FindAppointment(db.appointments, id).value].patientId == caller)
            ==> r.Ok?
    ensures r.Ok? ==> r.value.(appointments := db.appointments) == db
    ensures r.Ok? ==> && FindAppointment(db.appointments, id).Some?
                      && var k := FindAppointment(db.appointments, id).value;
                         r.value.appointments == db.appointments[..k] + db.appointments[k + 1..]
  {
    match FindAppointment(db.appointments, id)
    case None => Fail(NotFound, "Appointment not found")
    case Some(i) =>
      match UserById(db.users, caller)
      case None => Fail(Unauthorized, "User not found")
      case Some(user) =>
        if user.role == Patient && db.appointments[i].patientId != caller then Fail(Forbidden, "Access denied")
        else Ok(db.(appointments := Seqs.RemoveAt(db.appointments, i)))
  }

  /**
   * A deletion keeps at most one live appointment per slot, and with unique ids it removes exactly
   * the addressed appointment: everything else stays.
   */
  lemma DeleteKeepsNoDoubleBooking(db: Db, caller: Id, id: Id)
    requires NoDoubleBooking(db.appointments) && UniqueIds(db.appointments, (a: Appointment) => a.id)
    requires Delete(db, caller, id).Ok?
    ensures var after := Delete(db, caller, id).value.appointments;
            && NoDoubleBooking(after)
            && forall a :: a in after <==> a in db.appointments && a.id != id
  {
    var apps := db.appointments;
    var k := FindAppointment(apps, id).value;
    var after := Delete(db, caller, id).value.appointments;
    RemoveAtFacts(apps, k, after);
  }

  /** Removing the element at `k` from a collection keeps the invariant and, under unique ids, drops exactly its id. */
  lemma RemoveAtFacts(apps: seq<Appointment>, k: nat, after: seq<Appointment>)
    requires k < |apps| && after == apps[..k] + apps[k + 1..]
    requires NoDoubleBooking(apps) && UniqueIds(apps, (a: Appointment) => a.id)
    ensures NoDoubleBooking(after)
    ensures forall a :: a in after <==> a in apps && a.id != apps[k].id
  {
    assert forall j :: 0 <= j < |after| ==> after[j] == apps[if j < k then j else j + 1];
    forall a | a in apps && a.id != apps[k].id
      ensures a in after
    {
      var j :| 0 <= j < |apps| && apps[j] == a;
      assert j != k;
      assert after[if j < k then j else j - 1] == a;
    }
  }
}

=== FILE: server_auth.dfy ===
/**
 * server.js's authentication: the `auth` and `authorize` middlewares and the decision logic of
 * POST /api/auth/register and POST /api/auth/login. Token verification and password hashing are
 * library calls and appear as parameters.
 */
module ServerAuth {

  import opened Wrappers
  import opened Domain
  import JsString
  import Seqs

  /** `jwt.verify` followed by reading `decoded.userId`: None for a token that does not verify. */
  type Verifier = string -> Option<Id>

  /** The caller recorded on `req.user`. */
  datatype Principal = Principal(userId: Id, role: Role)

  /** `req.header('Authorization')?.replace('Bearer ', '')`: the first "Bearer " anywhere is removed. */
  function HeaderToken(authorization: Option<string>): (t: Option<string>)
    ensures authorization.None? <==> t.None?
    ensures forall rest :: authorization == Some("Bearer " + rest) ==> t == Some(rest)
  {
    match authorization
    case None => None
    case Some(h) =>
      assert forall rest :: h == "Bearer " + rest ==> JsString.RemoveFirst(h, "Bearer ") == rest by {
        forall rest | h == "Bearer " + rest
          ensures JsString.RemoveFirst(h, "Bearer ") == rest
        {
          JsString.RemoveFirstPrefix("Bearer ", rest);
        }
      }
      Some(JsString.RemoveFirst(h, "Bearer "))
  }

  /** A token that verifies to the id of an existing user. */
  predicate Accepts(users: seq<User>, token: string, verify: Verifier) {
    token != "" && verify(token).Some? && UserById(users, verify(token).value).Some?
  }

  /**
   * The `auth` middleware: 401 when the header is missing or empty after stripping, when the
   * token does not verify, and when its user no longer exists; otherwise the caller's id and role.
   */
  function Auth(users: seq<User>, authorization: Option<string>, verify: Verifier): (r: Response<Principal>)
    ensures r.Fail? ==> r.status == Unauthorized
    ensures r.Ok? <==> HeaderToken(authorization).Some? && Accepts(users, HeaderToken(authorization).value, verify)
    ensures r.Ok? ==> exists k :: 0 <= k < |users| && users[k].id == r.value.userId && users[k].role == r.value.role
                        && verify(HeaderToken(authorization).value) == Some(r.value.userId)
  {
    match HeaderToken(authorization)
    case None => Fail(Unauthorized, "Требуется авторизация")
    case Some(token) =>
      if token == "" then Fail(Unauthorized, "Требуется авторизация")
      else match verify(token)
        case None => Fail(Unauthorized, "Неверный токен")
        case Some(uid) =>
          match UserById(users, uid)
          case None => Fail(Unauthorized, "Пользователь не найден")
          case Some(u) => Ok(Principal(u.id, u.role))
  }

  /** A bearer header and the bare token it carries are treated alike. */
  lemma AuthBearerPrefix(users: seq<User>, token: string, verify: Verifier)
    requires !JsString.Includes(token, "Bearer ")
    ensures Auth(users, Some("Bearer " + token), verify) == Auth(users, Some(token), verify)
  {
    JsString.IncludesSpec(token, "Bearer ");
  }

  /**
   * The `authorize(...allowedRoles)` middleware: the same token and user checks as `auth`, then
   * 403 unless the user's role is one of `allowed`. An empty token is refused before `verify` is
   * consulted, so what `verify` answers for "" never matters.
   */
  function Authorize(users: seq<User>, authorization: Option<string>, verify: Verifier, allowed: seq<Role>): (r: Response<Principal>)
    ensures r.Ok? ==> r.value.role in allowed
    ensures r.Fail? ==> r.status in {Unauthorized, Forbidden}
    ensures |allowed| == 0 ==> r.Fail?
  {
    var token := if authorization.Some? then JsString.RemoveFirst(authorization.value, "Bearer ") else "";
    if token == "" then Fail(Unauthorized, "Требуется авторизация")
    else match verify(token)
      case None => Fail(Unauthorized, "Неверный токен")
      case Some(uid) =>
        match Seqs.FindFirst(users, (u: User) => u.id == uid)
        case None => Fail(Unauthorized, "Пользователь не найден")
        case Some(k) =>
          if users[k].role !in allowed then Fail(Forbidden, "У вас нет прав для выполнения этого действия")
          else Ok(Principal(users[k].id, users[k].role))
  }

  /** `authorize(...roles)` is `auth` followed by a role test: same answers, plus 403 for other roles. */
  lemma AuthorizeIsAuthThenRole(users: seq<User>, authorization: Option<string>, verify: Verifier, allowed: seq<Role>)
    ensures var a := Auth(users, authorization, verify);
            Authorize(users, authorization, verify, allowed) ==
              if a.Fail? then a
              else if a.value.role in allowed then a
              else Fail(Forbidden, "У вас нет прав для выполнения этого действия")
  {
  }

  // ---------------------------------------------------------------- register

  /** The fields of a POST /api/auth/register body; an absent field is None. */
  datatype LegacyRegistration = LegacyRegistration(
    username: Option<string>,
    email: Option<string>,
    password: Option<string>,
    fullName: Option<string>,
    phone: Option<string>,
    birthYear: Option<int>)

  /** `if (email) email = email.toLowerCase().trim()`. */
  function NormEmail(email: Option<string>): (r: Option<string>)
    ensures email.None? <==> r.None?
    ensures Present(email) ==> r == Some(JsString.Trim(JsString.Lower(email.value)))
    ensures !Present(email) ==> r == email
  {
    if Present(email) then Some(JsString.Trim(JsString.Lower(email.value))) else email
  }

  /** `if (username) username = username.trim()`. */
  function NormUsername(username: Option<string>): (r: Option<string>)
    ensures username.None? <==> r.None?
    ensures Present(username) ==> r == Some(JsString.Trim(username.value))
    ensures !Present(username) ==> r == username
  {
    if Present(username) then Some(JsString.Trim(username.value)) else username
  }

  /** A query condition `{field: value}`; an undefined value matches no stored user. */
  predicate Matches(value: Option<string>, stored: string) {
    value == Some(stored)
  }

  /** The `findOne({$or: [{email}, {username}]})` collision. */
  predicate Collides(users: seq<User>, email: Option<string>, username: Option<string>) {
    exists k :: 0 <= k < |users| && (Matches(email, users[k].email) || Matches(username, users[k].username))
  }

  /**
   * POST /api/auth/register in server.js: normalise, 400 on a collision of email or username, then
   * hash (a missing password makes bcrypt throw: 500) and save a patient (an empty required field
   * fails the schema: 500).
   */
  function Register(db: Db, req: LegacyRegistration, hash: string -> string, newId: Id, now: int): (r: Response<Db>)
    ensures Collides(db.users, NormEmail(req.email), NormUsername(req.username))
            ==> r == Fail(BadRequest, "Пользователь с таким email или именем уже существует")
    ensures r.Ok? <==>
              && !Collides(db.users, NormEmail(req.email), NormUsername(req.username))
              && req.password.Some? && Present(NormEmail(req.email)) && Present(NormUsername(req.username))
              && Present(req.fullName)
    ensures r.Ok? ==> r.value.(users := db.users) == db
    ensures r.Ok? ==> |r.value.users| == |db.users| + 1 && r.value.users[..|db.users|] == db.users
    ensures r.Ok? ==> var u := r.value.users[|db.users|];
                      && u.id == newId && u.role == Patient && u.createdAt == now
                      && u.email == JsString.Trim(JsString.Lower(req.email.value))
                      && u.username == JsString.Trim(req.username.value)
                      && u.password == hash(req.password.value)
                      && u.fullName == req.fullName.value && u.phone == req.phone && u.birthYear == req.birthYear
  {
    var email, username := NormEmail(req.email), NormUsername(req.username);
    if Collides(db.users, email, username) then Fail(BadRequest, "Пользователь с таким email или именем уже существует")
    else if req.password.None? then Fail(ServerError, "Ошибка при регистрации")
    else if !Present(email) || !Present(username) || !Present(req.fullName) then Fail(ServerError, "Ошибка при регистрации")
    else
      var u := User(newId, username.value, email.value, hash(req.password.value), req.fullName.value, req.phone,
                    req.birthYear, Patient, None, false, now);
      Ok(db.(users := db.users + [u]))
  }

  /** Registration keeps emails and usernames unique. */
  lemma RegisterKeepsUnique(db: Db, req: LegacyRegistration, hash: string -> string, newId: Id, now: int)
    requires UniqueIds(db.users, (u: User) => u.email) && UniqueIds(db.users, (u: User) => u.username)
    requires Register(db, req, hash, newId, now).Ok?
    ensures var users := Register(db, req, hash, newId, now).value.users;
            UniqueIds(users, (u: User) => u.email) && UniqueIds(users, (u: User) => u.username)
  {
    var users := Register(db, req, hash, newId, now).value.users;
    var n := |db.users|;
    var u := users[n];
    assert users == db.users + [u];
    assert Fresh(db.users, (x: User) => x.email, u.email) by {
      assert forall k :: 0 <= k < n ==> !Matches(NormEmail(req.email), db.users[k].email);
    }
    assert Fresh(db.users, (x: User) => x.username, u.username) by {
      assert forall k :: 0 <= k < n ==> !Matches(NormUsername(req.username), db.users[k].username);
    }
    AppendFreshKeepsUnique(db.users, u, (x: User) => x.email, users);
    AppendFreshKeepsUnique(db.users, u, (x: User) => x.username, users);
  }

  // ---------------------------------------------------------------- login

  /** The fields of a POST /api/auth/login body. `role` is the optional role hint. */
  datatype LegacyLogin = LegacyLogin(
    email: Option<string>,
    username: Option<string>,
    password: Option<string>,
    role: Option<string>)

  /** `u` holds a given identifier: the normalised email or the trimmed username. */
  predicate Identifies(u: User, email: Option<string>, username: Option<string>) {
    || (Present(email) && Matches(NormEmail(email), u.email))
    || (Present(username) && Matches(NormUsername(username), u.username))
  }

  /**
   * The user the login handler looks up: the first one holding either identifier when both are
   * given (`$or`), otherwise the first holding the one given.
   */
  function LoginUser(users: seq<User>, email: Option<string>, username: Option<string>): (r: Option<User>)
    ensures r.Some? <==> exists k :: 0 <= k < |users| && Identifies(users[k], email, username)
    ensures r.Some? ==> exists k :: && 0 <= k < |users| && users[k] == r.value && Identifies(users[k], email, username)
                                    && forall j :: 0 <= j < k ==> !Identifies(users[j], email, username)
    ensures r.Some? ==> (Present(email) && r.value.email == JsString.Trim(JsString.Lower(email.value)))
                        || (Present(username) && r.value.username == JsString.Trim(username.value))
    ensures !Present(email) && !Present(username) ==> r.None?
  {
    match Seqs.FindFirst(users, (u: User) => Identifies(u, email, username))
    case None => None
    case Some(k) => Some(users[k])
  }

  /** `role === 'user' ? 'patient' : role`. */
  function RequestedRole(hint: string): (r: string)
    ensures hint != "user" ==> r == hint
    ensures hint == "user" ==> r == "patient"
  {
    if hint == "user" then "patient" else hint
  }

  /** A role hint admits a stored role: an admin or doctor hint needs that very role; any other hint admits all. */
  predicate HintSatisfied(hint: Option<string>, role: Role) {
    && (Present(hint) && RequestedRole(hint.value) == "admin" ==> role == Admin)
    && (Present(hint) && RequestedRole(hint.value) == "doctor" ==> role == Doctor)
  }

  /**
   * POST /api/auth/login in server.js. `check` is `bcrypt.compare`; a missing password makes it throw
   * (500). A role hint of admin or doctor must match the stored role (403); the doctor branch also
   * asks that the user's email be among the emails of all doctors.
   */
  function Login(users: seq<User>, req: LegacyLogin, check: (string, string) -> bool): (r: Response<User>)
    ensures r.Ok? ==> r.value in users && req.password.Some? && check(req.password.value, r.value.password)
    ensures r.Ok? <==> LoginUser(users, req.email, req.username).Some? && req.password.Some?
                       && check(req.password.value, LoginUser(users, req.email, req.username).value.password)
                       && HintSatisfied(req.role, LoginUser(users, req.email, req.username).value.role)
    ensures r.Ok? ==> r == Ok(LoginUser(users, req.email, req.username).value)
    ensures LoginUser(users, req.email, req.username).None? ==> r == Fail(Unauthorized, "Неверный email/username или пароль")
    ensures LoginUser(users, req.email, req.username).Some? && req.password.None? ==> r == Fail(ServerError, "Ошибка при входе")
    ensures LoginUser(users, req.email, req.username).Some? && req.password.Some?
            && !check(req.password.value, LoginUser(users, req.email, req.username).value.password)
            ==> r == Fail(Unauthorized, "Неверный email или пароль")
    ensures LoginUser(users, req.email, req.username).Some? && req.password.Some?
            && check(req.password.value, LoginUser(users, req.email, req.username).value.password)
            && Present(req.role) && RequestedRole(req.role.value) == "admin"
            && LoginUser(users, req.email, req.username).value.role != Admin
            ==> r == Fail(Forbidden, "Только аккаунты с ролью администратора могут войти как Admin")
    ensures LoginUser(users, req.email, req.username).Some? && req.password.Some?
            && check(req.password.value, LoginUser(users, req.email, req.username).value.password)
            && Present(req.role) && RequestedRole(req.role.value) == "doctor"
            && LoginUser(users, req.email, req.username).value.role != Doctor
            ==> r == Fail(Forbidden, "Только аккаунты врачей могут входить как Doctor")
    ensures r.Fail? ==> r.status in {Unauthorized, Forbidden, ServerError}
    ensures r != Fail(Forbidden, "Доступ разрешён только для зарегистрированных врачей")
  {
    match LoginUser(users, req.email, req.username)
    case None => Fail(Unauthorized, "Неверный email/username или пароль")
    case Some(user) => Admit(users, user, req, check)
  }

  /** The login route once the user is found: the password check, then the role hint. */
  function Admit(users: seq<User>, user: User, req: LegacyLogin, check: (string, string) -> bool): (r: Response<User>)
    requires user in users
    ensures req.password.None? ==> r == Fail(ServerError, "Ошибка при входе")
    ensures req.password.Some? && !check(req.password.value, user.password) ==> r == Fail(Unauthorized, "Неверный email или пароль")
    ensures req.password.Some? && check(req.password.value, user.password)
            && Present(req.role) && RequestedRole(req.role.value) == "admin" && user.role != Admin
            ==> r == Fail(Forbidden, "Только аккаунты с ролью администратора могут войти как Admin")
    ensures req.password.Some? && check(req.password.value, user.password)
            && Present(req.role) && RequestedRole(req.role.value) == "doctor" && user.role != Doctor
            ==> r == Fail(Forbidden, "Только аккаунты врачей могут входить как Doctor")
    ensures r.Ok? <==> req.password.Some? && check(req.password.value, user.password) && HintSatisfied(req.role, user.role)
    ensures r.Ok? ==> r.value == user
    ensures r.Fail? ==> r.status in {Unauthorized, Forbidden, ServerError}
    ensures r != Fail(Forbidden, "Доступ разрешён только для зарегистрированных врачей")
  {
    if req.password.None? then Fail(ServerError, "Ошибка при входе")
    else if !check(req.password.value, user.password) then Fail(Unauthorized, "Неверный email или пароль")
    else if !Present(req.role) then Ok(user)
    else
      var requested := RequestedRole(req.role.value);
      if requested == "admin" && user.role != Admin then
        Fail(Forbidden, "Только аккаунты с ролью администратора могут войти как Admin")
      else if requested == "doctor" && user.role != Doctor then
        Fail(Forbidden, "Только аккаунты врачей могут входить как Doctor")
      else if requested == "doctor" && user.email !in DoctorEmails(users) then
        Fail(Forbidden, "Доступ разрешён только для зарегистрированных врачей")
      else Ok(user)
  }

  /** The emails of all users with role doctor. */
  function DoctorEmails(users: seq<User>): (r: seq<string>)
    ensures forall u :: u in users && u.role == Doctor ==> u.email in r
  {
    var doctors := Seqs.Filter(users, (u: User) => u.role == Doctor);
    var r := seq(|doctors|, i requires 0 <= i < |doctors| => doctors[i].email);
    assert forall u :: u in users && u.role == Doctor ==> u.email in r by {
      forall u | u in users && u.role == Doctor
        ensures u.email in r
      {
        assert u in doctors;
        var i :| 0 <= i < |doctors| && doctors[i] == u;
        assert r[i] == u.email;
      }
    }
    r
  }

  /** A patient (or `user`) role hint never changes the outcome of a login. */
  lemma PatientHintIgnored(users: seq<User>, req: LegacyLogin, check: (string, string) -> bool)
    requires req.role == Some("patient") || req.role == Some("user")
    ensures Login(users, req, check) == Login(users, req.(role := None), check)
  {
    assert RequestedRole(req.role.value) == "patient";
    assert |"patient"| != |"admin"| && |"patient"| != |"doctor"|;
    InertHint(users, req, check);
  }

  /** A hint that asks for neither admin nor doctor is as good as no hint. */
  lemma InertHint(users: seq<User>, req: LegacyLogin, check: (string, string) -> bool)
    requires Present(req.role) && RequestedRole(req.role.value) != "admin" && RequestedRole(req.role.value) != "doctor"
    ensures Login(users, req, check) == Login(users, req.(role := None), check)
  {
    var plain := req.(role := None);
    assert plain.email == req.email && plain.username == req.username && plain.password == req.password;
  }
}

=== FILE: service_controller.dfy ===
/**
 * app/controllers/service.controller.js: the service catalogue. Creation goes through the schema
 * of app/models/service.model.js; an update is a `findByIdAndUpdate` with validators on, which
 * bypasses the `pre('save')` hook.
 */
module ServiceController {

  import opened Wrappers
  import opened Json
  import opened Domain
  import JsString
  import Seqs
  import Sorting
  import ServiceModel

  function ServiceName(s: Service): string {
    s.name
  }

  /** MongoDB's `sort({name: 1})` under binary string order. */
  function ByName(): (Service, Service) -> bool {
    Sorting.ByKey(ServiceName)
  }

  /** The `{active: true}` query: a cleared `active` does not match. */
  predicate IsActive(s: Service) {
    s.active == Some(true)
  }

  /** `getAllServices`: exactly the active services, by name. */
  function GetAllServices(services: seq<Service>): (r: seq<Service>)
    ensures forall s :: s in r <==> s in services && s.active == Some(true)
    ensures multiset(r) == multiset(Seqs.Filter(services, IsActive))
    ensures Sorting.SortedBy(r, ByName())
  {
    Sorting.ByKeyIsPreorder(ServiceName);
    Sorting.Sort(Seqs.Filter(services, IsActive), ByName())
  }

  /** The index of the service `findById` returns. */
  function FindService(services: seq<Service>, id: Id): (r: Option<nat>)
    ensures r.None? <==> forall k :: 0 <= k < |services| ==> services[k].id != id
    ensures r.Some? ==> r.value < |services| && services[r.value].id == id
  {
    Seqs.FindFirst(services, (s: Service) => s.id == id)
  }

  /** `getServiceById`: the service with that id, or 404. */
  function GetServiceById(services: seq<Service>, id: Id): (r: Response<Service>)
    ensures r.Fail? <==> forall k :: 0 <= k < |services| ==> services[k].id != id
    ensures r.Fail? ==> r == Fail(NotFound, "Service not found")
    ensures r.Ok? ==> r.value in services && r.value.id == id
  {
    match FindService(services, id)
    case None => Fail(NotFound, "Service not found")
    case Some(k) => Ok(services[k])
  }

  /** The fields `createService` reads from the body. */
  datatype ServiceRequest = ServiceRequest(
    name: Option<string>,
    description: Option<string>,
    price: Option<int>,
    duration: Option<int>,
    category: Option<string>)

  /**
   * `createService`: the body's fields with `active` forced to true, saved through the schema;
   * a failed validation is passed to the error handler (500).
   */
  function CreateService(db: Db, req: ServiceRequest, newId: Id, now: int): (r: Response<Db>)
    ensures r.Fail? ==> r == Fail(ServerError, "Validation failed")
    ensures r.Ok? <==> ServiceModel.Create(ServiceModel.Draft(req.name, req.description, req.price, req.duration, req.category, Some(true)), newId, now).Some?
    ensures r.Ok? ==> r.value.(services := db.services) == db
    ensures r.Ok? ==> |r.value.services| == |db.services| + 1 && r.value.services[..|db.services|] == db.services
    ensures r.Ok? ==> var s := r.value.services[|db.services|];
                      s.id == newId && s.active == Some(true) && ServiceModel.Valid(s) && s.updatedAt == Some(now)
    ensures r.Ok? ==> var s := r.value.services[|db.services|];
                      && req.name.Some? && s.name == JsString.Trim(req.name.value)
                      && s.description == ServiceModel.TrimSetter(req.description)
                      && req.price.Some? && s.price == req.price.value
                      && s.duration == (if req.duration.Some? then req.duration.value else ServiceModel.DefaultDuration)
                      && s.category == (if req.category.Some? then ParseCategory(req.category.value).value else Consultation)
                      && s.createdAt == Some(now)
  {
    var d := ServiceModel.Draft(req.name, req.description, req.price, req.duration, req.category, Some(true));
    match ServiceModel.Create(d, newId, now)
    case None => Fail(ServerError, "Validation failed")
    case Some(s) => Ok(db.(services := db.services + [s]))
  }

  /** A created service is listed by `getAllServices` and found by `getServiceById` under a fresh id. */
  lemma CreatedServiceIsListed(db: Db, req: ServiceRequest, newId: Id, now: int)
    requires Fresh(db.services, (s: Service) => s.id, newId)
    requires CreateService(db, req, newId, now).Ok?
    ensures var services := CreateService(db, req, newId, now).value.services;
            && services[|db.services|] in GetAllServices(services)
            && GetServiceById(services, newId) == Ok(services[|db.services|])
  {
    var services := CreateService(db, req, newId, now).value.services;
    var s := services[|db.services|];
    assert services == db.services + [s];
    AppendedIsListed(db.services, s);
  }

  /** An active service appended under a fresh id is listed and is what a lookup of its id finds. */
  lemma AppendedIsListed(services: seq<Service>, s: Service)
    requires s.active == Some(true) && Fresh(services, (x: Service) => x.id, s.id)
    ensures s in GetAllServices(services + [s])
    ensures GetServiceById(services + [s], s.id) == Ok(s)
  {
    var all := services + [s];
    assert all[|services|] == s;
    assert forall k :: 0 <= k < |services| ==> all[k].id != s.id by {
      assert forall k :: 0 <= k < |services| ==> all[k] == services[k];
    }
    assert FindService(all, s.id) == Some(|services|);
  }

  /** Every path of the Service schema; Mongoose drops any other key of an update. */
  const SchemaKeys: set<string> := {"name", "description", "price", "duration", "category", "active", "createdAt", "updatedAt"}

  /** The `allowedUpdates` list the handler declares. */
  const AllowedUpdates: set<string> := {"name", "description", "price", "duration", "category", "active"}

  /** `name` under an update: trimmed by the setter, then `required`. */
  function AsName(v: Json): (r: Option<string>)
    ensures r.Some? <==> v.JStr? && JsString.Trim(v.s) != ""
    ensures r.Some? ==> r.value == JsString.Trim(v.s) && r.value == JsString.Trim(r.value)
  {
    if v.JStr? && JsString.Trim(v.s) != "" then JsString.TrimIdempotent(v.s); Some(JsString.Trim(v.s)) else None
  }

  /** `description` under an update: a string is trimmed by the setter; `null` clears it; nothing else is a string. */
  function AsDescription(v: Json): (r: Option<Option<string>>)
    ensures r.Some? <==> v.JStr? || v.JNull?
    ensures v.JStr? ==> r == Some(Some(JsString.Trim(v.s)))
    ensures v.JNull? ==> r == Some(None)
    ensures r.Some? && r.value.Some? ==> r.value.value == JsString.Trim(r.value.value)
  {
    match v
    case JStr(s) => JsString.TrimIdempotent(s); Some(Some(JsString.Trim(s)))
    case JNull => Some(None)
    case _ => None
  }

  /** `price` under an update: a number no less than 0. */
  function AsPrice(v: Json): (r: Option<int>)
    ensures r.Some? <==> v.JNum? && v.n >= 0
    ensures r.Some? ==> r.value == v.n
  {
    if v.JNum? && v.n >= 0 then Some(v.n) else None
  }

  /** `duration` under an update: a number within the schema's bounds. */
  function AsDuration(v: Json): (r: Option<int>)
    ensures r.Some? <==> v.JNum? && ServiceModel.DurationInRange(v.n)
    ensures r.Some? ==> r.value == v.n
  {
    if v.JNum? && ServiceModel.DurationInRange(v.n) then Some(v.n) else None
  }

  /** `category` under an update: exactly the enum's names are accepted. */
  function AsCategory(v: Json): (r: Option<Category>)
    ensures r.Some? <==> v.JStr? && ParseCategory(v.s).Some?
    ensures r.Some? ==> ParseCategory(v.s) == r
  {
    if v.JStr? then ParseCategory(v.s) else None
  }

  /** Some schema path of `patch` refuses its value: the cast or a validator fails. */
  predicate Refused(patch: Body) {
    || Field(patch, "name", AsName).Bad?
    || Field(patch, "description", AsDescription).Bad?
    || Field(patch, "price", AsPrice).Bad?
    || Field(patch, "duration", AsDuration).Bad?
    || Field(patch, "category", AsCategory).Bad?
    || Field(patch, "active", AsNullableBool).Bad?
    || Field(patch, "createdAt", AsNullableInt).Bad?
    || Field(patch, "updatedAt", AsNullableInt).Bad?
  }

  /**
   * `t` is `s` with every path `patch` names set to the cast of the value sent (strings trimmed,
   * numbers within the validators' bounds, `null` clearing an optional path) and every other path
   * as it was.
   */
  predicate Applied(s: Service, t: Service, patch: Body) {
    && t.id == s.id
    && Assigned(patch, "name", AsName, t.name, s.name)
    && Assigned(patch, "description", AsDescription, t.description, s.description)
    && Assigned(patch, "price", AsPrice, t.price, s.price)
    && Assigned(patch, "duration", AsDuration, t.duration, s.duration)
    && Assigned(patch, "category", AsCategory, t.category, s.category)
    && Assigned(patch, "active", AsNullableBool, t.active, s.active)
    && Assigned(patch, "createdAt", AsNullableInt, t.createdAt, s.createdAt)
    && Assigned(patch, "updatedAt", AsNullableInt, t.updatedAt, s.updatedAt)
  }

  /**
   * `$set` of the body's schema paths with validators on: every present path is cast and validated
   * (any failure fails the whole update) and assigned; the save hook does not run.
   */
  function Patch(s: Service, patch: Body): (r: Option<Service>)
    ensures r.None? <==> Refused(patch)
    ensures r.Some? ==> Applied(s, r.value, patch)
  {
    var name := Field(patch, "name", AsName);
    var description := Field(patch, "description", AsDescription);
    var price := Field(patch, "price", AsPrice);
    var duration := Field(patch, "duration", AsDuration);
    var category := Field(patch, "category", AsCategory);
    var active := Field(patch, "active", AsNullableBool);
    var createdAt := Field(patch, "createdAt", AsNullableInt);
    var updatedAt := Field(patch, "updatedAt", AsNullableInt);
    if name.Bad? || description.Bad? || price.Bad? || duration.Bad? || category.Bad? || active.Bad? || createdAt.Bad? || updatedAt.Bad?
    then None
    else
      FieldAssigns(patch, "name", AsName, s.name);
      FieldAssigns(patch, "description", AsDescription, s.description);
      FieldAssigns(patch, "price", AsPrice, s.price);
      FieldAssigns(patch, "duration", AsDuration, s.duration);
      FieldAssigns(patch, "category", AsCategory, s.category);
      FieldAssigns(patch, "active", AsNullableBool, s.active);
      FieldAssigns(patch, "createdAt", AsNullableInt, s.createdAt);
      FieldAssigns(patch, "updatedAt", AsNullableInt, s.updatedAt);
      Some(s.(name := name.Or(s.name), description := description.Or(s.description), price := price.Or(s.price),
                 duration := duration.Or(s.duration), category := category.Or(s.category), active := active.Or(s.active),
                 createdAt := createdAt.Or(s.createdAt), updatedAt := updatedAt.Or(s.updatedAt)))
  }

  /** Update validators keep a valid service valid. */
  lemma PatchKeepsValid(s: Service, patch: Body)
    requires ServiceModel.Valid(s) && Patch(s, patch).Some?
    ensures ServiceModel.Valid(Patch(s, patch).value)
  {
    var r := Patch(s, patch).value;
    assert r.name != "" && r.name == JsString.Trim(r.name) by {
      if "name" in patch {
        assert AsName(patch["name"]).Some?;
      }
    }
    assert r.description.Some? ==> r.description.value == JsString.Trim(r.description.value) by {
      if "description" in patch && patch["description"].JStr? {
        JsString.TrimIdempotent(patch["description"].s);
      }
    }
    assert r.price >= 0 by {
      if "price" in patch {
        assert AsPrice(patch["price"]).Some?;
      }
    }
    assert ServiceModel.DurationInRange(r.duration) by {
      if "duration" in patch {
        assert AsDuration(patch["duration"]).Some?;
      }
    }
  }

  /** Refusal depends only on the body, not on the stored service. */
  lemma RefusedIsBodyOnly(s: Service, t: Service, patch: Body)
    ensures Patch(s, patch).None? <==> Patch(t, patch).None?
  {
  }

  /**
   * An update restricted to the paths in `keys`: 500 when a value is refused (even for an unknown
   * id), 404 for an unknown id, otherwise only that service changes, by the values sent.
   */
  function UpdateWith(db: Db, id: Id, body: Body, keys: set<string>): (r: Response<Db>)
    ensures Refused(Pick(body, keys)) <==> r == Fail(ServerError, "Validation failed")
    ensures !Refused(Pick(body, keys)) && FindService(db.services, id).None? <==> r == Fail(NotFound, "Service not found")
    ensures !Refused(Pick(body, keys)) && FindService(db.services, id).Some? ==> r.Ok?
    ensures r.Ok? ==> UpdatedOne(db, r.value, id, Pick(body, keys))
  {
    var patch := Pick(body, keys);
    if Refused(patch) then Fail(ServerError, "Validation failed")
    else match FindService(db.services, id)
      case None => Fail(NotFound, "Service not found")
      case Some(k) => Ok(db.(services := db.services[k := Patch(db.services[k], patch).value]))
  }

  /** `after` is `db` with the service found under `id`, and nothing else, changed by `patch`. */
  predicate UpdatedOne(db: Db, after: Db, id: Id, patch: Body) {
    && FindService(db.services, id).Some?
    && var k := FindService(db.services, id).value;
       && |after.services| == |db.services|
       && after == db.(services := db.services[k := after.services[k]])
       && Applied(db.services[k], after.services[k], patch)
  }

  /**
   * `updateService` as written: the whole body goes to `$set` and `allowedUpdates` is never
   * consulted, so every schema path the body names is applied, timestamps included.
   */
  function UpdateService(db: Db, id: Id, body: Body): (r: Response<Db>)
    ensures Refused(Pick(body, SchemaKeys)) <==> r == Fail(ServerError, "Validation failed")
    ensures !Refused(Pick(body, SchemaKeys)) && FindService(db.services, id).None? <==> r == Fail(NotFound, "Service not found")
    ensures !Refused(Pick(body, SchemaKeys)) && FindService(db.services, id).Some? ==> r.Ok?
    ensures r.Ok? ==> UpdatedOne(db, r.value, id, Pick(body, SchemaKeys))
  {
    UpdateWith(db, id, body, SchemaKeys)
  }

  /** A body naming `createdAt` rewrites the creation time, a path outside `allowedUpdates`. */
  lemma UpdateServiceRewritesCreatedAt(db: Db, id: Id, t: int)
    requires FindService(db.services, id).Some?
    ensures var r := UpdateService(db, id, map["createdAt" := JNum(t)]);
            r.Ok? && r.value.services[FindService(db.services, id).value].createdAt == Some(t)
  {
    var body := map["createdAt" := JNum(t)];
    assert Pick(body, SchemaKeys) == body;
    assert !Refused(body);
  }

  /** `updateService` with the declared `allowedUpdates` applied: only those six paths of the body are applied. */
  function UpdateServiceAllowed(db: Db, id: Id, body: Body): (r: Response<Db>)
    ensures Refused(Pick(body, AllowedUpdates)) <==> r == Fail(ServerError, "Validation failed")
    ensures !Refused(Pick(body, AllowedUpdates)) && FindService(db.services, id).None? <==> r == Fail(NotFound, "Service not found")
    ensures !Refused(Pick(body, AllowedUpdates)) && FindService(db.services, id).Some? ==> r.Ok?
    ensures r.Ok? ==> UpdatedOne(db, r.value, id, Pick(body, AllowedUpdates))
  {
    UpdateWith(db, id, body, AllowedUpdates)
  }

  /** With the allow-list applied, an update never moves either timestamp of any service. */
  lemma AllowedUpdateKeepsTimestamps(db: Db, id: Id, body: Body)
    requires UpdateServiceAllowed(db, id, body).Ok?
    ensures var services := UpdateServiceAllowed(db, id, body).value.services;
            && |services| == |db.services|
            && forall k :: 0 <= k < |services| ==>
                 services[k].createdAt == db.services[k].createdAt && services[k].updatedAt == db.services[k].updatedAt
  {
    var patch := Pick(body, AllowedUpdates);
    TimestampsNotAllowed();
    var after := UpdateServiceAllowed(db, id, body).value;
    var k := FindService(db.services, id).value;
    assert UpdatedOne(db, after, id, patch);
    KeepsUnnamedTimestamps(db.services[k], after.services[k], patch);
    forall j | 0 <= j < |after.services|
      ensures after.services[j].createdAt == db.services[j].createdAt && after.services[j].updatedAt == db.services[j].updatedAt
    {
      if j != k {
        assert after.services[j] == db.services[j];
      }
    }
  }

  /** Neither timestamp is in `allowedUpdates`. */
  lemma TimestampsNotAllowed()
    ensures "createdAt" !in AllowedUpdates && "updatedAt" !in AllowedUpdates
  {
    assert "createdAt"[1] == 'r' && "category"[1] == 'a';
  }

  /** A patch naming neither timestamp leaves both as they were. */
  lemma KeepsUnnamedTimestamps(s: Service, t: Service, patch: Body)
    requires Applied(s, t, patch) && "createdAt" !in patch && "updatedAt" !in patch
    ensures t.createdAt == s.createdAt && t.updatedAt == s.updatedAt
  {
  }

  /** Every stored service satisfies the schema. */
  predicate AllValid(services: seq<Service>) {
    forall k :: 0 <= k < |services| ==> ServiceModel.Valid(services[k])
  }

  /** Creation and update (with or without the allow-list) keep every stored service valid. */
  lemma UpdatesKeepAllValid(db: Db, id: Id, body: Body, keys: set<string>)
    requires AllValid(db.services)
    requires UpdateWith(db, id, body, keys).Ok?
    ensures AllValid(UpdateWith(db, id, body, keys).value.services)
  {
    var k := FindService(db.services, id).value;
    PatchKeepsValid(db.services[k], Pick(body, keys));
    assert UpdateWith(db, id, body, keys).value.services == db.services[k := Patch(db.services[k], Pick(body, keys)).value];
  }

  /** `deleteService`: 404 for an unknown id, otherwise the first service with that id is removed. */
  function DeleteService(db: Db, id: Id): (r: Response<Db>)
    ensures r.Fail? <==> FindService(db.services, id).None?
    ensures r.Fail? ==> r == Fail(NotFound, "Service not found")
    ensures r.Ok? ==> r.value.(services := db.services) == db
    ensures r.Ok? ==> exists k :: && FindService(db.services, id) == Some(k)
                                  && r.value.services == db.services[..k] + db.services[k + 1..]
  {
    match FindService(db.services, id)
    case None => Fail(NotFound, "Service not found")
    case Some(k) => Ok(db.(services := Seqs.RemoveAt(db.services, k)))
  }

  /** With unique ids, a deleted service is gone: the next lookup answers 404. */
  lemma DeletedServiceIsGone(db: Db, id: Id)
    requires UniqueIds(db.services, (s: Service) => s.id)
    requires DeleteService(db, id).Ok?
    ensures GetServiceById(DeleteService(db, id).value.services, id) == Fail(NotFound, "Service not found")
  {
    var k := FindService(db.services, id).value;
    var services := DeleteService(db, id).value.services;
    forall j | 0 <= j < |services|
      ensures services[j].id != id
    {
      if j < k {
        assert services[j] == db.services[j];
      } else {
        assert services[j] == db.services[j + 1];
      }
    }
  }
}

=== FILE: service_model.dfy ===
/** The `Service` schema of app/models/service.model.js and its `pre('save')` hook. */
module ServiceModel {

  import opened Wrappers
  import opened Domain
  import JsString

  const MinDuration := 15
  const MaxDuration := 240
  const DefaultDuration := 30
  const DefaultCategory := "consultation"

  predicate DurationInRange(d: int) {
    MinDuration <= d <= MaxDuration
  }

  /** What the schema guarantees of a stored service: a trimmed non-empty name, price >= 0, duration in range. */
  predicate Valid(s: Service) {
    && s.name != "" && s.name == JsString.Trim(s.name)
    && (s.description.Some? ==> s.description.value == JsString.Trim(s.description.value))
    && s.price >= 0
    && DurationInRange(s.duration)
  }

  /** The values a new `Service(...)` is constructed from; None is an undefined path. */
  datatype Draft = Draft(
    name: Option<string>,
    description: Option<string>,
    price: Option<int>,
    duration: Option<int>,
    category: Option<string>,
    active: Option<bool>)

  /** The `pre('save')` hook: `updatedAt` becomes the save time and nothing else changes. */
  function Touch(s: Service, now: int): (r: Service)
    ensures r.updatedAt == Some(now)
    ensures r.(updatedAt := s.updatedAt) == s
  {
    s.(updatedAt := Some(now))
  }

  /** The `trim: true` setter on an optional string path; its result is already trimmed. */
  function TrimSetter(v: Option<string>): (r: Option<string>)
    ensures r.None? <==> v.None?
    ensures r.Some? ==> r.value == JsString.Trim(v.value) && r.value == JsString.Trim(r.value)
  {
    match v
    case None => None
    case Some(s) => JsString.TrimIdempotent(s); Some(JsString.Trim(s))
  }

  /** The defaults and the setters applied to a draft whose required paths are present. */
  function Build(d: Draft, id: Id, now: int): (s: Service)
    requires d.name.Some? && d.price.Some? && ParseCategory(d.category.GetOr(DefaultCategory)).Some?
    ensures && s.id == id && s.name == JsString.Trim(d.name.value) && s.description == TrimSetter(d.description)
            && s.price == d.price.value
            && s.duration == (if d.duration.Some? then d.duration.value else DefaultDuration)
            && s.category == (if d.category.Some? then ParseCategory(d.category.value).value else Consultation)
            && s.active == Some(d.active != Some(false))
            && s.createdAt == Some(now) && s.updatedAt == Some(now)
  {
    var active := d.active.GetOr(true);
    assert active == (d.active != Some(false));
    var s := Service(id, JsString.Trim(d.name.value), TrimSetter(d.description), d.price.value, d.duration.GetOr(DefaultDuration),
                     ParseCategory(d.category.GetOr(DefaultCategory)).value, Some(active), Some(now), None);
    Touch(s, now)
  }

  /**
   * `new Service(draft).save()`: setters trim the strings, defaults fill undefined paths, validators run
   * (None is a failed validation), and the hook stamps `updatedAt`.
   */
  function Create(d: Draft, id: Id, now: int): (r: Option<Service>)
    ensures r.Some? <==> && d.name.Some? && JsString.Trim(d.name.value) != ""
                         && d.price.Some? && d.price.value >= 0
                         && DurationInRange(d.duration.GetOr(DefaultDuration))
                         && ParseCategory(d.category.GetOr(DefaultCategory)).Some?
    ensures r.Some? ==> Valid(r.value) && r.value == Build(d, id, now)
  {
    if d.name.None? || JsString.Trim(d.name.value) == "" || d.price.None? || d.price.value < 0
       || !DurationInRange(d.duration.GetOr(DefaultDuration)) || ParseCategory(d.category.GetOr(DefaultCategory)).None?
    then None
    else
      var s := Build(d, id, now);
      JsString.TrimIdempotent(d.name.value);
      Some(s)
  }
}

=== FILE: sorting.dfy ===
/** Sorting by a comparator: the stable `Array.prototype.sort` and MongoDB's `.sort(...)` over a query result. */
module Sorting {

  /** `le` is a total preorder: any two elements compare, and comparison chains. */
  ghost predicate TotalPreorder<T(!new)>(le: (T, T) -> bool) {
    && (forall a, b :: le(a, b) || le(b, a))
    && (forall a, b, c :: le(a, b) && le(b, c) ==> le(a, c))
  }

  /** Every earlier element is `le` every later one. */
  predicate SortedBy<T>(s: seq<T>, le: (T, T) -> bool) {
    forall i, j :: 0 <= i < j < |s| ==> le(s[i], s[j])
  }

  /** Inserts `x` before the first element it is strictly below, so equal elements keep their order. */
  function Insert<T>(x: T, s: seq<T>, le: (T, T) -> bool): (r: seq<T>)
    ensures multiset(r) == multiset(s) + multiset{x}
    ensures |r| == |s| + 1
    decreases |s|
  {
    if |s| == 0 then [x]
    else if le(x, s[0]) && !le(s[0], x) then [x] + s
    else
      assert s == [s[0]] + s[1..];
      [s[0]] + Insert(x, s[1..], le)
  }

  /** Inserting into a sorted sequence keeps it sorted. */
  lemma {:induction false} InsertSorted<T(!new)>(x: T, s: seq<T>, le: (T, T) -> bool)
    requires TotalPreorder(le)
    requires SortedBy(s, le)
    ensures SortedBy(Insert(x, s, le), le)
    decreases |s|
  {
    if |s| > 0 && !(le(x, s[0]) && !le(s[0], x)) {
      var rest := Insert(x, s[1..], le);
      InsertSorted(x, s[1..], le);
      assert le(s[0], x);
      forall y | y in rest
        ensures le(s[0], y)
      {
        assert y in multiset(rest);
        if y != x {
          assert y in multiset(s[1..]);
          var k :| 0 <= k < |s[1..]| && s[1..][k] == y;
          assert s[k + 1] == y;
        }
      }
      var r := [s[0]] + rest;
      forall i, j | 0 <= i < j < |r|
        ensures le(r[i], r[j])
      {
        if i == 0 {
          assert r[j] == rest[j - 1];
          assert rest[j - 1] in rest;
        } else {
          assert r[i] == rest[i - 1] && r[j] == rest[j - 1];
        }
      }
    }
  }

  /** Insertion sort: a sorted permutation of `s`. */
  function Sort<T(!new)>(s: seq<T>, le: (T, T) -> bool): (r: seq<T>)
    requires TotalPreorder(le)
    ensures SortedBy(r, le)
    ensures multiset(r) == multiset(s)
    ensures |r| == |s|
    ensures forall x :: x in r <==> x in s
    decreases |s|
  {
    if |s| == 0 then []
    else
      assert s == [s[0]] + s[1..];
      var t := Sort(s[1..], le);
      InsertSorted(s[0], t, le);
      var r := Insert(s[0], t, le);
      assert forall x :: x in r <==> x in s by {
        forall x
          ensures x in r <==> x in s
        {
          assert x in r <==> x in multiset(r);
          assert x in s <==> x in multiset(s);
        }
      }
      r
  }

  /** Code-point lexicographic order on strings: MongoDB's default (binary) string ordering. */
  predicate StrLe(a: string, b: string)
    decreases |a|
  {
    |a| == 0 || (|b| > 0 && (a[0] < b[0] || (a[0] == b[0] && StrLe(a[1..], b[1..]))))
  }

  lemma {:induction false} StrLeTotal(a: string, b: string)
    ensures StrLe(a, b) || StrLe(b, a)
    decreases |a|
  {
    if |a| > 0 && |b| > 0 && a[0] == b[0] {
      StrLeTotal(a[1..], b[1..]);
    }
  }

  lemma {:induction false} StrLeTransitive(a: string, b: string, c: string)
    requires StrLe(a, b) && StrLe(b, c)
    ensures StrLe(a, c)
    decreases |a|
  {
    if |a| > 0 && a[0] == b[0] && b[0] == c[0] {
      StrLeTransitive(a[1..], b[1..], c[1..]);
    }
  }

  /** Comparison by a string key under `StrLe`: MongoDB's ascending sort on a string field. */
  function ByKey<T>(key: T -> string): (T, T) -> bool {
    (x: T, y: T) => StrLe(key(x), key(y))
  }

  /** Comparing by a string key is a total preorder, so it can be sorted by. */
  lemma ByKeyIsPreorder<T(!new)>(key: T -> string)
    ensures TotalPreorder(ByKey(key))
  {
    var le := ByKey(key);
    forall a: T, b: T
      ensures le(a, b) || le(b, a)
    {
      StrLeTotal(key(a), key(b));
    }
    forall a: T, b: T, c: T | le(a, b) && le(b, c)
      ensures le(a, c)
    {
      StrLeTransitive(key(a), key(b), key(c));
    }
  }
}

=== FILE: user_controller.dfy ===
/**
 * app/controllers/user.controller.js: a user's own profile update and the admin's role change.
 * The `User` schema follows the userSchema of server.js (a required `fullName`, an optional `phone`
 * and `birthDate`).
 */
module UserController {

  import opened Wrappers
  import opened Json
  import opened Domain
  import Seqs

  /** The `updateProfile` allow-list. */
  const ProfileKeys: set<string> := {"fullName", "phone", "birthDate"}

  /** The index of the user `findByIdAndUpdate` addresses. */
  function FindUser(users: seq<User>, id: Id): (r: Option<nat>)
    ensures r.None? <==> forall k :: 0 <= k < |users| ==> users[k].id != id
    ensures r.Some? ==> r.value < |users| && users[r.value].id == id
  {
    Seqs.FindFirst(users, (u: User) => u.id == id)
  }

  /**
   * A `birthDate` body value: a number stands for a date and is kept as its year; `null` and the
   * empty string clear the path; anything else fails the Date cast.
   */
  function AsBirthYear(v: Json): (r: Option<Option<int>>)
    ensures r == Some(None) <==> v == JNull || v == JStr("")
    ensures r.Some? && r.value.Some? <==> v.JNum?
  {
    match v
    case JNum(n) => Some(Some(n))
    case JNull => Some(None)
    case JStr(s) => if s == "" then Some(None) else None
    case _ => None
  }

  /** Every allow-listed value in the body is one its schema path accepts. */
  predicate ProfileCasts(body: Body) {
    && ("fullName" in body ==> AsRequiredString(body["fullName"]).Some?)
    && ("phone" in body ==> AsText(body["phone"]).Some?)
    && ("birthDate" in body ==> AsBirthYear(body["birthDate"]).Some?)
  }

  /** `b` is `a` with at most the profile fields named in `keys` changed. */
  predicate ProfileOnly(a: User, b: User, keys: set<string>) {
    && b.(fullName := a.fullName, phone := a.phone, birthYear := a.birthYear) == a
    && ("fullName" !in keys ==> b.fullName == a.fullName)
    && ("phone" !in keys ==> b.phone == a.phone)
    && ("birthDate" !in keys ==> b.birthYear == a.birthYear)
  }

  /** Each profile field the body sends holds the value sent, as its path casts it. */
  predicate ProfileStored(u: User, body: Body) {
    && ("fullName" in body ==> AsRequiredString(body["fullName"]) == Some(u.fullName))
    && ("phone" in body ==> AsText(body["phone"]) == Some(u.phone))
    && ("birthDate" in body ==> AsBirthYear(body["birthDate"]) == Some(u.birthYear))
  }

  /**
   * `updateProfile` for the authenticated `caller`: the allow-listed keys present in the body are
   * `$set` with validators on, so a value the schema refuses is a 500 even before the lookup; an
   * unknown caller is a 404.
   */
  function UpdateProfile(db: Db, caller: Id, body: Body): (r: Response<Db>)
    ensures r.Ok? ==> r.value.(users := db.users) == db
    ensures r.Ok? ==> && FindUser(db.users, caller).Some?
                      && var k := FindUser(db.users, caller).value;
                         && |r.value.users| == |db.users|
                         && (forall j :: 0 <= j < |db.users| && j != k ==> r.value.users[j] == db.users[j])
                         && ProfileOnly(db.users[k], r.value.users[k], body.Keys)
                         && ProfileStored(r.value.users[k], body)
    ensures r.Ok? && "fullName" in body ==> body["fullName"].JStr? && body["fullName"].s != ""
    ensures !ProfileCasts(body) <==> r == Fail(ServerError, "Validation failed")
    ensures ProfileCasts(body) && FindUser(db.users, caller).None? <==> r == Fail(NotFound, "User not found")
    ensures ProfileCasts(body) && FindUser(db.users, caller).Some? ==> r.Ok?
  {
    var patch := Pick(body, ProfileKeys);
    var fullName := Field(patch, "fullName", AsRequiredString);
    var phone := Field(patch, "phone", AsText);
    var birth := Field(patch, "birthDate", AsBirthYear);
    if !ProfileCasts(body) then Fail(ServerError, "Validation failed")
    else match FindUser(db.users, caller)
      case None => Fail(NotFound, "User not found")
      case Some(k) =>
        var u := db.users[k];
        var u' := u.(fullName := fullName.Or(u.fullName), phone := phone.Or(u.phone), birthYear := birth.Or(u.birthYear));
        Ok(db.(users := db.users[k := u']))
  }

  /** The profile update cannot change the role, the credentials or any other account field. */
  lemma ProfileKeepsAccount(db: Db, caller: Id, body: Body)
    requires UpdateProfile(db, caller, body).Ok?
    ensures var users := UpdateProfile(db, caller, body).value.users;
            && |users| == |db.users|
            && forall k :: 0 <= k < |users| ==>
                 && users[k].role == db.users[k].role && users[k].email == db.users[k].email
                 && users[k].username == db.users[k].username
                 && users[k].password == db.users[k].password && users[k].id == db.users[k].id
  {
    var users := UpdateProfile(db, caller, body).value.users;
    var k := FindUser(db.users, caller).value;
    assert users[k].(fullName := db.users[k].fullName, phone := db.users[k].phone, birthYear := db.users[k].birthYear) == db.users[k];
  }

  /** Sending the same profile update twice leaves the same database as sending it once. */
  lemma UpdateProfileIdempotent(db: Db, caller: Id, body: Body)
    requires UpdateProfile(db, caller, body).Ok?
    ensures UpdateProfile(UpdateProfile(db, caller, body).value, caller, body) == UpdateProfile(db, caller, body)
  {
    var db1 := UpdateProfile(db, caller, body).value;
    var k := FindUser(db.users, caller).value;
    assert forall j :: 0 <= j < |db.users| ==> db1.users[j].id == db.users[j].id;
    assert FindUser(db1.users, caller) == Some(k);
    var patch := Pick(body, ProfileKeys);
    var fullName := Field(patch, "fullName", AsRequiredString);
    var phone := Field(patch, "phone", AsText);
    var birth := Field(patch, "birthDate", AsBirthYear);
    var u := db1.users[k];
    assert u.(fullName := fullName.Or(u.fullName), phone := phone.Or(u.phone), birthYear := birth.Or(u.birthYear)) == u;
    assert db1.users[k := u] == db1.users;
  }

  /** Reading the profile back after an update finds the caller holding every value sent. */
  lemma UpdatedProfileReadsBack(db: Db, caller: Id, body: Body)
    requires UpdateProfile(db, caller, body).Ok?
    ensures var users := UpdateProfile(db, caller, body).value.users;
            && FindUser(users, caller).Some?
            && ProfileStored(users[FindUser(users, caller).value], body)
  {
    var users := UpdateProfile(db, caller, body).value.users;
    var k := FindUser(db.users, caller).value;
    assert forall j :: 0 <= j < |db.users| ==> users[j].id == db.users[j].id;
    assert FindUser(users, caller) == Some(k);
  }

  /** The role names `updateUserRole` accepts. */
  const RoleNames: set<string> := {"patient", "doctor", "admin"}

  /**
   * `updateUserRole`: 400 unless the body's `role` is one of the three names, then 404 for an unknown
   * id; only the role of that user changes.
   */
  function UpdateUserRole(db: Db, userId: Id, body: Body): (r: Response<Db>)
    ensures !("role" in body && body["role"].JStr? && body["role"].s in RoleNames) <==> r == Fail(BadRequest, "Invalid role")
    ensures r.Fail? ==> r == Fail(BadRequest, "Invalid role") || (r == Fail(NotFound, "User not found") && FindUser(db.users, userId).None?)
    ensures r.Ok? ==> r.value.(users := db.users) == db
    ensures r.Ok? ==> exists k :: && FindUser(db.users, userId) == Some(k) && |r.value.users| == |db.users|
                                  && r.value.users == db.users[k := db.users[k].(role := r.value.users[k].role)]
                                  && RoleName(r.value.users[k].role) == body["role"].s
                                  && Canonical(r.value.users[k].role)
  {
    if !("role" in body && body["role"].JStr? && body["role"].s in RoleNames) then Fail(BadRequest, "Invalid role")
    else match FindUser(db.users, userId)
      case None => Fail(NotFound, "User not found")
      case Some(k) =>
        var role := ParseRole(body["role"].s);
        Ok(db.(users := db.users[k := db.users[k].(role := role)]))
  }

  /** After a successful role change the user holds exactly the requested role, whatever it was before. */
  lemma UpdateUserRoleSetsRole(db: Db, userId: Id, name: string)
    requires name in RoleNames && FindUser(db.users, userId).Some?
    ensures var r := UpdateUserRole(db, userId, map["role" := JStr(name)]);
            && r.Ok? && RoleName(r.value.users[FindUser(db.users, userId).value].role) == name
            && UserById(r.value.users, userId).Some? && RoleName(UserById(r.value.users, userId).value.role) == name
  {
    var r := UpdateUserRole(db, userId, map["role" := JStr(name)]);
    var k := FindUser(db.users, userId).value;
    assert forall j :: 0 <= j < |db.users| ==> r.value.users[j].id == db.users[j].id;
    assert Seqs.FindFirst(r.value.users, (u: User) => u.id == userId) == Some(k);
  }
}

=== FILE: wrappers.dfy ===
/** Failure-carrying datatypes shared by every handler of the clinic application. */
module Wrappers {

  /** A value that may be absent: an omitted request field, a lookup that found nothing. */
  datatype Option<+T> = None | Some(value: T) {

    /** Returns the value, or `default` when absent. */
    function GetOr(default: T): T {
      match this
      case Some(v) => v
      case None => default
    }
  }

  /** The outcome of a request handler: its result, or the HTTP status and message it answers with. */
  datatype Response<+T> = Ok(value: T) | Fail(status: int, message: string)

  const BadRequest: int := 400
  const Unauthorized: int := 401
  const Forbidden: int := 403
  const NotFound: int := 404
  const Conflict: int := 409
  /** Any exception that reaches a handler's `catch` or `next(error)`. */
  const ServerError: int := 500

  /** The JavaScript truthiness of an optional string: absent and "" are both false. */
  predicate Present(s: Option<string>) {
    s.Some? && s.value != ""
  }
}
